=== FILE: README.md ===
# clinMind core in Dafny

clinMind is a study tool for nursing students. A session draws a clinical
specialty and has a generative backend (Azure OpenAI) write a clinical case.
It then alternates generated questions with the student's answers. Each
answer gets a verdict and a feedback, and at the end the session gets a
final assessment. Sessions are stored in a document store (NeDB). The
student's identity lives in an HTTP cookie session.

This project models the core of that system as pure Dafny functions over
immutable data:

| module | file | models |
|---|---|---|
| `Common` | common.dfy | `Option`, `Result`, the failure kinds, JavaScript truthiness of nullable strings |
| `Strings` | strings.dfy | the JavaScript string primitives the code relies on: `\s` white space, `trim`, `toLowerCase`, `includes`, `indexOf`/`lastIndexOf`, `split`, global literal `replace` |
| `TextFormatter` | text_formatter.dfy | `paraTextoLimpo`, `validarCasoClinico`, `extrairSecoesCasoClinico` (utils/textFormatter.js) |
| `HtmlFormatter` | html_formatter.dfy | `paraHTML` (utils/textFormatter.js), each regular expression with its JavaScript semantics |
| `Especialidades` | especialidades.dfy | the specialty list and the draw (utils/sortearEspecialidade.js) |
| `DatabaseService` | database.dfy | the session store (services/databaseService.js) as a `map` from session id to document |
| `AzureOpenAI` | azure_openai.dfy | the pure logic of the backend adapter (services/azureOpenAIService.js): request building, history flattening, JSON salvage, verdict, reply formatting |
| `ConversationAI` | conversation_ai.dfy | the orchestrator (services/conversationAIService.js) |
| `SessionIdentity` | session_identity.dfy | the cookie-session service (services/sessionService.js) |

How the model represents the outside world:

- The backend is a function parameter `Backend = Pedido -> Option<Retorno>`. `None` means the call threw.
- `JSON.parse` is a parameter `Parser = string -> Option<Json>`. `None` means it threw.
- The store is passed in and the store afterwards is returned.
- An orchestrator operation returns a `Step`: the store afterwards, the backend requests made, in order, and the result or the failure. This makes "fails before any backend call" (`pedidos == []`) and "a failure writes nothing" (`store` unchanged) provable.
- Clock readings (`now`), the random specialty index and the fresh uuid are parameters.
- An HTTP session operation returns the session as it is afterwards (`None` once destroyed) next to its result.

The model follows the code as written, including where it does less than
its callers, its own comments or its names suggest:

- `gerarFeedbackFinal` is not idempotent. It always calls the backend again and overwrites the stored assessment. controllers/iaController.js:155 reads a `jaExistia` flag from its result, but services/conversationAIService.js never sets it, so the controller always reports `false`. `ConversationAI.FeedbackFinalAskedTwice` states this.
- `correcaoResposta` reports as `historicoLength` the length of the history read before the correction (services/conversationAIService.js:162). It counts every turn, answered or not.
- `adicionarPerguntaHistorico` does not reject an empty or blank question: it only trims it.
- An empty generated text is not a failure. `initChat` stores an empty case, and the later operations then fail on the missing case.
- The verdict is the JavaScript truthiness of the parsed `correto` field. A reply with `null` content is taken as an object and judged incorrect (`AzureOpenAI.NullContentIsIncorrect`).
- A generated feedback that cleans up to `''` is not written, because the merge skips empty strings. The turn's feedback stays `null`.
- The final-assessment write holds no history-integrity check that can fire, despite the comments at services/databaseService.js:189 and :196. The guard at services/databaseService.js:190 tests a field the update never sets, and the length comparison after the write only logs.
- The adapter's `gerarPergunta` calls `prompts.contextQuestion()` with no arguments (services/azureOpenAIService.js:114), although config/promptsConfig.js:20 declares `contextQuestion(casoClinico, index)`. The template index is then `undefined`, so the prompt carries no template text and no case. The model's argument-less `ContextoPergunta` keeps this.
- `criarSessao` of the session service calls `databaseService.salvarSessao`. databaseService.js defines no such method, so the call always throws inside its `try`, and the error is logged and swallowed. The model records only that the save was attempted (`tentouSalvar`). It never writes the store.

Behaviour of `paraHTML` as written, proved as stated:

- The line feeds become `<br>` before the list rules run. Then `<br><br>` is shortened to `<br>` before the text is split on `<br><br>`. As a result, two paragraphs need at least three line feeds between them (`HtmlFormatter.ParagraphExample`).
- A bullet item is wrapped in `<ul>` and then, by the numbered-list wrap, in `<ol>` as well (`HtmlFormatter.BulletListExample`).

## Model

| member | source | states |
|---|---|---|
| Common.FirstTruthy | services/databaseService.js:32-33 | the JavaScript chain of `or` over two nullable strings and a fallback: the first of `a`, `b` that is a non-empty string, else the fallback |
| Especialidades.Sortear | utils/sortearEspecialidade.js:3-24 | a draw always yields one of the ten listed specialties, never an empty name |
| Especialidades.EveryEspecialidadeDrawable | utils/sortearEspecialidade.js:21-23 | every listed specialty is the outcome of some draw |
| Strings.Trim | services/databaseService.js:98 | `trim` leaves no JavaScript white space at either end, never lengthens, and leaves trimmed text as it is |
| Strings.TrimIsSlice | services/databaseService.js:98 | `trim` removes only white space, and only from the two ends: the result is a contiguous slice of the input |
| Strings.TrimIdempotent | services/databaseService.js:98 | trimming twice is trimming once |
| Strings.ToLower | utils/textFormatter.js:92 | `toLowerCase` keeps the length and lowers each character on its own |
| Strings.Find | utils/textFormatter.js:27 | the first occurrence of a substring; none exactly when the substring does not occur |
| Strings.FindLast | utils/textFormatter.js:27 | the last occurrence of a substring; none exactly when the substring does not occur |
| Strings.Split | utils/textFormatter.js:37 | `split`: joining the pieces back with the separator gives the text, and no piece holds the separator |
| Strings.ReplaceAllIsSplitJoin | utils/textFormatter.js:34 | a global replacement of a literal is splitting on it and joining with the replacement |
| Strings.ReplaceAllPlain | utils/textFormatter.js:34 | a text without the pattern is left as it is |
| Strings.ReplaceAllRemoves | utils/textFormatter.js:17 | replacing every one-character pattern by text without it leaves none of it |
| TextFormatter.StripHeadingsDeletesOnlyMarkers | utils/textFormatter.js:55 | removing heading markers deletes only `#` and white space: every other character survives, in order |
| TextFormatter.StripHeadingsPlain | utils/textFormatter.js:55 | a text without `#` is left as it is |
| TextFormatter.DelimitedFrom | utils/textFormatter.js:20-23 | a `**…**` or `*…*` rewrite introduces no character that is not in the text or in the two tags |
| TextFormatter.DelimitedPlain | utils/textFormatter.js:20-23 | a text without the delimiter is left as it is |
| TextFormatter.UnwrapDeletesOnlyStars | utils/textFormatter.js:58-61 | unwrapping bold and italic spans deletes only `*`: every other character survives, in order |
| TextFormatter.UnwrapPlain | utils/textFormatter.js:58-61 | a text without `*` is left as it is |
| TextFormatter.UnescapeLeavesNoPair | utils/textFormatter.js:64 | after the escape step, no backslash is followed by `n` |
| TextFormatter.UnescapeAround | utils/textFormatter.js:64 | every backslash-n pair, wherever it stands, becomes one line feed, and the text on each side of it is rewritten on its own |
| TextFormatter.UnescapePlain | utils/textFormatter.js:64 | a text without a backslash is left as it is |
| TextFormatter.CollapseLeavesNoTriple | utils/textFormatter.js:67 | after the collapse step, no three line feeds are in a row |
| TextFormatter.CollapseDeletesOnlyNewlines | utils/textFormatter.js:67 | the collapse step deletes only line feeds |
| TextFormatter.CollapsePlain | utils/textFormatter.js:67 | a text without two line feeds in a row is left as it is |
| TextFormatter.ParaTextoLimpo | utils/textFormatter.js:50-70 | a missing or empty text gives `''`; the result has no edge white space, no three line feeds in a row and no backslash-n pair |
| TextFormatter.PlainTextUnchanged | utils/textFormatter.js:50-70 | a trimmed text with no markup and no blank-line run comes back unchanged |
| TextFormatter.EscapedNewlineExample | utils/textFormatter.js:64 | a literal backslash-n between two plain characters becomes a real line break |
| TextFormatter.ValidarCasoClinico | utils/textFormatter.js:124-138 | false for a missing, empty or short (under 50 characters) text; otherwise true exactly when at least three distinct indicators occur in the lower-cased text |
| TextFormatter.ValidarCasoClinicoExtends | utils/textFormatter.js:124-138 | a text accepted as a clinical case stays accepted when more text is appended |
| TextFormatter.ClassifyByPriority | utils/textFormatter.js:94-103 | a heading line switches to the first section, in the `if` chain's order, whose keywords it mentions; a line mentioning none is not a heading |
| TextFormatter.ScanFollowsLastHeading | utils/textFormatter.js:89-107 | after the line loop, the current section is the one named by the last heading, or patient data without one |
| TextFormatter.ScanGathersBodyLines | utils/textFormatter.js:91-107 | each section gathers exactly the non-blank, non-heading lines over which it is in effect, in order, each with its line feed |
| TextFormatter.ExtrairSecoesCasoClinico | utils/textFormatter.js:77-117 | the full text is kept; every section is the trimmed text its lines gathered, by the reference reading above |
| TextFormatter.HeadingNotCopied | utils/textFormatter.js:94-105 | a heading line switches the section and is copied into none |
| HtmlFormatter.Grupo | utils/textFormatter.js:12-14 | a line-rule match begins at a line start with its marker, and its content stays within one line |
| HtmlFormatter.LinhaFrom | utils/textFormatter.js:12-14 | a line rule introduces no character that is not in the text or in its two tags |
| HtmlFormatter.LinhaPlain | utils/textFormatter.js:26 | where no line rule matches, the text is left as it is |
| HtmlFormatter.EnvolverAt | utils/textFormatter.js:27 | the list wrap goes exactly around the stretch from the first `<li>` to the end of the last `</li>` |
| HtmlFormatter.EnvolverPlain | utils/textFormatter.js:31 | a text without tags is not wrapped |
| HtmlFormatter.ParagrafarPlain | utils/textFormatter.js:37-40 | without a double break the text is not split into paragraphs |
| HtmlFormatter.ParagrafarTwo | utils/textFormatter.js:37-40 | two non-blank blocks become two paragraphs, in order |
| HtmlFormatter.ParagrafarKeepsAbsent | utils/textFormatter.js:37-40 | paragraphing introduces no character outside the text and the paragraph tags |
| HtmlFormatter.HtmlStepsNoLineFeed | utils/textFormatter.js:12-40 | once line feeds are replaced by `<br>`, no later step brings one back |
| HtmlFormatter.ParaHTML | utils/textFormatter.js:7-43 | a missing or empty text gives `''`; the result is trimmed and has no line feed |
| HtmlFormatter.PlainTextHtml | utils/textFormatter.js:7-43 | a one-line text without markup comes back trimmed and otherwise unchanged |
| HtmlFormatter.ParagraphExample | utils/textFormatter.js:17-40 | three line feeds between two words give two paragraphs |
| HtmlFormatter.BulletListExample | utils/textFormatter.js:26-31 | a one-item bullet list ends up wrapped in `<ul>` and then in `<ol>` |
| DatabaseService.Normaliza | services/databaseService.js:72-77 | a read document takes the name and case from the current key or else the legacy one, falls back to "Usuário Anônimo" for the name and `''` for the case, always has a history list, and keeps every other field |
| DatabaseService.ObterSessao | services/databaseService.js:56-83 | nothing for a missing or empty id, an unknown id or an archived session; otherwise the normalised document |
| DatabaseService.AtualizarCampos | services/databaseService.js:229-239 | an update touches only the active document of that id; archived, missing and other documents stay as they were |
| DatabaseService.CriarSessao | services/databaseService.js:26-51 | inserts under the id the active session document it returns, with an empty history, no final assessment and the given tokens (or 0), and touches no other session |
| DatabaseService.CriarThenObter | services/databaseService.js:26-77 | reading a session just created gives an empty history, no final assessment, and the name and case with their fallbacks |
| DatabaseService.AdicionarPerguntaHistorico | services/databaseService.js:88-118 | appends one turn holding the trimmed question and no answer or feedback, keeps every earlier turn, adds the tokens; fails and writes nothing for an unreadable session |
| DatabaseService.Amend | services/databaseService.js:140-145 | the answer and feedback are written, trimmed, only when they are non-empty strings; the question and creation time are kept |
| DatabaseService.AmendCompose | services/databaseService.js:140-145 | two merges in a row are one merge in which the later non-empty value wins |
| DatabaseService.AmendSeparately | services/databaseService.js:140-145 | writing the answer and then the feedback equals writing both at once |
| DatabaseService.AtualizarUltimoRegistro | services/databaseService.js:123-159 | changes only the last turn, keeps the length and adds the tokens; fails without a readable session or with an empty history, writing nothing |
| DatabaseService.AtualizarFeedbackFinal | services/databaseService.js:164-223 | writes the trimmed final assessment and the tokens and nothing else; the history is the same before and after and the report says so |
| DatabaseService.ContaCompletas | services/databaseService.js:249-250 | the completed turns are never more than the turns with a question |
| DatabaseService.ContaPerguntasBound | services/databaseService.js:249 | the turns with a question are at most all turns, and all of them exactly when every turn has a question |
| DatabaseService.ObterEstatisticas | services/databaseService.js:244-268 | counts the turns with a question and the completed ones, and reports whether a final assessment exists; nothing for an unreadable session |
| DatabaseService.AdicionarCountsOneQuestion | services/databaseService.js:249-257 | asking a non-blank question adds one to the question count and leaves the completed count as it was |
| DatabaseService.MaisRecente | services/databaseService.js:277 | picks a document updated no earlier than any other |
| DatabaseService.ListarSessoes | services/databaseService.js:273-283 | the active sessions, distinct, newest update first, as many as the limit allows; every one left out was updated no later than every one listed |
| DatabaseService.ArquivarSessao | services/databaseService.js:288-297 | the session can no longer be read, no other session changes, and success is reported |
| DatabaseService.ArchivedIsFrozen | services/databaseService.js:229-239 | after archiving, every later field update leaves the store unchanged |
| AzureOpenAI.ExecutarChamada | services/azureOpenAIService.js:33-48 | a failed call is a backend failure; otherwise the reply content and the total tokens, or 0 when usage is missing |
| AzureOpenAI.MensagensTurno | services/azureOpenAIService.js:249-268 | a turn gives, in this order and each only when present, the question as the assistant, the answer as the user and the feedback as the assistant: at most three messages, exactly three when the turn is complete, all non-empty literal texts |
| AzureOpenAI.ProcessarHistorico | services/azureOpenAIService.js:244-269 | nothing for a missing or empty history; otherwise the messages of every turn in turn order |
| AzureOpenAI.AchatarAppend | services/azureOpenAIService.js:249 | the messages of a history are those of its first part followed by those of the rest |
| AzureOpenAI.AchatarLength | services/azureOpenAIService.js:249-268 | at most three messages per turn, and three per turn exactly when every turn is complete |
| AzureOpenAI.AchatarContents | services/azureOpenAIService.js:249-268 | no history message is a system message, each carries a non-empty text, and each is one of the messages of some turn |
| AzureOpenAI.Trecho | services/azureOpenAIService.js:58 | the salvage match runs from the first `{` to the last `}`, and exists exactly when some `{` precedes some `}` |
| AzureOpenAI.TrechoIsLongest | services/azureOpenAIService.js:58 | every stretch from a `{` to a later `}` lies inside the match |
| AzureOpenAI.ParseJsonResponse | services/azureOpenAIService.js:53-68 | an object is returned as it is; a parsable trimmed string is parsed; otherwise the salvaged stretch is parsed; no stretch and an unparsable stretch are two distinct errors |
| AzureOpenAI.SalvageRecoversObject | services/azureOpenAIService.js:53-68 | an object wrapped in prose without braces is recovered |
| AzureOpenAI.VerificarSeCorreta | services/azureOpenAIService.js:170-194 | a missing case, question or answer fails before any call; otherwise one request, which succeeds exactly when the backend answers and the reply parses; the verdict is the truthiness of the parsed `correto`, and the feedback is the canned text for that verdict |
| AzureOpenAI.NullContentIsIncorrect | services/azureOpenAIService.js:182-190 | a reply with null content is judged incorrect |
| AzureOpenAI.ProcessarConteudo | services/azureOpenAIService.js:229-237 | empty for missing content; otherwise trimmed clean text and trimmed one-line HTML |
| AzureOpenAI.ProcessarConteudoIsFormatters | services/azureOpenAIService.js:229-237 | the empty-content guard agrees with what the two formatters give |
| AzureOpenAI.Gerar | services/azureOpenAIService.js:83-90 | one request; fails exactly when the call fails; otherwise the HTML and the clean text of the reply, and its tokens |
| AzureOpenAI.InitChat | services/azureOpenAIService.js:70-96 | one 600-token request for the specialty; fails exactly when the call fails; otherwise the reply's HTML rendering, its clean text and its `total_tokens` (or 0); the text is trimmed and the HTML has no line feed |
| AzureOpenAI.Enquadrado | services/azureOpenAIService.js:108-115 | a request is the system prompt, then the flattened history, then the user prompt |
| AzureOpenAI.GerarPergunta | services/azureOpenAIService.js:101-130 | without a case it fails before any call; otherwise one request framing the history |
| AzureOpenAI.GerarFeedbackFinal | services/azureOpenAIService.js:135-165 | without a case it fails before any call; otherwise one 600-token request framing the history |
| AzureOpenAI.GerarFeedback | services/azureOpenAIService.js:199-224 | without a case it fails before any call; otherwise one request, which succeeds exactly when the backend answers, and the feedback is the clean text of the reply |
| ConversationAI.ValidarSessao | services/conversationAIService.js:10-21 | a missing or empty id, then an unknown or archived session, are distinct failures; otherwise the stored session |
| ConversationAI.InitChat | services/conversationAIService.js:23-52 | one request for the drawn specialty; a failure writes nothing; without a session id nothing is stored; otherwise a session with that specialty, the student name (or "Usuário Anônimo"), the clean case text, an empty history and the tokens; it returns the reply's HTML rendering and its `total_tokens` (or 0) |
| ConversationAI.GerarPergunta | services/conversationAIService.js:57-83 | an invalid session or a session without a case fails before any call; otherwise it succeeds exactly when the backend answers; a failure writes nothing; on success the history gains exactly the generated question, and the reply's `total_tokens` (or 0) is reported and added |
| ConversationAI.GerarFeedbackFinal | services/conversationAIService.js:89-114 | an invalid session or a session without a case fails before any call; otherwise it succeeds exactly when the backend answers; on success the final assessment is replaced by the new clean text, the history is unchanged, and the reply's `total_tokens` (or 0) is reported and added |
| ConversationAI.FeedbackFinalAskedTwice | services/conversationAIService.js:89-114 | asking for the final assessment again sends the same request again and overwrites the stored text |
| ConversationAI.PrecisaFeedback | services/conversationAIService.js:175-180 | no generated feedback with at most one turn; otherwise one exactly when the turn before the last was not judged correct |
| ConversationAI.PrecisaFeedbackAfter | services/conversationAIService.js:175-180 | after a new turn, a generated feedback is wanted exactly when the previous turn was not judged correct |
| ConversationAI.CorrecaoResposta | services/conversationAIService.js:119-170 | an invalid session, an empty history and a last turn without a question fail before any call; a failure writes nothing; on success only the last turn changes, by the answer and feedback merge, and the history length is reported |
| ConversationAI.CorrecaoOkExactly | services/conversationAIService.js:119-170 | a correction succeeds exactly when the session is valid, its last turn has a question, the case and the answer are given, the verdict request is answered with a reply that parses, and, for a wrong answer after a turn not judged correct, the feedback request is answered |
| ConversationAI.FeedbackChoice | services/conversationAIService.js:138-164 | the three-way feedback choice (canned correct, generated, canned incorrect), the requests made and the tokens as the verdict's plus the generated feedback's |
| ConversationAI.NoAnswerNoCall | services/conversationAIService.js:119-170 | without an answer the correction fails without any request and writes nothing |
| ConversationAI.ObterHistorico | services/conversationAIService.js:192-214 | never fails; the total is the history length; an invalid session gives the empty record; a valid one gives its history, specialty, student name, case, final assessment and tokens |
| ConversationAI.PerguntaAddsOneTurn | services/conversationAIService.js:57-83 | a generated question adds one to the reported total |
| ConversationAI.CorrecaoKeepsLength | services/conversationAIService.js:119-170 | a correction leaves the total as it was, and that total is what it reports |
| ConversationAI.FeedbackFinalKeepsHistory | services/conversationAIService.js:89-114 | the final assessment leaves the reported history exactly as it was |
| SessionIdentity.CriarSessao | services/sessionService.js:8-40 | an existing identity and its creation time are kept, otherwise the fresh id and the current time are set; the chat data is always replaced by an empty one; the save is attempted only with both name and course |
| SessionIdentity.CriarSessaoKeepsIdentity | services/sessionService.js:11-14 | creating again keeps the first identity and creation time |
| SessionIdentity.ValidarSessaoBasica | services/sessionService.js:45-61 | no session or identity is one failure; an expired session is destroyed and is another; otherwise the session as it was |
| SessionIdentity.CreatedSessionLifetime | services/sessionService.js:51-58 | a created session is accepted exactly while at most 24 hours old, and refused and destroyed after that |
| SessionIdentity.InvalidDateNeverExpires | services/sessionService.js:52-55 | a session whose creation time is not a date never expires |
| SessionIdentity.InicializarChatData | services/sessionService.js:66-82 | after the basic check, supplies chat data only when there is none and keeps the identity |
| SessionIdentity.InicializarIdempotent | services/sessionService.js:66-82 | initialising again, while the session is valid, changes nothing |
| SessionIdentity.ValidarSessao | services/sessionService.js:87-99 | the basic check, then a missing chat data is a failure; otherwise the session unchanged |
| SessionIdentity.InicializarThenValidar | services/sessionService.js:66-99 | once initialised, the session passes the full check exactly until it expires |
| SessionIdentity.ObterDadosSessao | services/sessionService.js:104-111 | for a fully valid session, its identity, chat data and creation time |
| SessionIdentity.AtualizarHistorico | services/sessionService.js:116-123 | replaces the chat history and nothing else; fails without chat data, changing nothing |
| SessionIdentity.ObterHistorico | services/sessionService.js:130-140 | the chat history, stored first as an empty list when missing; fails without chat data |
| SessionIdentity.AtualizarThenObter | services/sessionService.js:116-140 | the history read back is the one last written, and reading changes nothing |
| SessionIdentity.ObterHistoricoStable | services/sessionService.js:130-140 | a second read gives the same history and leaves the session as the first left it |

## Left out

- NeDB itself: the file persistence, `findOne`, `sort` and `limit` as library calls, and the failure of a store operation. A store write here always succeeds, and a duplicate insert replaces the earlier document.
- Concurrency: each operation runs alone. Two interleaved requests on one session are not modelled.
- Timestamps: ISO strings and `Date` objects are integers in milliseconds passed in as `now`.
- Logging, the `debug`/`debugSessao` helpers and the deprecated wrappers `salvarSessaoCompleta`, `obterSessaoCompleta` and `atualizarUltimoRegistroHistorico`. They only log or delegate to modelled operations.
- The text of the prompts (config/promptsConfig.js is not part of this model): prompts are named by a constructor with their arguments. The second argument `feedbackFinal` receives and ignores is dropped; `contextQuestion` is called with none, as noted above.
- The sampling settings other than the token limit and the temperature (`top_p` and the penalties). They are the same constants for every request.
- The random draw (`Math.random`) and `uuidv4`: the index drawn and the fresh id are parameters.
- The messages of the errors. Failures are a datatype without the "Falha ao …" prefixes the services add when they rethrow.
- Strings.ToLower: lowers ASCII and Latin-1 letters only, not the whole Unicode case mapping of `toLowerCase`. The keywords the code searches for need only these.
- Strings and lengths are sequences of Unicode scalar values, not UTF-16 code units. The 50-character bound of `validarCasoClinico` counts characters.
- A `req.session` that does not exist: the session service dereferences it and throws a `TypeError`. The model passes the session itself to the operations that do so.
- `_parseJsonResponse` on a value that is neither a string nor an object (a number, a boolean). Every caller passes a reply content, which is a string or null.
- `buscarSessaoCompleta`: it is `_validarSessao` under another name (`ConversationAI.ValidarSessao`).

=== FILE: azure_openai.dfy ===
/** The adapter to the generative backend (services/azureOpenAIService.js).
    The backend itself is a function parameter: it receives the request the
    adapter builds and either answers with the reply's content and token
    usage or fails. The JSON parser is a parameter too. What is modelled is
    what the adapter does around those two calls: the argument guards, the
    messages it builds, the salvage of a JSON object from free text, the
    verdict it derives, and the formatting of the reply.
 */
module AzureOpenAI {
  import opened Common
  import opened Strings
  import opened TextFormatter
  import opened HtmlFormatter
  import opened DatabaseService

  // ---------------------------------------------------------------------
  // Requests and replies
  // ---------------------------------------------------------------------

  datatype Papel = Sistema | Assistente | Usuario

  /** The prompt templates; only which template is used and the arguments
      it receives are kept, not the template text. */
  datatype Prompt =
    | SistemaCaso                    // the system text of `initChat`
    | ChatInicial(especialidade: string)
    | SistemaPergunta
    | ContextoPergunta
    | SistemaFeedback
    | FeedbackFinalPrompt(caso: string)
    | Correcao(caso: string, pergunta: string, resposta: string)
    | FeedbackPrompt(caso: string)

  datatype Conteudo = Modelo(prompt: Prompt) | Literal(texto: string)

  datatype Mensagem = Mensagem(papel: Papel, conteudo: Conteudo)

  /** One call to the backend: the messages, the token cap and the sampling
      temperature. */
  datatype Pedido = Pedido(mensagens: seq<Mensagem>, maxTokens: nat, temperatura: real)

  /** What the backend answers: the first choice's content (which may be
      null) and the reported total token usage (which may be missing). */
  datatype Retorno = Retorno(content: Option<string>, totalTokens: Option<int>)

  /** The backend: `None` when the call throws. */
  type Backend = Pedido -> Option<Retorno>

  /** The result of an adapter operation together with the backend calls it
      made, in order. */
  datatype Chamada<T> = Chamada(pedidos: seq<Pedido>, resultado: Result<T>)

  /** `_executarChamada`: one call; the token count is the reported usage or
      0 when none is reported. */
  function ExecutarChamada(backend: Backend, p: Pedido): (r: Result<(Option<string>, int)>)
    ensures backend(p).None? <==> r.Err?
    ensures r.Err? ==> r.error.FalhaBackend?
    ensures r.Ok? ==> r.value.0 == backend(p).value.content
    ensures r.Ok? && backend(p).value.totalTokens.Some? ==> r.value.1 == backend(p).value.totalTokens.value
    ensures r.Ok? && backend(p).value.totalTokens.None? ==> r.value.1 == 0
  {
    match backend(p)
    case None => Err(FalhaBackend("Azure OpenAI"))
    case Some(ret) => Ok((ret.content, ret.totalTokens.GetOr(0)))
  }

  // ---------------------------------------------------------------------
  // processarHistorico
  // ---------------------------------------------------------------------

  /** The messages one turn contributes: the question as the assistant, the
      answer as the user and the feedback as the assistant, each only when
      it is a non-empty string. */
  function MensagensTurno(t: Turn): (r: seq<Mensagem>)
    ensures |r| <= 3
    ensures |r| == 3 <==> TurnoCompleto(t)
    ensures forall m :: m in r ==> m.conteudo.Literal? && m.conteudo.texto != ""
    ensures forall m :: m in r && m.papel == Usuario ==> Some(m.conteudo.texto) == t.resposta
    ensures forall m :: m in r ==> m.papel != Sistema
    ensures Truthy(t.resposta) <==> exists m :: m in r && m.papel == Usuario
    ensures t.pergunta != "" ==> |r| > 0 && r[0] == Mensagem(Assistente, Literal(t.pergunta))
    ensures Truthy(t.resposta) ==>
      var k := if t.pergunta != "" then 1 else 0;
      |r| > k && r[k] == Mensagem(Usuario, Literal(t.resposta.value))
    ensures Truthy(t.feedback) ==> |r| > 0 && r[|r| - 1] == Mensagem(Assistente, Literal(t.feedback.value))
    ensures forall m :: m in r && m.papel == Assistente ==>
      m.conteudo.texto == t.pergunta || Some(m.conteudo.texto) == t.feedback
  {
    (if t.pergunta != "" then [Mensagem(Assistente, Literal(t.pergunta))] else [])
    + (if Truthy(t.resposta) then [Mensagem(Usuario, Literal(t.resposta.value))] else [])
    + (if Truthy(t.feedback) then [Mensagem(Assistente, Literal(t.feedback.value))] else [])
  }

  /** A turn with a question, an answer and a feedback. */
  predicate TurnoCompleto(t: Turn) {
    t.pergunta != "" && Truthy(t.resposta) && Truthy(t.feedback)
  }

  /** The `flatMap` over the turns, in their order. */
  function Achatar(h: seq<Turn>): seq<Mensagem>
    decreases |h|
  {
    if h == [] then [] else MensagensTurno(h[0]) + Achatar(h[1..])
  }

  /** `processarHistorico`: nothing for a value that is not a list (`None`)
      or an empty list; otherwise every turn's messages in turn order. */
  function ProcessarHistorico(h: Option<seq<Turn>>): (r: seq<Mensagem>)
    ensures h.None? || h == Some([]) ==> r == []
    ensures h.Some? ==> r == Achatar(h.value)
  {
    if h.None? || |h.value| == 0 then [] else Achatar(h.value)
  }

  /** Turn order is kept: the messages of a history are those of its first
      part followed by those of the rest. */
  lemma {:induction false} AchatarAppend(a: seq<Turn>, b: seq<Turn>)
    ensures Achatar(a + b) == Achatar(a) + Achatar(b)
    decreases |a|
  {
    if a == [] {
      assert a + b == b;
    } else {
      assert (a + b)[0] == a[0];
      assert (a + b)[1..] == a[1..] + b;
      AchatarAppend(a[1..], b);
    }
  }

  /** Every turn gives at most three messages, and exactly three for each
      turn exactly when every turn is complete. */
  lemma {:induction false} AchatarLength(h: seq<Turn>)
    ensures |Achatar(h)| <= 3 * |h|
    ensures |Achatar(h)| == 3 * |h| <==> forall i :: 0 <= i < |h| ==> TurnoCompleto(h[i])
    decreases |h|
  {
    if h != [] {
      AchatarLength(h[1..]);
      if |Achatar(h)| == 3 * |h| {
        assert |MensagensTurno(h[0])| == 3;
        forall i | 0 <= i < |h|
          ensures TurnoCompleto(h[i])
        {
          if i > 0 {
            assert h[i] == h[1..][i - 1];
          }
        }
      }
      if forall i :: 0 <= i < |h| ==> TurnoCompleto(h[i]) {
        assert TurnoCompleto(h[0]);
        assert forall i :: 0 <= i < |h| - 1 ==> TurnoCompleto(h[1..][i]) by {
          forall i | 0 <= i < |h| - 1
            ensures TurnoCompleto(h[1..][i])
          {
            assert h[1..][i] == h[i + 1];
          }
        }
      }
    }
  }

  /** No message of the history is a system message, and every message
      carries a non-empty text from some turn. */
  lemma {:induction false} AchatarContents(h: seq<Turn>)
    ensures forall m :: m in Achatar(h) ==> m.papel != Sistema && m.conteudo.Literal? && m.conteudo.texto != ""
    ensures forall m :: m in Achatar(h) ==> exists i :: 0 <= i < |h| && m in MensagensTurno(h[i])
    decreases |h|
  {
    if h != [] {
      AchatarContents(h[1..]);
      forall m | m in Achatar(h)
        ensures exists i :: 0 <= i < |h| && m in MensagensTurno(h[i])
      {
        if m !in MensagensTurno(h[0]) {
          assert m in Achatar(h[1..]);
          var j :| 0 <= j < |h[1..]| && m in MensagensTurno(h[1..][j]);
          assert h[1..][j] == h[j + 1];
        }
      }
    }
  }

  // ---------------------------------------------------------------------
  // _parseJsonResponse
  // ---------------------------------------------------------------------

  /** A parsed JSON value. */
  datatype Json =
    | JNull
    | JBool(b: bool)
    | JNumber(n: real)
    | JString(s: string)
    | JArray(items: seq<Json>)
    | JObject(fields: map<string, Json>)

  /** `JSON.parse`: `None` when it throws. */
  type Parser = string -> Option<Json>

  /** The value handed to `_parseJsonResponse`: anything whose `typeof` is
      'object' (an object, an array or null) or a string. */
  datatype Bruto = Objeto(v: Json) | Texto(s: string)

  /** A one-character occurrence is that character at that index. */
  lemma OccursAtChar(s: string, c: char, k: int)
    ensures OccursAt(s, [c], k) <==> 0 <= k < |s| && s[k] == c
  {
    if 0 <= k < |s| {
      assert s[k..][0] == s[k];
    }
  }

  /** The bounds of the match of /\{[\s\S]*\}/ in `s`: it starts at the
      first '{' and, the `*` being greedy, ends at the last '}', provided
      that one comes after it. Without such a pair there is no match. */
  function Trecho(s: string): (r: Option<(nat, nat)>)
    ensures r.Some? ==> r.value.0 < r.value.1 < |s| && s[r.value.0] == '{' && s[r.value.1] == '}'
    ensures r.Some? ==> forall k :: 0 <= k < r.value.0 ==> s[k] != '{'
    ensures r.Some? ==> forall k :: r.value.1 < k < |s| ==> s[k] != '}'
    ensures r.None? ==> forall i, j :: 0 <= i < j < |s| && s[i] == '{' ==> s[j] != '}'
  {
    match Find(s, "{")
    case None =>
      forall k | 0 <= k < |s|
        ensures s[k] != '{'
      {
        if s[k] == '{' {
          OccursAtChar(s, '{', k);
        }
      }
      None
    case Some(a) =>
      OccursAtChar(s, '{', a);
      forall k | 0 <= k < a
        ensures s[k] != '{'
      {
        OccursAtChar(s, '{', k);
      }
      match FindLast(s, "}")
      case None =>
        forall k | 0 <= k < |s|
          ensures s[k] != '}'
        {
          if s[k] == '}' {
            OccursAtChar(s, '}', k);
          }
        }
        None
      case Some(b) =>
        OccursAtChar(s, '}', b);
        forall k | b < k < |s|
          ensures s[k] != '}'
        {
          OccursAtChar(s, '}', k);
        }
        if a < b then Some((a, b)) else None
  }

  /** The matched text is the longest stretch of `s` from a '{' to a later
      '}': every such stretch lies inside it. */
  lemma TrechoIsLongest(s: string, i: nat, j: nat)
    requires i < j < |s| && s[i] == '{' && s[j] == '}'
    ensures Trecho(s).Some?
    ensures Trecho(s).value.0 <= i && j <= Trecho(s).value.1
  {
  }

  /** The salvaged text of `s`, when there is a match. */
  function Salvado(s: string): (r: Option<string>)
    ensures r.Some? <==> Trecho(s).Some?
    ensures r.Some? ==> 2 <= |r.value| && r.value[0] == '{' && r.value[|r.value| - 1] == '}'
  {
    match Trecho(s)
    case None => None
    case Some((a, b)) => Some(s[a..b + 1])
  }

  /** `_parseJsonResponse`: an object is returned as it is; a string is
      parsed after trimming; when that fails the matched stretch from the
      first '{' to the last '}' is parsed instead. No such stretch is one
      error, a stretch that does not parse is another. */
  function ParseJsonResponse(raw: Bruto, parse: Parser): (r: Result<Json>)
    ensures raw.Objeto? ==> r == Ok(raw.v)
    ensures raw.Texto? && parse(Trim(raw.s)).Some? ==> r == Ok(parse(Trim(raw.s)).value)
    ensures r == Err(JsonAusente) <==> raw.Texto? && parse(Trim(raw.s)).None? && Salvado(raw.s).None?
    ensures r == Err(JsonInvalido) <==>
      raw.Texto? && parse(Trim(raw.s)).None? && Salvado(raw.s).Some? && parse(Salvado(raw.s).value).None?
    ensures r.Err? ==> r.error == JsonAusente || r.error == JsonInvalido
  {
    match raw
    case Objeto(v) => Ok(v)
    case Texto(s) =>
      match parse(Trim(s))
      case Some(v) => Ok(v)
      case None =>
        match Salvado(s)
        case None => Err(JsonAusente)
        case Some(m) =>
          match parse(m)
          case Some(v) => Ok(v)
          case None => Err(JsonInvalido)
  }

  /** A JSON object wrapped in prose is recovered: when the whole text does
      not parse, the object between the prose before it (which has no '{')
      and the prose after it (which has no '}') is what is parsed. */
  lemma SalvageRecoversObject(pre: string, obj: string, post: string, parse: Parser, v: Json)
    requires '{' !in pre && '}' !in post
    requires 2 <= |obj| && obj[0] == '{' && obj[|obj| - 1] == '}'
    requires parse(Trim(pre + obj + post)).None? && parse(obj) == Some(v)
    ensures ParseJsonResponse(Texto(pre + obj + post), parse) == Ok(v)
  {
    var s := pre + obj + post;
    var a := |pre|;
    var b := |pre| + |obj| - 1;
    assert s[a] == '{' && s[b] == '}';
    TrechoIsLongest(s, a, b);
    assert s[a..b + 1] == obj;
  }

  // ---------------------------------------------------------------------
  // verificarSeCorreta
  // ---------------------------------------------------------------------

  const RespostaCorreta := "A resposta está correta!"
  const RespostaIncorreta := "A resposta está incorreta!"

  /** JavaScript truthiness of a JSON value. */
  predicate JsTruthy(v: Json) {
    match v
    case JNull => false
    case JBool(b) => b
    case JNumber(n) => n != 0.0
    case JString(s) => s != ""
    case JArray(_) => true
    case JObject(_) => true
  }

  /** `Boolean(retorno?.correto)`: only an object with a truthy `correto`
      field counts as a correct answer. */
  predicate Correto(v: Json) {
    v.JObject? && "correto" in v.fields && JsTruthy(v.fields["correto"])
  }

  datatype Verificacao = Verificacao(correto: bool, feedback: string, tokens: int)

  /** The request `verificarSeCorreta` sends. */
  function PedidoCorrecao(caso: string, pergunta: string, resposta: string): Pedido {
    Pedido([Mensagem(Sistema, Modelo(SistemaPergunta)), Mensagem(Usuario, Modelo(Correcao(caso, pergunta, resposta)))], 200, 0.7)
  }

  /** The content a reply hands to the parser: a null content is an object. */
  function BrutoDe(content: Option<string>): Bruto {
    if content.None? then Objeto(JNull) else Texto(content.value)
  }

  /** `verificarSeCorreta`: with a case, a question and an answer, one call
      whose reply is parsed; the verdict is the truthiness of its `correto`
      field and the feedback is the canned text for that verdict. A missing
      argument fails before any call. */
  function VerificarSeCorreta(caso: Option<string>, pergunta: Option<string>, resposta: Option<string>,
                              backend: Backend, parse: Parser): (r: Chamada<Verificacao>)
    ensures !(Truthy(caso) && Truthy(pergunta) && Truthy(resposta)) <==> r == Chamada([], Err(ParametrosAusentes))
    ensures Truthy(caso) && Truthy(pergunta) && Truthy(resposta) ==>
      r.pedidos == [PedidoCorrecao(caso.value, pergunta.value, resposta.value)]
    ensures r.resultado.Ok? ==> (r.resultado.value.feedback == RespostaCorreta <==> r.resultado.value.correto)
    ensures r.resultado.Ok? ==> (r.resultado.value.feedback == RespostaIncorreta <==> !r.resultado.value.correto)
    ensures r.resultado.Ok? ==>
      var p := PedidoCorrecao(caso.value, pergunta.value, resposta.value);
      && backend(p).Some?
      && var parsed := ParseJsonResponse(BrutoDe(backend(p).value.content), parse);
      && parsed.Ok? && r.resultado.value.correto == Correto(parsed.value)
      && r.resultado.value.tokens == backend(p).value.totalTokens.GetOr(0)
    ensures Truthy(caso) && Truthy(pergunta) && Truthy(resposta) ==>
      var p := PedidoCorrecao(caso.value, pergunta.value, resposta.value);
      (r.resultado.Ok? <==>
        backend(p).Some? && ParseJsonResponse(BrutoDe(backend(p).value.content), parse).Ok?)
  {
    if !Truthy(caso) || !Truthy(pergunta) || !Truthy(resposta) then
      Chamada([], Err(ParametrosAusentes))
    else
      var p := PedidoCorrecao(caso.value, pergunta.value, resposta.value);
      match ExecutarChamada(backend, p)
      case Err(e) => Chamada([p], Err(e))
      case Ok((content, tokens)) =>
        match ParseJsonResponse(BrutoDe(content), parse)
        case Err(e) => Chamada([p], Err(e))
        case Ok(v) =>
          var correto := Correto(v);
          Chamada([p], Ok(Verificacao(correto, if correto then RespostaCorreta else RespostaIncorreta, tokens)))
  }

  /** A null content is taken as it is and never counts as correct. */
  lemma NullContentIsIncorrect(caso: string, pergunta: string, resposta: string, backend: Backend, parse: Parser)
    requires caso != "" && pergunta != "" && resposta != ""
    requires backend(PedidoCorrecao(caso, pergunta, resposta)).Some?
    requires backend(PedidoCorrecao(caso, pergunta, resposta)).value.content.None?
    ensures VerificarSeCorreta(Some(caso), Some(pergunta), Some(resposta), backend, parse).resultado.Ok?
    ensures VerificarSeCorreta(Some(caso), Some(pergunta), Some(resposta), backend, parse).resultado.value.feedback == RespostaIncorreta
  {
  }

  // ---------------------------------------------------------------------
  // processarConteudo and the generating operations
  // ---------------------------------------------------------------------

  datatype Formatado = Formatado(textoOriginal: string, html: string, textoLimpo: string)

  /** `processarConteudo`: the cleaned text (twice) and the HTML rendering;
      all empty for a missing or empty content. */
  function ProcessarConteudo(c: Option<string>): (r: Formatado)
    ensures !Truthy(c) ==> r == Formatado("", "", "")
    ensures r.textoOriginal == r.textoLimpo
    ensures IsTrimmed(r.textoLimpo) && NoTripleNewline(r.textoLimpo) && NoEscapedNewline(r.textoLimpo)
    ensures IsTrimmed(r.html) && '\n' !in r.html
  {
    if !Truthy(c) then Formatado("", "", "")
    else Formatado(ParaTextoLimpo(c), ParaHTML(c), ParaTextoLimpo(c))
  }

  /** The guard on an empty content changes nothing: both formatters give
      '' for it anyway. */
  lemma ProcessarConteudoIsFormatters(c: Option<string>)
    ensures ProcessarConteudo(c) == Formatado(ParaTextoLimpo(c), ParaHTML(c), ParaTextoLimpo(c))
  {
  }

  /** What the generating operations return: the HTML rendering, the cleaned
      text and the token usage. */
  datatype Gerado = Gerado(respostaHtml: string, resposta: string, tokens: int)

  /** One call and the formatting of its reply. */
  function Gerar(backend: Backend, p: Pedido): (r: Chamada<Gerado>)
    ensures r.pedidos == [p]
    ensures r.resultado.Err? <==> backend(p).None?
    ensures r.resultado.Ok? ==>
      var f := ProcessarConteudo(backend(p).value.content);
      r.resultado.value == Gerado(f.html, f.textoLimpo, backend(p).value.totalTokens.GetOr(0))
  {
    match ExecutarChamada(backend, p)
    case Err(e) => Chamada([p], Err(e))
    case Ok((content, tokens)) =>
      var f := ProcessarConteudo(content);
      Chamada([p], Ok(Gerado(f.html, f.textoLimpo, tokens)))
  }

  /** The request `initChat` sends for a specialty. */
  function PedidoInicial(especialidade: string): Pedido {
    Pedido([Mensagem(Sistema, Modelo(SistemaCaso)), Mensagem(Usuario, Modelo(ChatInicial(especialidade)))], 600, 0.5)
  }

  /** `initChat` of the adapter: a case for the specialty, with no guard. */
  function InitChat(especialidade: string, backend: Backend): (r: Chamada<Gerado>)
    ensures r.pedidos == [PedidoInicial(especialidade)]
    ensures r.resultado.Err? <==> backend(PedidoInicial(especialidade)).None?
    ensures r.resultado.Ok? ==> IsTrimmed(r.resultado.value.resposta) && '\n' !in r.resultado.value.respostaHtml
    ensures r.resultado.Ok? ==>
      var ret := backend(PedidoInicial(especialidade)).value;
      var f := ProcessarConteudo(ret.content);
      r.resultado.value == Gerado(f.html, f.textoLimpo, ret.totalTokens.GetOr(0))
  {
    Gerar(backend, PedidoInicial(especialidade))
  }

  /** A request framed by a system prompt and a final user prompt, with the
      history in between. */
  function Enquadrado(sistema: Prompt, h: seq<Turn>, usuario: Prompt, maxTokens: nat, temperatura: real): (p: Pedido)
    ensures |p.mensagens| == |ProcessarHistorico(Some(h))| + 2
    ensures p.mensagens[0] == Mensagem(Sistema, Modelo(sistema))
    ensures p.mensagens[|p.mensagens| - 1] == Mensagem(Usuario, Modelo(usuario))
    ensures p.mensagens[1..|p.mensagens| - 1] == ProcessarHistorico(Some(h))
  {
    var m := [Mensagem(Sistema, Modelo(sistema))] + ProcessarHistorico(Some(h)) + [Mensagem(Usuario, Modelo(usuario))];
    assert m[1..|m| - 1] == ProcessarHistorico(Some(h));
    Pedido(m, maxTokens, temperatura)
  }

  function PedidoPergunta(h: seq<Turn>): Pedido {
    Enquadrado(SistemaPergunta, h, ContextoPergunta, 200, 0.7)
  }

  /** `gerarPergunta` of the adapter: fails before any call without a case;
      otherwise one call with the history as messages. */
  function GerarPergunta(caso: Option<string>, h: seq<Turn>, backend: Backend): (r: Chamada<Gerado>)
    ensures !Truthy(caso) <==> r == Chamada([], Err(CasoClinicoObrigatorio))
    ensures Truthy(caso) ==> r == Gerar(backend, PedidoPergunta(h))
  {
    if !Truthy(caso) then Chamada([], Err(CasoClinicoObrigatorio))
    else Gerar(backend, PedidoPergunta(h))
  }

  function PedidoFeedbackFinal(caso: string, h: seq<Turn>): Pedido {
    Enquadrado(SistemaFeedback, h, FeedbackFinalPrompt(caso), 600, 0.5)
  }

  /** `gerarFeedbackFinal` of the adapter. */
  function GerarFeedbackFinal(caso: Option<string>, h: seq<Turn>, backend: Backend): (r: Chamada<Gerado>)
    ensures !Truthy(caso) <==> r == Chamada([], Err(CasoClinicoObrigatorio))
    ensures Truthy(caso) ==> r == Gerar(backend, PedidoFeedbackFinal(caso.value, h))
  {
    if !Truthy(caso) then Chamada([], Err(CasoClinicoObrigatorio))
    else Gerar(backend, PedidoFeedbackFinal(caso.value, h))
  }

  datatype FeedbackGerado = FeedbackGerado(feedback: string, tokens: int)

  function PedidoFeedback(caso: string, h: seq<Turn>): Pedido {
    Enquadrado(SistemaFeedback, h, FeedbackPrompt(caso), 200, 0.7)
  }

  /** `gerarFeedback` of the adapter: the cleaned text of the reply. */
  function GerarFeedback(caso: Option<string>, h: seq<Turn>, backend: Backend): (r: Chamada<FeedbackGerado>)
    ensures !Truthy(caso) <==> r == Chamada([], Err(CasoClinicoObrigatorio))
    ensures Truthy(caso) ==> r.pedidos == [PedidoFeedback(caso.value, h)]
    ensures Truthy(caso) ==> (r.resultado.Ok? <==> backend(PedidoFeedback(caso.value, h)).Some?)
    ensures r.resultado.Ok? ==>
      var g := Gerar(backend, PedidoFeedback(caso.value, h));
      g.resultado.Ok? && r.resultado.value == FeedbackGerado(g.resultado.value.resposta, g.resultado.value.tokens)
  {
    if !Truthy(caso) then Chamada([], Err(CasoClinicoObrigatorio))
    else
      var g := Gerar(backend, PedidoFeedback(caso.value, h));
      match g.resultado
      case Err(e) => Chamada(g.pedidos, Err(e))
      case Ok(v) => Chamada(g.pedidos, Ok(FeedbackGerado(v.resposta, v.tokens)))
  }
}

=== FILE: common.dfy ===
/** Shared vocabulary of the clinical-case simulator model: nullable values,
    success/failure results, the error kinds the services throw, and the
    JavaScript truthiness rule the services apply to optional strings.
 */
module Common {

  /** A value that may be absent: JavaScript `null` / `undefined` become `None`. */
  datatype Option<T> = None | Some(value: T) {

    /** The wrapped value, or `fallback` when absent. */
    function GetOr(fallback: T): T {
      if Some? then value else fallback
    }
  }

  /** The reasons the services throw. Each constructor names the message the
      service uses; the prefixes callers add when they re-throw
      ("Falha ao gerar pergunta: ...") are not distinguished. */
  datatype Failure =
    | SessionIdInvalido         // 'SessionId inválido'
    | SessaoNaoEncontrada       // 'Sessão não encontrada: <id>'
    | HistoricoVazio            // 'Nenhuma pergunta encontrada no histórico' (store)
    | NadaParaCorrigir          // 'Nenhuma pergunta encontrada para corrigir'
    | UltimaPerguntaAusente     // 'Última pergunta não encontrada'
    | CasoClinicoObrigatorio    // 'Caso clínico é obrigatório'
    | ParametrosAusentes        // 'Parâmetros obrigatórios não fornecidos'
    | JsonInvalido              // 'Resposta da IA contém JSON inválido'
    | JsonAusente               // 'Resposta da IA não contém JSON válido'
    | FalhaBackend(reason: string) // the generative backend call failed
    | SessaoInvalidaOuExpirada  // 'Sessão inválida ou expirada'
    | SessaoExpirada            // 'Sessão expirada'
    | ChatNaoEncontrado         // 'Nenhum chat encontrado na sessão'
    | SessaoInvalida            // 'Sessão inválida'

  /** The outcome of an operation that may throw. */
  datatype Result<T> = Ok(value: T) | Err(error: Failure) {

    predicate IsFailure() {
      Err?
    }

    function PropagateFailure<U>(): Result<U>
      requires Err?
    {
      Err(error)
    }

    function Extract(): T
      requires Ok?
    {
      value
    }
  }

  /** JavaScript truthiness of a nullable string: `null`, `undefined` and `''`
      are falsy, every other string is truthy. */
  predicate Truthy(s: Option<string>) {
    s.Some? && s.value != ""
  }

  /** The JavaScript expression `a || b || fallback` over nullable strings. */
  function FirstTruthy(a: Option<string>, b: Option<string>, fallback: string): (r: string)
    ensures Truthy(a) ==> r == a.value
    ensures !Truthy(a) && Truthy(b) ==> r == b.value
    ensures !Truthy(a) && !Truthy(b) ==> r == fallback
  {
    if Truthy(a) then a.value else if Truthy(b) then b.value else fallback
  }
}

=== FILE: conversation_ai.dfy ===
/** The orchestration of a study session (services/conversationAIService.js):
    each operation validates the session id, reads the session, calls the
    backend adapter and only then writes the store. An operation is a
    function from the store before to a `Step`: the store after, the backend
    requests made, and the result or the failure.
 */
module ConversationAI {
  import opened Common
  import opened Strings
  import opened DatabaseService
  import opened Especialidades
  import AI = AzureOpenAI

  /** The outcome of an operation: the store after it, the backend requests
      it made in order, and its result. */
  datatype Step<T> = Step(store: Store, pedidos: seq<AI.Pedido>, resultado: Result<T>)

  /** `_validarSessao`: a missing or empty id fails first; then an unknown or
      archived session; otherwise the session as the store hands it out. */
  function ValidarSessao(store: Store, id: Option<string>): (r: Result<Sessao>)
    ensures r == Err(SessionIdInvalido) <==> !Truthy(id)
    ensures r == Err(SessaoNaoEncontrada) <==> Truthy(id) && !Ativa(store, id.value)
    ensures r.Ok? <==> ObterSessao(store, id).Some?
    ensures r.Ok? ==> r.value == ObterSessao(store, id).value
  {
    if !Truthy(id) then Err(SessionIdInvalido)
    else
      match ObterSessao(store, id)
      case None => Err(SessaoNaoEncontrada)
      case Some(s) => Ok(s)
  }

  // ---------------------------------------------------------------------
  // initChat
  // ---------------------------------------------------------------------

  datatype InicioChat = InicioChat(resposta: string, nomeAluno: Option<string>, tokens: int)

  /** The session document `initChat` creates for a generated case. */
  function DadosIniciais(userName: Option<string>, especialidade: string, g: AI.Gerado): DadosSessao {
    DadosSessao(userName, None, Some(g.resposta), None, Some(especialidade), Some(g.tokens))
  }

  /** `initChat`: draws the specialty (the draw is the index `sorteio`),
      generates the case, and only then, and only for a non-empty session id,
      creates the session. A backend failure leaves the store as it was. */
  function InitChat(store: Store, sessionId: Option<string>, userName: Option<string>, sorteio: nat,
                    backend: AI.Backend, now: int): (r: Step<InicioChat>)
    requires sorteio < |Lista|
    ensures r.pedidos == [AI.PedidoInicial(Sortear(sorteio))]
    ensures r.resultado.Err? <==> backend(AI.PedidoInicial(Sortear(sorteio))).None?
    ensures r.resultado.Err? || !Truthy(sessionId) ==> r.store == store
    ensures r.resultado.Ok? && Truthy(sessionId) ==>
      var s := ObterSessao(r.store, sessionId);
      var f := AI.ProcessarConteudo(backend(AI.PedidoInicial(Sortear(sorteio))).value.content);
      && s.Some?
      && s.value.historico == []
      && s.value.feedbackFinal.None?
      && s.value.especialidade == Sortear(sorteio)
      && s.value.estudoDeCaso == f.textoLimpo
      && s.value.tokens == r.resultado.value.tokens
      && OthersUnchanged(store, r.store, sessionId.value)
    ensures r.resultado.Ok? ==> r.resultado.value.nomeAluno == userName
    ensures r.resultado.Ok? ==>
      var ret := backend(AI.PedidoInicial(Sortear(sorteio))).value;
      && r.resultado.value.resposta == AI.ProcessarConteudo(ret.content).html
      && r.resultado.value.tokens == ret.totalTokens.GetOr(0)
    ensures r.resultado.Ok? && Truthy(sessionId) ==>
      ObterSessao(r.store, sessionId).value.nomeAluno == FirstTruthy(userName, None, Anonimo)
  {
    var especialidade := Sortear(sorteio);
    var g := AI.InitChat(especialidade, backend);
    match g.resultado
    case Err(e) => Step(store, g.pedidos, Err(e))
    case Ok(v) =>
      var store2 := if Truthy(sessionId) then CriarSessao(store, sessionId.value, DadosIniciais(userName, especialidade, v), now).store else store;
      Step(store2, g.pedidos, Ok(InicioChat(v.respostaHtml, userName, v.tokens)))
  }

  // ---------------------------------------------------------------------
  // gerarPergunta
  // ---------------------------------------------------------------------

  datatype PerguntaGerada = PerguntaGerada(resposta: string, historicoAtualizado: seq<Turn>, tokens: int)

  /** The request `gerarPergunta` makes for a session. */
  function PedidoPergunta(s: Sessao): AI.Pedido {
    AI.PedidoPergunta(s.historico)
  }

  /** `gerarPergunta`: generates a question from the case and the history,
      and only then appends it as a new turn. A failure leaves the store as
      it was; an invalid session fails before any backend call. */
  function GerarPergunta(store: Store, id: Option<string>, backend: AI.Backend, now: int): (r: Step<PerguntaGerada>)
    ensures ValidarSessao(store, id).Err? ==> r == Step(store, [], Err(ValidarSessao(store, id).error))
    ensures r.resultado.Err? ==> r.store == store
    ensures r.resultado.Ok? ==>
      var antes := ObterSessao(store, id).value;
      var depois := ObterSessao(r.store, id);
      var g := r.resultado.value;
      && r.pedidos == [PedidoPergunta(antes)]
      && backend(PedidoPergunta(antes)).Some?
      && g.resposta == AI.ProcessarConteudo(backend(PedidoPergunta(antes)).value.content).textoLimpo
      && depois.Some?
      && depois.value.historico == antes.historico + [Turn(g.resposta, None, None, now, None)]
      && g.historicoAtualizado == depois.value.historico
      && g.tokens == backend(PedidoPergunta(antes)).value.totalTokens.GetOr(0)
      && depois.value.tokens == antes.tokens + g.tokens
      && OthersUnchanged(store, r.store, id.value)
    ensures ValidarSessao(store, id).Ok? && ValidarSessao(store, id).value.estudoDeCaso == "" ==>
      r == Step(store, [], Err(CasoClinicoObrigatorio))
    ensures ValidarSessao(store, id).Ok? && ValidarSessao(store, id).value.estudoDeCaso != "" ==>
      (r.resultado.Ok? <==> backend(PedidoPergunta(ValidarSessao(store, id).value)).Some?)
  {
    match ValidarSessao(store, id)
    case Err(e) => Step(store, [], Err(e))
    case Ok(sessao) =>
      var g := AI.GerarPergunta(Some(sessao.estudoDeCaso), sessao.historico, backend);
      match g.resultado
      case Err(e) => Step(store, g.pedidos, Err(e))
      case Ok(v) =>
        assert Trim(v.resposta) == v.resposta;
        match AdicionarPerguntaHistorico(store, id, v.resposta, v.tokens, now)
        case Err(e) => Step(store, g.pedidos, Err(e))
        case Ok(u) =>
          var n := |sessao.historico|;
          assert u.value == sessao.historico + [Turn(v.resposta, None, None, now, None)] by {
            assert u.value[..n] == sessao.historico;
          }
          Step(u.store, g.pedidos, Ok(PerguntaGerada(v.resposta, u.value, v.tokens)))
  }

  // ---------------------------------------------------------------------
  // gerarFeedbackFinal
  // ---------------------------------------------------------------------

  datatype FeedbackFinalGerado = FeedbackFinalGerado(resposta: string, tokens: int)

  /** The request `gerarFeedbackFinal` makes for a session. */
  function PedidoFeedbackFinal(s: Sessao): AI.Pedido {
    AI.PedidoFeedbackFinal(s.estudoDeCaso, s.historico)
  }

  /** `gerarFeedbackFinal`: always generates a new assessment and overwrites
      the stored one, leaving the history as it was. */
  function GerarFeedbackFinal(store: Store, id: Option<string>, backend: AI.Backend, now: int): (r: Step<FeedbackFinalGerado>)
    ensures ValidarSessao(store, id).Err? ==> r == Step(store, [], Err(ValidarSessao(store, id).error))
    ensures r.resultado.Err? ==> r.store == store
    ensures r.resultado.Ok? ==>
      var antes := ObterSessao(store, id).value;
      backend(PedidoFeedbackFinal(antes)).Some?
    ensures r.resultado.Ok? ==>
      var antes := ObterSessao(store, id).value;
      var depois := ObterSessao(r.store, id);
      var f := AI.ProcessarConteudo(backend(PedidoFeedbackFinal(antes)).value.content);
      && r.pedidos == [PedidoFeedbackFinal(antes)]
      && depois.Some?
      && depois.value.historico == antes.historico
      && depois.value.feedbackFinal == Some(f.textoLimpo)
      && r.resultado.value.resposta == f.html
      && r.resultado.value.tokens == backend(PedidoFeedbackFinal(antes)).value.totalTokens.GetOr(0)
      && depois.value.tokens == antes.tokens + r.resultado.value.tokens
      && OthersUnchanged(store, r.store, id.value)
    ensures ValidarSessao(store, id).Ok? && ValidarSessao(store, id).value.estudoDeCaso == "" ==>
      r == Step(store, [], Err(CasoClinicoObrigatorio))
    ensures ValidarSessao(store, id).Ok? && ValidarSessao(store, id).value.estudoDeCaso != "" ==>
      (r.resultado.Ok? <==> backend(PedidoFeedbackFinal(ValidarSessao(store, id).value)).Some?)
  {
    match ValidarSessao(store, id)
    case Err(e) => Step(store, [], Err(e))
    case Ok(sessao) =>
      var g := AI.GerarFeedbackFinal(Some(sessao.estudoDeCaso), sessao.historico, backend);
      match g.resultado
      case Err(e) => Step(store, g.pedidos, Err(e))
      case Ok(v) =>
        assert Trim(v.resposta) == v.resposta;
        match AtualizarFeedbackFinal(store, id, v.resposta, v.tokens, now)
        case Err(e) => Step(store, g.pedidos, Err(e))
        case Ok(u) => Step(u.store, g.pedidos, Ok(FeedbackFinalGerado(v.respostaHtml, v.tokens)))
  }

  /** The final assessment is not remembered: asking a second time sends the
      very same request again, since the history did not change, and the
      new text replaces the old one. */
  lemma FeedbackFinalAskedTwice(store: Store, id: Option<string>, backend: AI.Backend, n1: int, n2: int)
    requires GerarFeedbackFinal(store, id, backend, n1).resultado.Ok?
    ensures var s1 := GerarFeedbackFinal(store, id, backend, n1).store;
            var second := GerarFeedbackFinal(s1, id, backend, n2);
            && second.pedidos == GerarFeedbackFinal(store, id, backend, n1).pedidos
            && second.resultado.Ok?
            && ObterSessao(second.store, id).value.feedbackFinal == ObterSessao(s1, id).value.feedbackFinal
            && ObterSessao(second.store, id).value.tokens == ObterSessao(s1, id).value.tokens + second.resultado.value.tokens
  {
    var antes := ObterSessao(store, id).value;
    var s1 := GerarFeedbackFinal(store, id, backend, n1).store;
    var meio := ObterSessao(s1, id).value;
    assert PedidoFeedbackFinal(meio) == PedidoFeedbackFinal(antes);
  }

  // ---------------------------------------------------------------------
  // correcaoResposta
  // ---------------------------------------------------------------------

  /** `_precisaFeedback`: a generated feedback is wanted when there is an
      earlier turn and that turn was not judged correct. */
  function PrecisaFeedback(h: seq<Turn>): (r: bool)
    ensures |h| <= 1 ==> !r
    ensures |h| > 1 ==> (r <==> h[|h| - 2].feedback != Some(AI.RespostaCorreta))
  {
    if |h| <= 1 then false else h[|h| - 2].feedback != Some(AI.RespostaCorreta)
  }

  /** A turn judged correct spares the next wrong answer a generated
      feedback; any other earlier turn asks for one. */
  lemma PrecisaFeedbackAfter(h: seq<Turn>, t: Turn, novo: Turn)
    ensures PrecisaFeedback(h + [t] + [novo]) <==> t.feedback != Some(AI.RespostaCorreta)
  {
    var w := h + [t] + [novo];
    assert w[|w| - 2] == t;
  }

  datatype Corrigido = Corrigido(resposta: string, historicoLength: nat, tokens: int)

  /** Writes the answer and the chosen feedback into the last turn. */
  function Registrar(store: Store, id: Option<string>, resposta: Option<string>, feedback: string, tokens: int,
                     pedidos: seq<AI.Pedido>, n: nat, now: int): Step<Corrigido>
  {
    match AtualizarUltimoRegistro(store, id, resposta, Some(feedback), tokens, now)
    case Err(e) => Step(store, pedidos, Err(e))
    case Ok(u) => Step(u.store, pedidos, Ok(Corrigido(feedback, n, tokens)))
  }

  /** The verdict request for a session with at least one turn. */
  function Veredito(s: Sessao, resposta: Option<string>, backend: AI.Backend, parse: AI.Parser): AI.Chamada<AI.Verificacao>
    requires s.historico != []
  {
    AI.VerificarSeCorreta(Some(s.estudoDeCaso), Some(s.historico[|s.historico| - 1].pergunta), resposta, backend, parse)
  }

  /** The feedback chosen for a verdict and the tokens spent choosing it. */
  datatype Escolha = Escolha(feedback: string, tokensExtra: int)

  /** The feedback choice of `correcaoResposta`: the canned text, except for
      a wrong answer after a turn not judged correct, which gets a generated
      feedback. */
  function EscolherFeedback(s: Sessao, correto: bool, backend: AI.Backend): (r: AI.Chamada<Escolha>)
    ensures correto ==> r == AI.Chamada([], Ok(Escolha(AI.RespostaCorreta, 0)))
    ensures !correto && !PrecisaFeedback(s.historico) ==> r == AI.Chamada([], Ok(Escolha(AI.RespostaIncorreta, 0)))
    ensures !correto && PrecisaFeedback(s.historico) ==>
      var f := AI.GerarFeedback(Some(s.estudoDeCaso), s.historico, backend);
      && r.pedidos == f.pedidos
      && (r.resultado.Ok? <==> f.resultado.Ok?)
      && (r.resultado.Ok? ==> r.resultado.value == Escolha(f.resultado.value.feedback, f.resultado.value.tokens))
  {
    if !correto && PrecisaFeedback(s.historico) then
      var f := AI.GerarFeedback(Some(s.estudoDeCaso), s.historico, backend);
      match f.resultado
      case Err(e) => AI.Chamada(f.pedidos, Err(e))
      case Ok(fb) => AI.Chamada(f.pedidos, Ok(Escolha(fb.feedback, fb.tokens)))
    else
      AI.Chamada([], Ok(Escolha(if correto then AI.RespostaCorreta else AI.RespostaIncorreta, 0)))
  }

  /** When a correction succeeds: a valid session whose last turn has a
      question, a case and an answer; a verdict request that is answered
      with a reply that parses; and, for a wrong answer after a turn not
      judged correct, a feedback request that is answered too. */
  predicate CorrecaoPossivel(store: Store, id: Option<string>, resposta: Option<string>,
                             backend: AI.Backend, parse: AI.Parser)
  {
    && ValidarSessao(store, id).Ok?
    && var s := ValidarSessao(store, id).value;
    && var h := s.historico;
    && h != [] && h[|h| - 1].pergunta != ""
    && s.estudoDeCaso != "" && Truthy(resposta)
    && var p := AI.PedidoCorrecao(s.estudoDeCaso, h[|h| - 1].pergunta, resposta.value);
    && backend(p).Some?
    && var j := AI.ParseJsonResponse(AI.BrutoDe(backend(p).value.content), parse);
    && j.Ok?
    && (!AI.Correto(j.value) && PrecisaFeedback(h) ==> backend(AI.PedidoFeedback(s.estudoDeCaso, h)).Some?)
  }

  /** `correcaoResposta`: needs a session with a last question; asks for the
      verdict; on a wrong answer after a turn not judged correct it also
      generates a feedback, otherwise it uses the canned text; then writes
      the answer and the feedback into the last turn. */
  function CorrecaoResposta(store: Store, id: Option<string>, resposta: Option<string>,
                            backend: AI.Backend, parse: AI.Parser, now: int): (r: Step<Corrigido>)
    ensures ValidarSessao(store, id).Err? ==> r == Step(store, [], Err(ValidarSessao(store, id).error))
    ensures ValidarSessao(store, id).Ok? && ValidarSessao(store, id).value.historico == [] ==>
      r == Step(store, [], Err(NadaParaCorrigir))
    ensures ValidarSessao(store, id).Ok? ==>
      var h := ValidarSessao(store, id).value.historico;
      h != [] && h[|h| - 1].pergunta == "" ==> r == Step(store, [], Err(UltimaPerguntaAusente))
    ensures r.resultado.Err? ==> r.store == store
    ensures r.resultado.Ok? ==>
      var antes := ObterSessao(store, id).value;
      var h := antes.historico;
      var n := |h|;
      var depois := ObterSessao(r.store, id);
      && n > 0
      && r.resultado.value.historicoLength == n
      && depois.Some? && |depois.value.historico| == n
      && depois.value.historico[..n - 1] == h[..n - 1]
      && depois.value.historico[n - 1] == Amend(h[n - 1], resposta, Some(r.resultado.value.resposta), now)
      && depois.value.tokens == antes.tokens + r.resultado.value.tokens
      && OthersUnchanged(store, r.store, id.value)
  {
    match ValidarSessao(store, id)
    case Err(e) => Step(store, [], Err(e))
    case Ok(sessao) =>
      var h := sessao.historico;
      if |h| == 0 then Step(store, [], Err(NadaParaCorrigir))
      else if h[|h| - 1].pergunta == "" then Step(store, [], Err(UltimaPerguntaAusente))
      else
        var ver := Veredito(sessao, resposta, backend, parse);
        match ver.resultado
        case Err(e) => Step(store, ver.pedidos, Err(e))
        case Ok(v) =>
          var escolha := EscolherFeedback(sessao, v.correto, backend);
          match escolha.resultado
          case Err(e) => Step(store, ver.pedidos + escolha.pedidos, Err(e))
          case Ok(c) => Registrar(store, id, resposta, c.feedback, v.tokens + c.tokensExtra, ver.pedidos + escolha.pedidos, |h|, now)
  }

  /** A correction succeeds exactly under `CorrecaoPossivel`: once the
      guards pass, only the backend and the parser can make it fail. */
  lemma CorrecaoOkExactly(store: Store, id: Option<string>, resposta: Option<string>,
                          backend: AI.Backend, parse: AI.Parser, now: int)
    ensures CorrecaoResposta(store, id, resposta, backend, parse, now).resultado.Ok?
            <==> CorrecaoPossivel(store, id, resposta, backend, parse)
  {
  }

  /** The three-way feedback choice and the token sum: a correct answer gets
      the canned correct text; a wrong one gets a generated feedback when
      the earlier turn was not judged correct, and the canned incorrect text
      otherwise. The tokens are the verdict's plus, only when a feedback was
      generated, the feedback's. */
  lemma FeedbackChoice(store: Store, id: Option<string>, resposta: Option<string>,
                       backend: AI.Backend, parse: AI.Parser, now: int)
    requires CorrecaoResposta(store, id, resposta, backend, parse, now).resultado.Ok?
    ensures var s := ObterSessao(store, id).value;
      var r := CorrecaoResposta(store, id, resposta, backend, parse, now);
      var ver := Veredito(s, resposta, backend, parse);
      var fb := AI.GerarFeedback(Some(s.estudoDeCaso), s.historico, backend);
      && s.historico != []
      && ver.resultado.Ok?
      && (ver.resultado.value.correto ==>
            r.resultado.value.resposta == AI.RespostaCorreta
            && r.resultado.value.tokens == ver.resultado.value.tokens
            && |r.pedidos| == 1)
      && (!ver.resultado.value.correto && PrecisaFeedback(s.historico) ==>
            fb.resultado.Ok?
            && r.resultado.value.resposta == fb.resultado.value.feedback
            && r.resultado.value.tokens == ver.resultado.value.tokens + fb.resultado.value.tokens
            && |r.pedidos| == 2)
      && (!ver.resultado.value.correto && !PrecisaFeedback(s.historico) ==>
            r.resultado.value.resposta == AI.RespostaIncorreta
            && r.resultado.value.tokens == ver.resultado.value.tokens
            && |r.pedidos| == 1)
  {
  }

  /** A correction never asks the backend anything when the student gave no
      answer: the verdict's guard fails first and nothing is written. */
  lemma NoAnswerNoCall(store: Store, id: Option<string>, resposta: Option<string>,
                       backend: AI.Backend, parse: AI.Parser, now: int)
    requires !Truthy(resposta)
    ensures var r := CorrecaoResposta(store, id, resposta, backend, parse, now);
            r.pedidos == [] && r.store == store && r.resultado.Err?
  {
  }

  // ---------------------------------------------------------------------
  // obterHistorico
  // ---------------------------------------------------------------------

  /** What `obterHistorico` returns; after a failure only the history (empty)
      and the total (0) are set. */
  datatype Historico = Historico(
    historico: seq<Turn>,
    total: nat,
    especialidade: Option<string>,
    nomeAluno: Option<string>,
    estudoDeCaso: Option<string>,
    feedbackFinal: Option<string>,
    tokens: Option<int>)

  /** `obterHistorico`: never fails; an invalid session gives an empty
      record. */
  function ObterHistorico(store: Store, id: Option<string>): (r: Historico)
    ensures r.total == |r.historico|
    ensures ValidarSessao(store, id).Err? ==> r == Historico([], 0, None, None, None, None, None)
    ensures ValidarSessao(store, id).Ok? ==>
      var s := ObterSessao(store, id).value;
      r.historico == s.historico && r.tokens == Some(s.tokens) && r.feedbackFinal == s.feedbackFinal
      && r.especialidade == Some(s.especialidade)
      && r.nomeAluno == Some(s.nomeAluno) && r.estudoDeCaso == Some(s.estudoDeCaso)
  {
    match ValidarSessao(store, id)
    case Err(_) => Historico([], 0, None, None, None, None, None)
    case Ok(s) =>
      Historico(s.historico, |s.historico|, Some(s.especialidade), Some(s.nomeAluno), Some(s.estudoDeCaso),
                s.feedbackFinal, Some(s.tokens))
  }

  /** A generated question adds one turn to what the history reports. */
  lemma PerguntaAddsOneTurn(store: Store, id: Option<string>, backend: AI.Backend, now: int)
    requires GerarPergunta(store, id, backend, now).resultado.Ok?
    ensures ObterHistorico(GerarPergunta(store, id, backend, now).store, id).total == ObterHistorico(store, id).total + 1
  {
  }

  /** A correction reports the history length, which it leaves unchanged. */
  lemma CorrecaoKeepsLength(store: Store, id: Option<string>, resposta: Option<string>,
                            backend: AI.Backend, parse: AI.Parser, now: int)
    requires CorrecaoResposta(store, id, resposta, backend, parse, now).resultado.Ok?
    ensures var r := CorrecaoResposta(store, id, resposta, backend, parse, now);
            ObterHistorico(r.store, id).total == ObterHistorico(store, id).total == r.resultado.value.historicoLength
  {
  }

  /** The final assessment leaves the reported history exactly as it was. */
  lemma FeedbackFinalKeepsHistory(store: Store, id: Option<string>, backend: AI.Backend, now: int)
    requires GerarFeedbackFinal(store, id, backend, now).resultado.Ok?
    ensures ObterHistorico(GerarFeedbackFinal(store, id, backend, now).store, id).historico == ObterHistorico(store, id).historico
  {
  }
}

=== FILE: database.dfy ===
/** The study-case document store (services/databaseService.js). The
    embedded document database is a map from session id to document; every
    operation is a function from the store before to the store after, with
    the current time `now` (milliseconds) as a parameter.
 */
module DatabaseService {

  import opened Common
  import opened Strings

  /** One round of the case: the generated question, the student's answer
      and the feedback given, each answer and feedback `None` until set. */
  datatype Turn = Turn(
    pergunta: string,
    resposta: Option<string>,
    feedback: Option<string>,
    createdAt: int,
    updatedAt: Option<int>)

  datatype Status = Ativo | Arquivado

  /** A stored session document. Documents written by earlier versions of
      the application may carry the student name and the case text under the
      legacy keys "nome do aluno" and "estudo de caso", and may lack a
      `historico` array; both are tolerated when a document is read. */
  datatype Doc = Doc(
    sessionId: string,
    nomeAluno: Option<string>,
    nomeAlunoLegado: Option<string>,
    estudoDeCaso: Option<string>,
    estudoDeCasoLegado: Option<string>,
    especialidade: string,
    historico: Option<seq<Turn>>,
    feedbackFinal: Option<string>,
    tokens: int,
    createdAt: int,
    updatedAt: int,
    status: Status)

  type Store = map<string, Doc>

  /** Every document sits under its own session id. */
  predicate Consistent(store: Store) {
    forall id :: id in store ==> store[id].sessionId == id
  }

  /** The session `id` exists and is not archived. */
  predicate Ativa(store: Store, id: string) {
    id in store && store[id].status == Ativo
  }

  /** The student name given when no name is known. */
  const Anonimo := "Usuário Anônimo"

  // ---------------------------------------------------------------------
  // Reading
  // ---------------------------------------------------------------------

  /** A document as `obterSessao` hands it out: names and case text read
      from the current key or else the legacy one, `historico` always a list. */
  datatype Sessao = Sessao(
    sessionId: string,
    nomeAluno: string,
    estudoDeCaso: string,
    especialidade: string,
    historico: seq<Turn>,
    feedbackFinal: Option<string>,
    tokens: int,
    createdAt: int,
    updatedAt: int)

  function Normaliza(d: Doc): (s: Sessao)
    ensures s.nomeAluno != ""
    ensures d.historico.Some? ==> s.historico == d.historico.value
    ensures d.historico.None? ==> s.historico == []
    ensures Truthy(d.nomeAluno) ==> s.nomeAluno == d.nomeAluno.value
    ensures Truthy(d.estudoDeCaso) ==> s.estudoDeCaso == d.estudoDeCaso.value
    ensures !Truthy(d.nomeAluno) && Truthy(d.nomeAlunoLegado) ==> s.nomeAluno == d.nomeAlunoLegado.value
    ensures !Truthy(d.nomeAluno) && !Truthy(d.nomeAlunoLegado) ==> s.nomeAluno == Anonimo
    ensures !Truthy(d.estudoDeCaso) && Truthy(d.estudoDeCasoLegado) ==> s.estudoDeCaso == d.estudoDeCasoLegado.value
    ensures !Truthy(d.estudoDeCaso) && !Truthy(d.estudoDeCasoLegado) ==> s.estudoDeCaso == ""
    ensures s.especialidade == d.especialidade
    ensures s.sessionId == d.sessionId && s.tokens == d.tokens && s.feedbackFinal == d.feedbackFinal
    ensures s.createdAt == d.createdAt && s.updatedAt == d.updatedAt
  {
    Sessao(
      d.sessionId,
      FirstTruthy(d.nomeAluno, d.nomeAlunoLegado, Anonimo),
      FirstTruthy(d.estudoDeCaso, d.estudoDeCasoLegado, ""),
      d.especialidade,
      d.historico.GetOr([]),
      d.feedbackFinal,
      d.tokens,
      d.createdAt,
      d.updatedAt)
  }

  /** `obterSessao`: nothing for a missing or empty id, an unknown session or
      an archived one; otherwise the normalised document. */
  function ObterSessao(store: Store, id: Option<string>): (r: Option<Sessao>)
    ensures r.None? <==> !Truthy(id) || !Ativa(store, id.value)
    ensures r.Some? ==> r.value == Normaliza(store[id.value])
  {
    if !Truthy(id) || !Ativa(store, id.value) then None
    else Some(Normaliza(store[id.value]))
  }

  // ---------------------------------------------------------------------
  // Writing
  // ---------------------------------------------------------------------

  /** The fields an update sets; the absent ones are left alone. */
  datatype Campos = Campos(
    historico: Option<seq<Turn>>,
    tokens: Option<int>,
    feedbackFinal: Option<string>,
    status: Option<Status>)

  /** A document with the given fields set and `updatedAt` stamped. */
  function Aplica(d: Doc, c: Campos, now: int): (e: Doc)
    ensures e.updatedAt == now
    ensures e.historico == (if c.historico.Some? then c.historico else d.historico)
    ensures e.tokens == c.tokens.GetOr(d.tokens)
    ensures e.feedbackFinal == (if c.feedbackFinal.Some? then c.feedbackFinal else d.feedbackFinal)
    ensures e.status == c.status.GetOr(d.status)
    ensures e.(updatedAt := d.updatedAt, historico := d.historico, tokens := d.tokens,
               feedbackFinal := d.feedbackFinal, status := d.status) == d
  {
    d.(historico := if c.historico.Some? then c.historico else d.historico,
       tokens := c.tokens.GetOr(d.tokens),
       feedbackFinal := if c.feedbackFinal.Some? then c.feedbackFinal else d.feedbackFinal,
       status := c.status.GetOr(d.status),
       updatedAt := now)
  }

  /** `store2` differs from `store` at most in the document of `id`. */
  predicate OthersUnchanged(store: Store, store2: Store, id: string) {
    store2.Keys == store.Keys + (if id in store2 then {id} else {}) &&
    forall k :: k in store && k != id ==> store2[k] == store[k]
  }

  /** `_atualizarCampos`: the update matches only the active document of
      `id`; every other document, and an archived or missing one, is left
      as it was. */
  function AtualizarCampos(store: Store, id: string, c: Campos, now: int): (r: Store)
    ensures OthersUnchanged(store, r, id) && r.Keys == store.Keys
    ensures Ativa(store, id) ==> r[id] == Aplica(store[id], c, now)
    ensures !Ativa(store, id) ==> r == store
    ensures Consistent(store) ==> Consistent(r)
  {
    if Ativa(store, id) then store[id := Aplica(store[id], c, now)] else store
  }

  /** The outcome of a write: the store after it and the value returned. */
  datatype Update<T> = Update(store: Store, value: T)

  /** What `criarSessao` is given. */
  datatype DadosSessao = DadosSessao(
    nomeAluno: Option<string>,
    nomeAlunoLegado: Option<string>,
    estudoDeCaso: Option<string>,
    estudoDeCasoLegado: Option<string>,
    especialidade: Option<string>,
    tokens: Option<int>)

  /** The document `criarSessao` inserts. */
  function NovoDocumento(id: string, dados: DadosSessao, now: int): (d: Doc)
    ensures d.sessionId == id && d.status == Ativo
    ensures d.historico == Some([]) && d.feedbackFinal.None?
    ensures d.tokens == dados.tokens.GetOr(0)
    ensures d.createdAt == now && d.updatedAt == now
  {
    Doc(id,
        Some(FirstTruthy(dados.nomeAluno, dados.nomeAlunoLegado, Anonimo)),
        None,
        Some(FirstTruthy(dados.estudoDeCaso, dados.estudoDeCasoLegado, "")),
        None,
        if Truthy(dados.especialidade) then dados.especialidade.value else "",
        Some([]),
        None,
        dados.tokens.GetOr(0),
        now,
        now,
        Ativo)
  }

  /** `criarSessao`: inserts a fresh active session with an empty history
      and no final assessment, and returns the inserted document. */
  function CriarSessao(store: Store, id: string, dados: DadosSessao, now: int): (r: Update<Doc>)
    ensures r.value == NovoDocumento(id, dados, now)
    ensures OthersUnchanged(store, r.store, id) && id in r.store
    ensures r.store[id] == r.value
    ensures Consistent(store) ==> Consistent(r.store)
  {
    Update(store[id := NovoDocumento(id, dados, now)], NovoDocumento(id, dados, now))
  }

  /** Reading a session just created gives an empty history, no final
      assessment, the given token count (or 0), and the given student name,
      the legacy one, or "Usuário Anônimo". */
  lemma CriarThenObter(store: Store, id: string, dados: DadosSessao, now: int)
    requires id != ""
    ensures var s := ObterSessao(CriarSessao(store, id, dados, now).store, Some(id));
      && s.Some?
      && s.value.historico == []
      && s.value.feedbackFinal.None?
      && s.value.tokens == dados.tokens.GetOr(0)
      && s.value.nomeAluno == FirstTruthy(dados.nomeAluno, dados.nomeAlunoLegado, Anonimo)
      && s.value.estudoDeCaso == FirstTruthy(dados.estudoDeCaso, dados.estudoDeCasoLegado, "")
  {
  }

  /** `adicionarPerguntaHistorico`: appends the trimmed question as a new
      turn with no answer and no feedback, adds `tokensUsados` to the token
      count and returns the new history. Fails, writing nothing, when the
      session cannot be read. */
  function AdicionarPerguntaHistorico(store: Store, id: Option<string>, pergunta: string, tokensUsados: int, now: int)
    : (r: Result<Update<seq<Turn>>>)
    ensures r.Err? <==> ObterSessao(store, id).None?
    ensures r.Err? ==> r.error == SessaoNaoEncontrada
    ensures r.Ok? ==>
      var antes := ObterSessao(store, id).value;
      var h := r.value.value;
      && |h| == |antes.historico| + 1
      && h[..|antes.historico|] == antes.historico
      && h[|antes.historico|] == Turn(Trim(pergunta), None, None, now, None)
      && ObterSessao(r.value.store, id) == Some(antes.(historico := h, tokens := antes.tokens + tokensUsados, updatedAt := now))
      && OthersUnchanged(store, r.value.store, id.value)
    ensures r.Ok? && Consistent(store) ==> Consistent(r.value.store)
  {
    match ObterSessao(store, id)
    case None => Err(SessaoNaoEncontrada)
    case Some(sessao) =>
      var novo := Turn(Trim(pergunta), None, None, now, None);
      var h := sessao.historico + [novo];
      var store2 := AtualizarCampos(store, id.value, Campos(Some(h), Some(sessao.tokens + tokensUsados), None, None), now);
      Ok(Update(store2, h))
  }

  /** The merge applied to the last turn: an answer or feedback is written,
      trimmed, only when it is a non-empty string; `updatedAt` is stamped. */
  function Amend(t: Turn, resposta: Option<string>, feedback: Option<string>, now: int): (u: Turn)
    ensures u.pergunta == t.pergunta && u.createdAt == t.createdAt && u.updatedAt == Some(now)
    ensures u.resposta == (if Truthy(resposta) then Some(Trim(resposta.value)) else t.resposta)
    ensures u.feedback == (if Truthy(feedback) then Some(Trim(feedback.value)) else t.feedback)
  {
    t.(resposta := if Truthy(resposta) then Some(Trim(resposta.value)) else t.resposta,
       feedback := if Truthy(feedback) then Some(Trim(feedback.value)) else t.feedback,
       updatedAt := Some(now))
  }

  /** The later of two merge arguments wins when it is a non-empty string. */
  function Later(a: Option<string>, b: Option<string>): Option<string> {
    if Truthy(b) then b else a
  }

  /** Two merges in a row are one merge with the later arguments. */
  lemma AmendCompose(t: Turn, r1: Option<string>, f1: Option<string>, n1: int,
                     r2: Option<string>, f2: Option<string>, n2: int)
    ensures Amend(Amend(t, r1, f1, n1), r2, f2, n2) == Amend(t, Later(r1, r2), Later(f1, f2), n2)
  {
  }

  /** Recording the answer and then the feedback gives the same turn as
      recording both at once. */
  lemma AmendSeparately(t: Turn, resposta: string, feedback: string, n1: int, n2: int)
    ensures Amend(Amend(t, Some(resposta), None, n1), None, Some(feedback), n2)
         == Amend(t, Some(resposta), Some(feedback), n2)
  {
    AmendCompose(t, Some(resposta), None, n1, None, Some(feedback), n2);
  }

  /** `atualizarUltimoRegistro`: merges answer and feedback into the last
      turn only, adds `tokensUsados`, and returns the new history. Fails,
      writing nothing, when the session cannot be read or has no turn. */
  function AtualizarUltimoRegistro(store: Store, id: Option<string>, resposta: Option<string>,
                                   feedback: Option<string>, tokensUsados: int, now: int)
    : (r: Result<Update<seq<Turn>>>)
    ensures ObterSessao(store, id).None? ==> r == Err(SessaoNaoEncontrada)
    ensures ObterSessao(store, id).Some? && ObterSessao(store, id).value.historico == [] ==> r == Err(HistoricoVazio)
    ensures r.Ok? ==>
      var antes := ObterSessao(store, id).value;
      var n := |antes.historico|;
      var h := r.value.value;
      && n > 0 && |h| == n
      && h[..n - 1] == antes.historico[..n - 1]
      && h[n - 1] == Amend(antes.historico[n - 1], resposta, feedback, now)
      && ObterSessao(r.value.store, id) == Some(antes.(historico := h, tokens := antes.tokens + tokensUsados, updatedAt := now))
      && OthersUnchanged(store, r.value.store, id.value)
    ensures r.Ok? && Consistent(store) ==> Consistent(r.value.store)
    ensures r.Ok? <==> ObterSessao(store, id).Some? && ObterSessao(store, id).value.historico != []
  {
    match ObterSessao(store, id)
    case None => Err(SessaoNaoEncontrada)
    case Some(sessao) =>
      if |sessao.historico| == 0 then Err(HistoricoVazio)
      else
        var n := |sessao.historico|;
        var h := sessao.historico[n - 1 := Amend(sessao.historico[n - 1], resposta, feedback, now)];
        var store2 := AtualizarCampos(store, id.value, Campos(Some(h), Some(sessao.tokens + tokensUsados), None, None), now);
        Ok(Update(store2, h))
  }

  /** What `atualizarFeedbackFinal` reports. */
  datatype FeedbackFinalSalvo = FeedbackFinalSalvo(sucesso: bool, feedbackSalvo: Option<string>, historicoIntacto: bool)

  /** `atualizarFeedbackFinal`: writes the trimmed final assessment and the
      token count and nothing else; the history is the same list before and
      after, so the report always says it is intact. */
  function AtualizarFeedbackFinal(store: Store, id: Option<string>, feedbackFinal: string, tokensUsados: int, now: int)
    : (r: Result<Update<FeedbackFinalSalvo>>)
    ensures r.Err? <==> ObterSessao(store, id).None?
    ensures r.Err? ==> r.error == SessaoNaoEncontrada
    ensures r.Ok? ==>
      var antes := ObterSessao(store, id).value;
      var depois := ObterSessao(r.value.store, id);
      && depois == Some(antes.(feedbackFinal := Some(Trim(feedbackFinal)), tokens := antes.tokens + tokensUsados, updatedAt := now))
      && depois.value.historico == antes.historico
      && r.value.value == FeedbackFinalSalvo(true, Some(Trim(feedbackFinal)), true)
      && OthersUnchanged(store, r.value.store, id.value)
    ensures r.Ok? && Consistent(store) ==> Consistent(r.value.store)
  {
    match ObterSessao(store, id)
    case None => Err(SessaoNaoEncontrada)
    case Some(sessao) =>
      var store2 := AtualizarCampos(store, id.value, Campos(None, Some(sessao.tokens + tokensUsados), Some(Trim(feedbackFinal)), None), now);
      var depois := ObterSessao(store2, id).value;
      Ok(Update(store2, FeedbackFinalSalvo(true, depois.feedbackFinal, |sessao.historico| == |depois.historico|)))
  }

  // ---------------------------------------------------------------------
  // Statistics, listing, archiving
  // ---------------------------------------------------------------------

  /** A turn that counts as a question: its question text is not empty. */
  predicate TemPergunta(t: Turn) {
    t.pergunta != ""
  }

  /** A question that has both an answer and feedback. */
  predicate Completa(t: Turn) {
    TemPergunta(t) && Truthy(t.resposta) && Truthy(t.feedback)
  }

  /** How many turns carry a question. */
  function ContaPerguntas(h: seq<Turn>): nat {
    if |h| == 0 then 0 else (if TemPergunta(h[|h| - 1]) then 1 else 0) + ContaPerguntas(h[..|h| - 1])
  }

  function ContaCompletas(h: seq<Turn>): (n: nat)
    ensures n <= ContaPerguntas(h)
  {
    if |h| == 0 then 0 else (if Completa(h[|h| - 1]) then 1 else 0) + ContaCompletas(h[..|h| - 1])
  }

  lemma {:induction false} ContaPerguntasBound(h: seq<Turn>)
    ensures ContaPerguntas(h) <= |h|
    ensures ContaPerguntas(h) == |h| <==> forall i :: 0 <= i < |h| ==> TemPergunta(h[i])
  {
    if |h| > 0 {
      var p := h[..|h| - 1];
      ContaPerguntasBound(p);
      assert forall i :: 0 <= i < |p| ==> p[i] == h[i];
    }
  }

  datatype Estatisticas = Estatisticas(
    sessionId: string,
    nomeAluno: string,
    especialidade: string,
    totalPerguntas: nat,
    respostasCompletas: nat,
    temFeedbackFinal: bool,
    tokens: int,
    createdAt: int,
    updatedAt: int)

  /** `obterEstatisticas`: the number of turns with a question, the number of
      those also answered and commented, whether a final assessment exists;
      nothing when the session cannot be read. */
  function ObterEstatisticas(store: Store, id: Option<string>): (r: Option<Estatisticas>)
    ensures r.None? <==> ObterSessao(store, id).None?
    ensures r.Some? ==>
      var s := ObterSessao(store, id).value;
      && r.value.respostasCompletas <= r.value.totalPerguntas <= |s.historico|
      && r.value.totalPerguntas == ContaPerguntas(s.historico)
      && r.value.respostasCompletas == ContaCompletas(s.historico)
      && (r.value.temFeedbackFinal <==> Truthy(s.feedbackFinal))
      && r.value.tokens == s.tokens
  {
    match ObterSessao(store, id)
    case None => None
    case Some(s) =>
      ContaPerguntasBound(s.historico);
      Some(Estatisticas(id.value, s.nomeAluno, s.especialidade, ContaPerguntas(s.historico),
                        ContaCompletas(s.historico), Truthy(s.feedbackFinal), s.tokens, s.createdAt, s.updatedAt))
  }

  /** Asking a non-blank question adds one to the question count and leaves
      the count of completed answers as it was. */
  lemma AdicionarCountsOneQuestion(store: Store, id: Option<string>, pergunta: string, tokensUsados: int, now: int)
    requires Trim(pergunta) != ""
    requires AdicionarPerguntaHistorico(store, id, pergunta, tokensUsados, now).Ok?
    ensures var antes := ObterEstatisticas(store, id).value;
      var depois := ObterEstatisticas(AdicionarPerguntaHistorico(store, id, pergunta, tokensUsados, now).value.store, id).value;
      depois.totalPerguntas == antes.totalPerguntas + 1 && depois.respostasCompletas == antes.respostasCompletas
  {
    var h := AdicionarPerguntaHistorico(store, id, pergunta, tokensUsados, now).value.value;
    var n := |ObterSessao(store, id).value.historico|;
    assert h[..|h| - 1] == ObterSessao(store, id).value.historico;
  }

  /** The active documents. */
  function Ativos(store: Store): set<Doc> {
    set k | k in store && store[k].status == Ativo :: store[k]
  }

  /** The most recently updated document of a non-empty set. */
  method MaisRecente(docs: set<Doc>) returns (d: Doc)
    requires docs != {}
    ensures d in docs
    ensures forall e :: e in docs ==> e.updatedAt <= d.updatedAt
  {
    d :| d in docs;
    var rest := docs - {d};
    while rest != {}
      invariant rest <= docs && d in docs
      invariant forall e :: e in docs && e !in rest ==> e.updatedAt <= d.updatedAt
      decreases |rest|
    {
      var e :| e in rest;
      if e.updatedAt > d.updatedAt {
        d := e;
      }
      rest := rest - {e};
    }
  }

  /** `listarSessoes`: the active documents, most recently updated first,
      at most `limite` of them (a limit of 0 means no limit). The ones left
      out were updated no later than every one listed. */
  method ListarSessoes(store: Store, limite: nat) returns (r: seq<Doc>)
    ensures var n := |Ativos(store)|; |r| == if limite == 0 || limite > n then n else limite
    ensures forall i :: 0 <= i < |r| ==> r[i] in Ativos(store)
    ensures forall i, j :: 0 <= i < j < |r| ==> r[i] != r[j] && r[i].updatedAt >= r[j].updatedAt
    ensures forall e, i :: e in Ativos(store) && e !in r && 0 <= i < |r| ==> e.updatedAt <= r[i].updatedAt
  {
    var todos := Ativos(store);
    var quer := if limite == 0 || limite > |todos| then |todos| else limite;
    var rest := todos;
    r := [];
    while |r| < quer
      invariant rest <= todos && |r| + |rest| == |todos| && |r| <= quer
      invariant forall i :: 0 <= i < |r| ==> r[i] in todos && r[i] !in rest
      invariant forall e :: e in todos ==> e in rest || e in r
      invariant forall i, j :: 0 <= i < j < |r| ==> r[i] != r[j] && r[i].updatedAt >= r[j].updatedAt
      invariant forall e, i :: e in rest && 0 <= i < |r| ==> e.updatedAt <= r[i].updatedAt
      decreases quer - |r|
    {
      var d := MaisRecente(rest);
      r := r + [d];
      rest := rest - {d};
    }
  }

  /** `arquivarSessao`: marks the session archived and reports success. */
  function ArquivarSessao(store: Store, id: string, now: int): (r: Update<bool>)
    ensures r.value
    ensures ObterSessao(r.store, Some(id)).None?
    ensures OthersUnchanged(store, r.store, id) && r.store.Keys == store.Keys
    ensures Consistent(store) ==> Consistent(r.store)
  {
    Update(AtualizarCampos(store, id, Campos(None, None, None, Some(Arquivado)), now), true)
  }

  /** Once archived, a session can no longer be changed: every later write
      fails to find it or leaves the store as it is. */
  lemma ArchivedIsFrozen(store: Store, id: string, c: Campos, now: int, later: int)
    ensures var s := ArquivarSessao(store, id, now).store;
      AtualizarCampos(s, id, c, later) == s
  {
  }
}

=== FILE: especialidades.dfy ===
/** The fixed list of clinical specialties a new study case is drawn from
    (utils/sortearEspecialidade.js). The random draw itself is a parameter:
    callers pass the index the draw produced.
 */
module Especialidades {

  const Lista: seq<string> := [
    "Clínica Médica",
    "Saúde da Mulher",
    "Pediatria / Puericultura",
    "Saúde do Idoso",
    "Urgência",
    "Infectologia",
    "Centro cirúrgico",
    "Hipertensão / Cardiologia",
    "Saúde Mental",
    "Obstetrícia / Urgência"
  ]

  /** `sortearEspecialidade` for the draw `indice`: always one of the ten
      listed specialties, never an empty name. */
  function Sortear(indice: nat): (r: string)
    requires indice < |Lista|
    ensures r in Lista
    ensures r != ""
  {
    Lista[indice]
  }

  /** Every listed specialty can be drawn. */
  lemma EveryEspecialidadeDrawable(e: string)
    requires e in Lista
    ensures exists i :: 0 <= i < |Lista| && Sortear(i) == e
  {
    var i :| 0 <= i < |Lista| && Lista[i] == e;
    assert Sortear(i) == e;
  }
}

=== FILE: html_formatter.dfy ===
/** `TextFormatter.paraHTML` (utils/textFormatter.js): the conversion of
    generated text into the HTML fragment the chat page shows. The method is
    a fixed chain of regular-expression replacements; each one is modelled
    as a scan over the text with the semantics JavaScript gives that
    expression (multiline `^`, `.` that stops at line terminators, greedy
    `\s+` that gives characters back, lazy `.*?`, global versus first-match
    replacement).
 */
module HtmlFormatter {
  import opened Common
  import opened Strings
  import opened TextFormatter

  // ---------------------------------------------------------------------
  // The line rules /^P\s+(.+)$/gm -> 'open$1close'
  // ---------------------------------------------------------------------

  /** The literal part `P` of a line rule. */
  datatype Marcador =
    | Cerquilhas(n: nat)  // '#', '##' or '###'
    | Topico              // [-*]
    | Numero              // \d+\.

  /** JavaScript `\d`: the ASCII digits only. */
  const Digitos: set<char> := {'0', '1', '2', '3', '4', '5', '6', '7', '8', '9'}

  /** The characters a line rule's match can begin with. */
  const Iniciais: set<char> := {'#', '-', '*'} + Digitos

  /** The length of the marker `m` when it occurs at `i`. */
  function MarcadorLen(s: string, i: nat, m: Marcador): (r: Option<nat>)
    requires i <= |s|
    ensures r.Some? ==> 0 < r.value && i + r.value <= |s| && s[i] in Iniciais
    ensures r.Some? && m.Cerquilhas? ==> s[i] == '#'
  {
    match m
    case Cerquilhas(n) =>
      if 0 < n <= Run(s, i, {'#'}) then Some(n) else None
    case Topico =>
      if i < |s| && (s[i] == '-' || s[i] == '*') then Some(1) else None
    case Numero =>
      var d := Run(s, i, Digitos);
      if 0 < d && i + d < |s| && s[i + d] == '.' then Some(d + 1) else None
  }

  /** The last position in `[lo, hi)` holding a character `.` can match. */
  function UltimoVisivel(s: string, lo: nat, hi: nat): (r: Option<nat>)
    requires lo <= hi <= |s|
    ensures r.Some? ==> lo <= r.value < hi && !IsLineTerminator(s[r.value])
    ensures r.Some? ==> forall k :: r.value < k < hi ==> IsLineTerminator(s[k])
    ensures r.None? ==> forall k :: lo <= k < hi ==> IsLineTerminator(s[k])
    decreases hi - lo
  {
    if lo == hi then None
    else if !IsLineTerminator(s[hi - 1]) then Some(hi - 1)
    else UltimoVisivel(s, lo, hi - 1)
  }

  /** Where the group `(.+)` begins when `\s+` starts at `p`. The greedy
      `\s+` first takes the whole white-space run; if the run reaches the
      end of the text it gives characters back, one at a time, until `.+`
      can start on one that is not a line terminator. */
  function InicioGrupo(s: string, p: nat): (r: Option<nat>)
    requires p <= |s|
    ensures r.Some? ==> p < r.value < |s| && !IsLineTerminator(s[r.value])
    ensures r.Some? ==> forall k :: p <= k < r.value ==> IsWhitespace(s[k])
    ensures r.None? ==> p == |s| || !IsWhitespace(s[p]) ||
                        forall k :: p < k < |s| ==> IsLineTerminator(s[k])
  {
    var w := Run(s, p, Whitespace);
    if w == 0 then None
    else if p + w < |s| then
      LineTerminatorIsWhitespace(s[p + w]);
      Some(p + w)
    else
      UltimoVisivel(s, p + 1, p + w)
  }

  /** Where the line that goes on at `c` ends: the next line terminator, or
      the end of the text. */
  function FimLinha(s: string, c: nat): (e: nat)
    requires c <= |s|
    ensures c <= e <= |s|
    ensures e == |s| || IsLineTerminator(s[e])
    ensures forall k :: c <= k < e ==> !IsLineTerminator(s[k])
    decreases |s| - c
  {
    if c < |s| && !IsLineTerminator(s[c]) then FimLinha(s, c + 1) else c
  }

  /** The bounds of the group `(.+)` when rule `m` matches at `i`. A match
      needs a line start, the marker, at least one white-space character
      and then a visible character; the group runs to the end of its line. */
  function Grupo(s: string, i: nat, m: Marcador): (r: Option<(nat, nat)>)
    requires i <= |s|
    ensures r.Some? ==> i < r.value.0 < r.value.1 <= |s|
    ensures r.Some? ==> AtLineStart(s, i) && MarcadorLen(s, i, m).Some?
    ensures r.Some? ==> forall k :: r.value.0 <= k < r.value.1 ==> !IsLineTerminator(s[k])
  {
    if !AtLineStart(s, i) then None
    else
      match MarcadorLen(s, i, m)
      case None => None
      case Some(n) =>
        match InicioGrupo(s, i + n)
        case None => None
        case Some(c) => Some((c, FimLinha(s, c)))
  }

  /** The global replacement of rule `m` from position `i` on. The line
      anchors refer to the text before the replacement; after a match the
      scan resumes where the group ended. */
  function LinhaFrom(s: string, i: nat, m: Marcador, open: string, close: string): (r: string)
    requires i <= |s|
    ensures forall c :: c in r ==> c in s[i..] || c in open || c in close
    decreases |s| - i
  {
    if i == |s| then
      ""
    else
      match Grupo(s, i, m)
      case Some(g) =>
        SliceChars(s, i, g.0, g.1);
        SliceChars(s, i, g.1, |s|);
        open + s[g.0..g.1] + close + LinhaFrom(s, g.1, m, open, close)
      case None =>
        SliceChars(s, i, i + 1, |s|);
        SliceChars(s, i, i, |s|);
        [s[i]] + LinhaFrom(s, i + 1, m, open, close)
  }

  function Linha(s: string, m: Marcador, open: string, close: string): string {
    LinhaFrom(s, 0, m, open, close)
  }

  /** Where no match begins, a line rule copies the text. */
  lemma {:induction false} LinhaPlain(s: string, i: nat, m: Marcador, open: string, close: string)
    requires i <= |s|
    requires forall k :: i <= k < |s| ==> Grupo(s, k, m).None?
    ensures LinhaFrom(s, i, m, open, close) == s[i..]
    decreases |s| - i
  {
    if i < |s| {
      LinhaPlain(s, i + 1, m, open, close);
      assert s[i..] == [s[i]] + s[i + 1..];
    }
  }

  /** A line rule adds no character beyond those of its two tags. */
  lemma LinhaKeepsAbsent(s: string, i: nat, m: Marcador, open: string, close: string, c: char)
    requires i <= |s|
    requires c !in s[i..]
    requires c !in open && c !in close
    ensures c !in LinhaFrom(s, i, m, open, close)
  {
  }

  /** Text without any line rule's first character has no match anywhere. */
  lemma SemIniciais(s: string, m: Marcador)
    requires forall k :: 0 <= k < |s| ==> s[k] !in Iniciais
    ensures forall k :: 0 <= k < |s| ==> Grupo(s, k, m).None?
  {
  }

  // ---------------------------------------------------------------------
  // The list wrap /(<li>.*<\/li>)/s -> 'open$1close' (first match only)
  // ---------------------------------------------------------------------

  /** With the dot-all flag and a greedy `.*`, the single match runs from
      the first "<li>" to the last "</li>" that does not overlap it; the
      match is wrapped in `open` and `close`. */
  function EnvolverLista(s: string, open: string, close: string): string {
    match Find(s, "<li>")
    case None => s
    case Some(i) =>
      match FindLast(s, "</li>")
      case None => s
      case Some(j) => if i + 4 <= j then s[..i] + open + s[i..j + 5] + close + s[j + 5..] else s
  }

  /** Where the first item and the last item end are known, the wrap puts
      the tags exactly around that stretch. */
  lemma EnvolverAt(s: string, open: string, close: string, i: nat, j: nat)
    requires Find(s, "<li>") == Some(i) && FindLast(s, "</li>") == Some(j) && i + 4 <= j
    ensures j + 5 <= |s|
    ensures EnvolverLista(s, open, close) == s[..i] + open + s[i..j + 5] + close + s[j + 5..]
  {
  }

  /** Without a list item the wrap leaves the text alone. */
  lemma EnvolverPlain(s: string, open: string, close: string)
    requires '<' !in s
    ensures EnvolverLista(s, open, close) == s
  {
    if Contains(s, "<li>") {
      ContainsHasFirst(s, "<li>");
    }
  }

  /** The wrap adds no character beyond those of its two tags. */
  lemma EnvolverKeepsAbsent(s: string, open: string, close: string, c: char)
    requires c !in s && c !in open && c !in close
    ensures c !in EnvolverLista(s, open, close)
  {
    match Find(s, "<li>")
    case None =>
    case Some(i) =>
      match FindLast(s, "</li>")
      case None =>
      case Some(j) =>
        if i + 4 <= j {
          assert s[0..] == s;
          SliceKeepsAbsent(s, 0, 0, i, c);
          SliceKeepsAbsent(s, 0, i, j + 5, c);
          SliceKeepsAbsent(s, 0, j + 5, |s|, c);
          assert s[..i] == s[0..i] && s[j + 5..] == s[j + 5..|s|];
        }
  }

  // ---------------------------------------------------------------------
  // Paragraphs: split('<br><br>'), map, join('')
  // ---------------------------------------------------------------------

  /** One block: wrapped in a paragraph when it has visible content,
      dropped otherwise. */
  function Paragrafo(p: string): string {
    if Trim(p) != "" then "<p>" + p + "</p>" else ""
  }

  /** `parts.map(...).join('')` from block `i` on: the blocks' paragraphs
      one after the other. */
  function ParagrafosFrom(parts: seq<string>, i: nat): string
    requires i <= |parts|
    decreases |parts| - i
  {
    if i == |parts| then "" else Paragrafo(parts[i]) + ParagrafosFrom(parts, i + 1)
  }

  /** When the text holds a double break it is cut there and every block
      becomes a paragraph; otherwise it is left as it is. */
  function Paragrafar(t: string): string {
    var parts := Split(t, "<br><br>");
    if |parts| > 1 then ParagrafosFrom(parts, 0) else t
  }

  /** Without a double break there is only one block and nothing changes. */
  lemma ParagrafarPlain(t: string)
    requires !Contains(t, "<br><br>")
    ensures Paragrafar(t) == t
  {
  }

  lemma ParagrafoKeepsAbsent(p: string, c: char)
    requires c !in p && c !in "<p>" && c !in "</p>"
    ensures c !in Paragrafo(p)
  {
    if Trim(p) != "" {
      var w := "<p>" + p + "</p>";
      assert forall k :: 0 <= k < |w| ==> w[k] == (if k < 3 then "<p>"[k] else if k < 3 + |p| then p[k - 3] else "</p>"[k - 3 - |p|]);
    }
  }

  /** The paragraphs add no character beyond those of the blocks and the
      tags. */
  lemma {:induction false} ParagrafosKeepsAbsent(parts: seq<string>, i: nat, c: char)
    requires i <= |parts|
    requires forall k :: i <= k < |parts| ==> c !in parts[k]
    requires c !in "<p>" && c !in "</p>"
    ensures c !in ParagrafosFrom(parts, i)
    decreases |parts| - i
  {
    if i < |parts| {
      ParagrafoKeepsAbsent(parts[i], c);
      ParagrafosKeepsAbsent(parts, i + 1, c);
    }
  }

  /** Making paragraphs adds no character beyond those of the tags. */
  lemma ParagrafarKeepsAbsent(t: string, c: char)
    requires c !in t && c !in "<p>" && c !in "</p>"
    ensures c !in Paragrafar(t)
  {
    var parts := Split(t, "<br><br>");
    if |parts| > 1 {
      forall k | 0 <= k < |parts|
        ensures c !in parts[k]
      {
        if c in parts[k] {
          JoinHasParts(parts, "<br><br>", k, c);
        }
      }
      ParagrafosKeepsAbsent(parts, 0, c);
    }
  }

  // ---------------------------------------------------------------------
  // The whole conversion
  // ---------------------------------------------------------------------

  /** The three heading rules, '###' first. */
  function Cabecalhos(t: string): string {
    Linha(Linha(Linha(t, Cerquilhas(3), "<h3>", "</h3>"), Cerquilhas(2), "<h2>", "</h2>"), Cerquilhas(1), "<h1>", "</h1>")
  }

  /** Bold, then italic. */
  function Enfase(t: string): string {
    DelimitedFrom(DelimitedFrom(t, 0, "**", "<strong>", "</strong>"), 0, "*", "<em>", "</em>")
  }

  /** Bullet items and their wrap, then numbered items and theirs. */
  function Listas(t: string): string {
    var u := EnvolverLista(Linha(t, Topico, "<li>", "</li>"), "<ul>", "</ul>");
    EnvolverLista(Linha(u, Numero, "<li>", "</li>"), "<ol>", "</ol>")
  }

  /** Every replacement of `paraHTML`, before the final trim. */
  function HtmlSteps(t: string): string {
    var quebras := ReplaceAll(Cabecalhos(t), "\n", "<br>");
    Paragrafar(ReplaceAll(Listas(Enfase(quebras)), "<br><br>", "<br>"))
  }

  /** No step after the line-feed replacement brings a line feed back. */
  lemma HtmlStepsNoLineFeed(t: string)
    ensures '\n' !in HtmlSteps(t)
  {
    var quebras := ReplaceAll(Cabecalhos(t), "\n", "<br>");
    ReplaceAllRemoves(Cabecalhos(t), "\n", "<br>", 0);
    var bold := DelimitedFrom(quebras, 0, "**", "<strong>", "</strong>");
    assert quebras[0..] == quebras;
    assert bold[0..] == bold;
    var e := Enfase(quebras);
    assert e[0..] == e;
    LinhaKeepsAbsent(e, 0, Topico, "<li>", "</li>", '\n');
    var u := EnvolverLista(Linha(e, Topico, "<li>", "</li>"), "<ul>", "</ul>");
    EnvolverKeepsAbsent(Linha(e, Topico, "<li>", "</li>"), "<ul>", "</ul>", '\n');
    assert u[0..] == u;
    LinhaKeepsAbsent(u, 0, Numero, "<li>", "</li>", '\n');
    EnvolverKeepsAbsent(Linha(u, Numero, "<li>", "</li>"), "<ol>", "</ol>", '\n');
    ReplaceAllKeepsAbsent(Listas(e), "<br><br>", "<br>", '\n', 0);
    ParagrafarKeepsAbsent(ReplaceAll(Listas(e), "<br><br>", "<br>"), '\n');
  }

  /** The HTML shown for generated text. Missing or empty text gives ''.
      Every line feed has become a `<br>`, and the fragment has no white
      space at its edges. */
  function ParaHTML(texto: Option<string>): (r: string)
    ensures !Truthy(texto) ==> r == ""
    ensures IsTrimmed(r)
    ensures '\n' !in r
  {
    if !Truthy(texto) then
      ""
    else
      HtmlStepsNoLineFeed(texto.value);
      TrimKeepsAbsent(HtmlSteps(texto.value), '\n');
      Trim(HtmlSteps(texto.value))
  }

  /** Text with no markup at all: a single line, without '#', '*' or '<',
      whose first character starts no list item. */
  predicate SemMarcacao(t: string) {
    && '#' !in t && '*' !in t && '<' !in t
    && (forall k :: 0 <= k < |t| ==> !IsLineTerminator(t[k]))
    && (|t| > 0 ==> t[0] != '-' && t[0] !in Digitos)
  }

  /** In such text only the first position is a line start, and no rule
      matches there. */
  lemma SemMarcacaoSemGrupo(t: string, m: Marcador)
    requires SemMarcacao(t)
    ensures forall k :: 0 <= k < |t| ==> Grupo(t, k, m).None?
  {
  }

  /** Text without markup is only trimmed. */
  lemma PlainTextHtml(t: string)
    requires t != "" && SemMarcacao(t)
    ensures ParaHTML(Some(t)) == Trim(t)
  {
    assert t[0..] == t;
    SemMarcacaoSemGrupo(t, Cerquilhas(3));
    SemMarcacaoSemGrupo(t, Cerquilhas(2));
    SemMarcacaoSemGrupo(t, Cerquilhas(1));
    LinhaPlain(t, 0, Cerquilhas(3), "<h3>", "</h3>");
    LinhaPlain(t, 0, Cerquilhas(2), "<h2>", "</h2>");
    LinhaPlain(t, 0, Cerquilhas(1), "<h1>", "</h1>");
    assert Cabecalhos(t) == t;
    assert '\n' !in t by {
      LineTerminatorIsWhitespace('\n');
    }
    if Contains(t, "\n") {
      ContainsHasFirst(t, "\n");
    }
    ReplaceAllPlain(t, "\n", "<br>");
    DelimitedPlain(t, 0, "**", "<strong>", "</strong>");
    DelimitedPlain(t, 0, "*", "<em>", "</em>");
    assert Enfase(t) == t;
    SemMarcacaoSemGrupo(t, Topico);
    SemMarcacaoSemGrupo(t, Numero);
    LinhaPlain(t, 0, Topico, "<li>", "</li>");
    EnvolverPlain(t, "<ul>", "</ul>");
    LinhaPlain(t, 0, Numero, "<li>", "</li>");
    EnvolverPlain(t, "<ol>", "</ol>");
    assert Listas(t) == t;
    if Contains(t, "<br><br>") {
      ContainsHasFirst(t, "<br><br>");
    }
    ReplaceAllPlain(t, "<br><br>", "<br>");
    ParagrafarPlain(t);
  }

  // ---------------------------------------------------------------------
  // Worked cases
  // ---------------------------------------------------------------------

  /** Characters no rule reacts to. */
  predicate Simples(c: char) {
    !IsWhitespace(c) && c !in Iniciais && c != '<'
  }

  /** No heading rule matches in text without '#'. */
  lemma HeadingsPlain(t: string)
    requires '#' !in t
    ensures Cabecalhos(t) == t
  {
    assert t[0..] == t;
    LinhaPlain(t, 0, Cerquilhas(3), "<h3>", "</h3>");
    LinhaPlain(t, 0, Cerquilhas(2), "<h2>", "</h2>");
    LinhaPlain(t, 0, Cerquilhas(1), "<h1>", "</h1>");
  }

  lemma ParagraphBreaks(a: char, b: char)
    requires Simples(a) && Simples(b)
    ensures ReplaceAll([a, '\n', '\n', '\n', b], "\n", "<br>") == [a] + "<br><br><br>" + [b]
  {
    var t := [a, '\n', '\n', '\n', b];
    LineTerminatorIsWhitespace(a);
    LineTerminatorIsWhitespace(b);
    assert !OccursAt(t, "\n", 4) by { assert t[4..][0] == b; }
    assert ReplaceAllFrom(t, "\n", "<br>", 4) == [b];
    assert OccursAt(t, "\n", 3) by { assert t[3..][0] == '\n'; }
    assert OccursAt(t, "\n", 2) by { assert t[2..][0] == '\n'; }
    assert OccursAt(t, "\n", 1) by { assert t[1..][0] == '\n'; }
    assert !OccursAt(t, "\n", 0) by { assert t[0..][0] == a; }
    assert ReplaceAllFrom(t, "\n", "<br>", 3) == "<br>" + [b];
    assert ReplaceAllFrom(t, "\n", "<br>", 2) == "<br><br>" + [b];
    assert ReplaceAllFrom(t, "\n", "<br>", 1) == "<br><br><br>" + [b];
    assert ReplaceAllFrom(t, "\n", "<br>", 0) == [a] + "<br><br><br>" + [b];
  }

  /** Bold, italic and both list rules leave alone text in which no rule's
      first character occurs and no list item begins. */
  lemma ListasEnfasePlain(q: string)
    requires forall k :: 0 <= k < |q| ==> q[k] !in Iniciais
    requires !Contains(q, "<li>")
    ensures Listas(Enfase(q)) == q
  {
    assert q[0..] == q;
    DelimitedPlain(q, 0, "**", "<strong>", "</strong>");
    DelimitedPlain(q, 0, "*", "<em>", "</em>");
    SemIniciais(q, Topico);
    SemIniciais(q, Numero);
    LinhaPlain(q, 0, Topico, "<li>", "</li>");
    LinhaPlain(q, 0, Numero, "<li>", "</li>");
  }

  lemma ParagraphPassThrough(a: char, b: char)
    requires Simples(a) && Simples(b)
    ensures Listas(Enfase([a] + "<br><br><br>" + [b])) == [a] + "<br><br><br>" + [b]
  {
    var q := [a] + "<br><br><br>" + [b];
    forall k | 0 <= k < |q|
      ensures q[k] !in Iniciais
    {
      if 0 < k < 13 {
        assert q[k] == "<br><br><br>"[k - 1];
      }
    }
    NoOccurrenceByPair(q, "<li>");
    ListasEnfasePlain(q);
  }

  lemma ParagraphShrink(a: char, b: char)
    requires Simples(a) && Simples(b)
    ensures ReplaceAll([a] + "<br><br><br>" + [b], "<br><br>", "<br>") == [a] + "<br><br>" + [b]
  {
    var q := [a] + "<br><br><br>" + [b];
    assert forall k :: 9 <= k <= |q| ==> !OccursAt(q, "<br><br>", k);
    ReplaceAllFromPlain(q, "<br><br>", "<br>", 9);
    assert OccursAt(q, "<br><br>", 1) by { assert q[1..9] == "<br><br>"; }
    assert !OccursAt(q, "<br><br>", 0) by { assert q[0..][0] == a; }
    assert q[9..] == "<br>" + [b];
    assert ReplaceAllFrom(q, "<br><br>", "<br>", 1) == "<br>" + q[9..];
    assert ReplaceAllFrom(q, "<br><br>", "<br>", 0) == [a] + "<br>" + q[9..];
  }

  /** Text cut into two blocks with visible content becomes exactly two
      paragraphs. */
  lemma ParagrafarTwo(t: string, x: string, y: string)
    requires Split(t, "<br><br>") == [x, y]
    requires Trim(x) != "" && Trim(y) != ""
    ensures Paragrafar(t) == ("<p>" + x + "</p>") + ("<p>" + y + "</p>")
  {
    var parts := [x, y];
    var py := "<p>" + y + "</p>";
    assert ParagrafosFrom(parts, 1) == py + "";
    assert py + "" == py;
    assert ParagrafosFrom(parts, 0) == "<p>" + x + "</p>" + ParagrafosFrom(parts, 1);
  }

  lemma SplitAtBreak(a: char, b: char)
    requires Simples(a) && Simples(b)
    ensures Split([a] + "<br><br>" + [b], "<br><br>") == [[a], [b]]
  {
    var w := [a] + "<br><br>" + [b];
    assert w[0..] == w && w[0] != "<br><br>"[0];
    assert w[1..9] == "<br><br>";
    FindAt(w, "<br><br>", 1);
    assert w[9..] == [b] && w[..1] == [a];
    assert Split([b], "<br><br>") == [[b]];
  }

  lemma ParagraphSplit(a: char, b: char)
    requires Simples(a) && Simples(b)
    ensures Paragrafar([a] + "<br><br>" + [b]) == "<p>" + [a] + "</p>" + "<p>" + [b] + "</p>"
  {
    SplitAtBreak(a, b);
    assert Trim([a]) == [a] && Trim([b]) == [b];
    ParagrafarTwo([a] + "<br><br>" + [b], [a], [b]);
  }

  /** The conversion of non-empty text whose replacements give an already
      trimmed fragment is that fragment. */
  lemma ParaHTMLIs(t: string, y: string)
    requires t != "" && HtmlSteps(t) == y && IsTrimmed(y)
    ensures ParaHTML(Some(t)) == y
  {
  }

  lemma ParagraphLate(a: char, b: char)
    requires Simples(a) && Simples(b)
    ensures Paragrafar(ReplaceAll(Listas(Enfase([a] + "<br><br><br>" + [b])), "<br><br>", "<br>"))
            == "<p>" + [a] + "</p>" + "<p>" + [b] + "</p>"
  {
    ParagraphPassThrough(a, b);
    ParagraphShrink(a, b);
    ParagraphSplit(a, b);
  }

  lemma ParagraphSteps(a: char, b: char)
    requires Simples(a) && Simples(b)
    ensures HtmlSteps([a, '\n', '\n', '\n', b]) == "<p>" + [a] + "</p>" + "<p>" + [b] + "</p>"
  {
    HeadingsPlain([a, '\n', '\n', '\n', b]);
    ParagraphBreaks(a, b);
    ParagraphLate(a, b);
  }

  lemma ParagraphTrimmed(a: char, b: char)
    ensures var t := [a, '\n', '\n', '\n', b];
            var y := "<p>" + [a] + "</p>" + "<p>" + [b] + "</p>";
            HtmlSteps(t) == y ==> ParaHTML(Some(t)) == y
  {
    var t := [a, '\n', '\n', '\n', b];
    var y := "<p>" + [a] + "</p>" + "<p>" + [b] + "</p>";
    assert IsTrimmed(y);
    if HtmlSteps(t) == y {
      ParaHTMLIs(t, y);
    }
  }

  /** Two blocks separated by three line feeds become two paragraphs: the
      three breaks shrink to two, which the paragraph split then cuts at. */
  lemma ParagraphExample(a: char, b: char)
    requires Simples(a) && Simples(b)
    ensures ParaHTML(Some([a, '\n', '\n', '\n', b])) == "<p>" + [a] + "</p>" + "<p>" + [b] + "</p>"
  {
    ParagraphSteps(a, b);
    ParagraphTrimmed(a, b);
  }

  lemma BulletItem(a: char)
    requires Simples(a)
    ensures Linha(['-', ' ', a], Topico, "<li>", "</li>") == "<li>" + [a] + "</li>"
  {
    var t := ['-', ' ', a];
    assert Run(t, 2, Whitespace) == 0;
    assert Run(t, 1, Whitespace) == 1;
    assert InicioGrupo(t, 1) == Some(2);
    LineTerminatorIsWhitespace(a);
    assert FimLinha(t, 3) == 3;
    assert FimLinha(t, 2) == 3;
    assert Grupo(t, 0, Topico) == Some((2, 3));
    assert t[2..3] == [a];
    assert LinhaFrom(t, 3, Topico, "<li>", "</li>") == "";
  }

  lemma BulletPassThrough(a: char)
    requires Simples(a)
    ensures ReplaceAll(Cabecalhos(['-', ' ', a]), "\n", "<br>") == ['-', ' ', a]
    ensures Enfase(['-', ' ', a]) == ['-', ' ', a]
  {
    var t := ['-', ' ', a];
    LineTerminatorIsWhitespace(a);
    HeadingsPlain(t);
    if Contains(t, "\n") {
      ContainsHasFirst(t, "\n");
    }
    ReplaceAllPlain(t, "\n", "<br>");
    DelimitedPlain(t, 0, "**", "<strong>", "</strong>");
    DelimitedPlain(t, 0, "*", "<em>", "</em>");
    assert t[0..] == t;
  }

  lemma BulletUlFirst(a: char)
    ensures Find("<li>" + [a] + "</li>", "<li>") == Some(0)
  {
    var item := "<li>" + [a] + "</li>";
    assert item[0..4] == "<li>";
    FindAt(item, "<li>", 0);
  }

  lemma BulletUlLast(a: char)
    ensures FindLast("<li>" + [a] + "</li>", "</li>") == Some(5)
  {
    var item := "<li>" + [a] + "</li>";
    assert item[5..10] == "</li>";
    FindLastAt(item, "</li>", 5);
  }

  lemma BulletUlPieces(a: char)
    ensures var item := "<li>" + [a] + "</li>";
            item[..0] + "<ul>" + item[0..10] + "</ul>" + item[10..] == "<ul><li>" + [a] + "</li></ul>"
  {
    var item := "<li>" + [a] + "</li>";
    assert item[..0] == "" && item[0..10] == item && item[10..] == "";
    assert "" + "<ul>" + item + "</ul>" + "" == "<ul>" + item + "</ul>";
  }

  lemma BulletWrapUl(a: char)
    requires Simples(a)
    ensures EnvolverLista("<li>" + [a] + "</li>", "<ul>", "</ul>") == "<ul><li>" + [a] + "</li></ul>"
  {
    BulletUlFirst(a);
    BulletUlLast(a);
    EnvolverAt("<li>" + [a] + "</li>", "<ul>", "</ul>", 0, 5);
    BulletUlPieces(a);
  }

  /** In one line that does not begin with a rule's first character no line
      rule matches. */
  lemma UmaLinhaSemMarcador(s: string, m: Marcador)
    requires forall k :: 0 <= k < |s| ==> !IsLineTerminator(s[k])
    requires |s| > 0 ==> s[0] !in Iniciais
    ensures forall k :: 0 <= k < |s| ==> Grupo(s, k, m).None?
  {
    forall k | 0 <= k < |s|
      ensures Grupo(s, k, m).None?
    {
      if k > 0 {
        assert !IsLineTerminator(s[k - 1]);
      }
    }
  }

  lemma BulletUlOneLine(a: char)
    requires Simples(a)
    ensures var u := "<ul><li>" + [a] + "</li></ul>";
            forall k :: 0 <= k < |u| ==> !IsLineTerminator(u[k])
  {
    LineTerminatorIsWhitespace(a);
  }

  lemma BulletNoNumber(a: char)
    requires Simples(a)
    ensures Linha("<ul><li>" + [a] + "</li></ul>", Numero, "<li>", "</li>") == "<ul><li>" + [a] + "</li></ul>"
  {
    var u := "<ul><li>" + [a] + "</li></ul>";
    BulletUlOneLine(a);
    UmaLinhaSemMarcador(u, Numero);
    LinhaPlain(u, 0, Numero, "<li>", "</li>");
    assert u[0..] == u;
  }

  lemma BulletOlFirst(a: char)
    requires Simples(a)
    ensures Find("<ul><li>" + [a] + "</li></ul>", "<li>") == Some(4)
  {
    var u := "<ul><li>" + [a] + "</li></ul>";
    assert u[4..8] == "<li>";
    forall j | 0 <= j < 4
      ensures !OccursAt(u, "<li>", j)
    {
      assert u[j..][0] == u[j] && u[j..][1] == u[j + 1];
    }
    FindAt(u, "<li>", 4);
  }

  lemma BulletOlLast(a: char)
    requires Simples(a)
    ensures FindLast("<ul><li>" + [a] + "</li></ul>", "</li>") == Some(9)
  {
    var u := "<ul><li>" + [a] + "</li></ul>";
    assert u[9..14] == "</li>";
    forall j | 9 < j <= |u|
      ensures !OccursAt(u, "</li>", j)
    {
      if j + 5 <= |u| {
        assert u[j..][0] == u[j] && u[j..][2] == u[j + 2];
      }
    }
    FindLastAt(u, "</li>", 9);
  }

  lemma BulletOlPieces(a: char)
    ensures var u := "<ul><li>" + [a] + "</li></ul>";
            u[..4] + "<ol>" + u[4..14] + "</ol>" + u[14..] == "<ul><ol><li>" + [a] + "</li></ol></ul>"
  {
    var u := "<ul><li>" + [a] + "</li></ul>";
    assert u[..4] == "<ul>";
    assert u[4..14] == "<li>" + [a] + "</li>";
    assert u[14..] == "</ul>";
    assert "<ul>" + "<ol>" + ("<li>" + [a] + "</li>") + "</ol>" + "</ul>" == "<ul><ol><li>" + [a] + "</li></ol></ul>";
  }

  lemma BulletWrapOl(a: char)
    requires Simples(a)
    ensures EnvolverLista("<ul><li>" + [a] + "</li></ul>", "<ol>", "</ol>") == "<ul><ol><li>" + [a] + "</li></ol></ul>"
  {
    var u := "<ul><li>" + [a] + "</li></ul>";
    BulletOlFirst(a);
    BulletOlLast(a);
    EnvolverAt(u, "<ol>", "</ol>", 4, 9);
    BulletOlPieces(a);
  }

  lemma BulletLists(a: char)
    requires Simples(a)
    ensures Listas(Enfase(['-', ' ', a])) == "<ul><ol><li>" + [a] + "</li></ol></ul>"
  {
    BulletPassThrough(a);
    BulletItem(a);
    BulletWrapUl(a);
    BulletNoNumber(a);
    BulletWrapOl(a);
  }

  lemma BulletTail(a: char)
    requires Simples(a)
    ensures var o := "<ul><ol><li>" + [a] + "</li></ol></ul>";
            Paragrafar(ReplaceAll(o, "<br><br>", "<br>")) == o
  {
    var o := "<ul><ol><li>" + [a] + "</li></ol></ul>";
    NoOccurrenceByPair(o, "<br><br>");
    ReplaceAllPlain(o, "<br><br>", "<br>");
    ParagrafarPlain(o);
  }

  lemma BulletSteps(a: char)
    requires Simples(a)
    ensures HtmlSteps(['-', ' ', a]) == "<ul><ol><li>" + [a] + "</li></ol></ul>"
  {
    BulletPassThrough(a);
    BulletLists(a);
    BulletTail(a);
  }


  lemma BulletTrimmed(a: char)
    ensures var t := ['-', ' ', a];
            var o := "<ul><ol><li>" + [a] + "</li></ol></ul>";
            HtmlSteps(t) == o ==> ParaHTML(Some(t)) == o
  {
    var t := ['-', ' ', a];
    var o := "<ul><ol><li>" + [a] + "</li></ol></ul>";
    assert IsTrimmed(o);
    if HtmlSteps(t) == o {
      ParaHTMLIs(t, o);
    }
  }

  /** A bullet item is wrapped twice: the numbered-list wrap runs after the
      bullet wrap and takes the same item, so the list ends up inside both
      a `<ul>` and an `<ol>`. */
  lemma BulletListExample(a: char)
    requires Simples(a)
    ensures ParaHTML(Some(['-', ' ', a])) == "<ul><ol><li>" + [a] + "</li></ol></ul>"
  {
    BulletSteps(a);
    BulletTrimmed(a);
  }
}

=== FILE: session_identity.dfy ===
/** The HTTP-session side of a study session (services/sessionService.js):
    the cookie session carries the student's identity, its creation time and
    the front-end chat data. The session object is mutated in place by the
    service; here each operation returns the session as it is afterwards
    (`None` once destroyed) next to its result.
 */
module SessionIdentity {
  import opened Common
  import opened DatabaseService

  /** Sessions older than 24 hours, in milliseconds, are expired. */
  const MaxAge: int := 24 * 60 * 60 * 1000

  datatype EstadoChat = Criado | Inicializando

  /** The chat data of a session; `historico` may be missing in a session
      written by hand or by an older client. */
  datatype ChatData = ChatData(userName: string, createdAt: int, estado: EstadoChat, historico: Option<seq<Turn>>)

  /** `req.session`: `createdAt` is `None` when the stored value is not a
      date, which the service reads as an invalid date. */
  datatype SessaoHttp = SessaoHttp(userId: Option<string>, createdAt: Option<int>, chatData: Option<ChatData>)

  /** The session as it is after an operation, and the operation's result. */
  datatype Efeito<T> = Efeito(sessao: Option<SessaoHttp>, resultado: Result<T>)

  // ---------------------------------------------------------------------
  // criarSessao
  // ---------------------------------------------------------------------

  /** The request body `criarSessao` reads. */
  datatype DataChat = DataChat(userName: Option<string>, courseName: Option<string>)

  /** What `criarSessao` returns, with the session it leaves and whether it
      tried to save the student in the database. */
  datatype Criada = Criada(sessao: SessaoHttp, sessionId: string, chatData: ChatData, tentouSalvar: bool)

  /** `criarSessao`: keeps an existing identity and its creation time, and
      otherwise assigns the fresh id `novoId` and the time `now`; the chat
      data is always replaced by a new empty one. The database save is only
      attempted with both a name and a course. */
  function CriarSessao(s: SessaoHttp, dados: DataChat, novoId: string, now: int): (r: Criada)
    requires novoId != ""
    ensures Truthy(s.userId) ==> r.sessao.userId == s.userId && r.sessao.createdAt == s.createdAt
    ensures !Truthy(s.userId) ==> r.sessao.userId == Some(novoId) && r.sessao.createdAt == Some(now)
    ensures r.sessao.userId == Some(r.sessionId) && r.sessionId != ""
    ensures r.sessao.chatData == Some(r.chatData)
    ensures r.chatData.historico == Some([]) && r.chatData.estado == Criado && r.chatData.createdAt == now
    ensures Truthy(dados.userName) ==> r.chatData.userName == dados.userName.value
    ensures !Truthy(dados.userName) ==> r.chatData.userName == ""
    ensures r.tentouSalvar <==> Truthy(dados.userName) && Truthy(dados.courseName)
  {
    var s1 := if !Truthy(s.userId) then s.(userId := Some(novoId), createdAt := Some(now)) else s;
    var chat := ChatData(FirstTruthy(dados.userName, None, ""), now, Criado, Some([]));
    Criada(s1.(chatData := Some(chat)), s1.userId.value, chat, Truthy(dados.userName) && Truthy(dados.courseName))
  }

  /** Creating again keeps the identity and the creation time of the first
      creation, whatever id and time the second one is offered. */
  lemma CriarSessaoKeepsIdentity(s: SessaoHttp, d1: DataChat, d2: DataChat, id1: string, id2: string, n1: int, n2: int)
    requires id1 != "" && id2 != ""
    ensures var a := CriarSessao(s, d1, id1, n1);
            var b := CriarSessao(a.sessao, d2, id2, n2);
            b.sessionId == a.sessionId && b.sessao.createdAt == a.sessao.createdAt
            && b.chatData.createdAt == n2
  {
  }

  // ---------------------------------------------------------------------
  // validarSessaoBasica
  // ---------------------------------------------------------------------

  /** The age check: an invalid date makes the age not a number, and a
      comparison with it is false, so such a session never expires. */
  predicate Expirada(s: SessaoHttp, now: int) {
    match s.createdAt
    case None => false
    case Some(c) => now - c > MaxAge
  }

  /** `validarSessaoBasica`: a session with an identity that has not
      expired; an expired one is destroyed. */
  function ValidarSessaoBasica(req: Option<SessaoHttp>, now: int): (r: Efeito<SessaoHttp>)
    ensures req.None? || !Truthy(req.value.userId) ==> r == Efeito(req, Err(SessaoInvalidaOuExpirada))
    ensures r.resultado == Err(SessaoExpirada) <==> req.Some? && Truthy(req.value.userId) && Expirada(req.value, now)
    ensures r.resultado == Err(SessaoExpirada) ==> r.sessao.None?
    ensures r.resultado.Ok? <==> req.Some? && Truthy(req.value.userId) && !Expirada(req.value, now)
    ensures r.resultado.Ok? ==> r.sessao == req && r.resultado.value == req.value
  {
    if req.None? || !Truthy(req.value.userId) then Efeito(req, Err(SessaoInvalidaOuExpirada))
    else if Expirada(req.value, now) then Efeito(None, Err(SessaoExpirada))
    else Efeito(req, Ok(req.value))
  }

  /** A session this service created stays valid for exactly 24 hours: it
      is accepted up to `MaxAge` milliseconds after its creation and refused,
      and destroyed, one millisecond later. */
  lemma CreatedSessionLifetime(s: SessaoHttp, d: DataChat, novoId: string, t0: int, t: int)
    requires novoId != "" && !Truthy(s.userId)
    ensures var v := ValidarSessaoBasica(Some(CriarSessao(s, d, novoId, t0).sessao), t);
            (v.resultado.Ok? <==> t - t0 <= MaxAge)
            && (!v.resultado.Ok? ==> v == Efeito(None, Err(SessaoExpirada)))
  {
  }

  /** A session whose creation time is not a valid date never expires. */
  lemma InvalidDateNeverExpires(s: SessaoHttp, now: int)
    requires Truthy(s.userId) && s.createdAt.None?
    ensures ValidarSessaoBasica(Some(s), now) == Efeito(Some(s), Ok(s))
  {
  }

  // ---------------------------------------------------------------------
  // inicializarChatData, validarSessao, obterDadosSessao
  // ---------------------------------------------------------------------

  /** The chat data `inicializarChatData` supplies when there is none. */
  function ChatInicial(now: int): ChatData {
    ChatData("", now, Inicializando, Some([]))
  }

  /** `inicializarChatData`: after the basic validation, supplies chat data
      when the session has none and leaves existing chat data alone. */
  function InicializarChatData(req: Option<SessaoHttp>, now: int): (r: Efeito<SessaoHttp>)
    ensures ValidarSessaoBasica(req, now).resultado.Err? ==> r == ValidarSessaoBasica(req, now)
    ensures r.resultado.Ok? ==>
      && r.sessao == Some(r.resultado.value)
      && r.resultado.value.userId == req.value.userId
      && r.resultado.value.createdAt == req.value.createdAt
      && r.resultado.value.chatData.Some?
      && (req.value.chatData.Some? ==> r.resultado.value == req.value)
      && (req.value.chatData.None? ==> r.resultado.value.chatData == Some(ChatInicial(now)))
    ensures r.resultado.Ok? <==> ValidarSessaoBasica(req, now).resultado.Ok?
  {
    match ValidarSessaoBasica(req, now)
    case Efeito(depois, Err(e)) => Efeito(depois, Err(e))
    case Efeito(_, Ok(s)) =>
      var s1 := if s.chatData.None? then s.(chatData := Some(ChatInicial(now))) else s;
      Efeito(Some(s1), Ok(s1))
  }

  /** Initialising twice, while the session is still valid, is initialising
      once. */
  lemma InicializarIdempotent(req: Option<SessaoHttp>, n1: int, n2: int)
    requires InicializarChatData(req, n1).resultado.Ok?
    requires ValidarSessaoBasica(req, n2).resultado.Ok?
    ensures InicializarChatData(InicializarChatData(req, n1).sessao, n2) == InicializarChatData(req, n1)
  {
  }

  /** `validarSessao`: the basic validation, then the chat data must be
      there. */
  function ValidarSessao(req: Option<SessaoHttp>, now: int): (r: Efeito<SessaoHttp>)
    ensures ValidarSessaoBasica(req, now).resultado.Err? ==> r == ValidarSessaoBasica(req, now)
    ensures ValidarSessaoBasica(req, now).resultado.Ok? && req.value.chatData.None? ==> r == Efeito(req, Err(ChatNaoEncontrado))
    ensures r.resultado.Ok? <==> ValidarSessaoBasica(req, now).resultado.Ok? && req.value.chatData.Some?
    ensures r.resultado.Ok? ==> r == Efeito(req, Ok(req.value))
  {
    match ValidarSessaoBasica(req, now)
    case Efeito(depois, Err(e)) => Efeito(depois, Err(e))
    case Efeito(_, Ok(s)) => if s.chatData.None? then Efeito(req, Err(ChatNaoEncontrado)) else Efeito(req, Ok(s))
  }

  /** Once initialised, a session passes the full validation until it
      expires. */
  lemma InicializarThenValidar(req: Option<SessaoHttp>, n1: int, n2: int)
    requires InicializarChatData(req, n1).resultado.Ok?
    ensures ValidarSessao(InicializarChatData(req, n1).sessao, n2).resultado.Ok? <==> !Expirada(req.value, n2)
  {
  }

  /** What `obterDadosSessao` returns. */
  datatype DadosHttp = DadosHttp(sessionId: string, chatData: ChatData, createdAt: Option<int>)

  /** `obterDadosSessao`: the identity, the chat data and the creation time
      of a fully valid session. */
  function ObterDadosSessao(req: Option<SessaoHttp>, now: int): (r: Efeito<DadosHttp>)
    ensures r.resultado.Ok? <==> ValidarSessao(req, now).resultado.Ok?
    ensures r.sessao == ValidarSessao(req, now).sessao
    ensures r.resultado.Err? ==> r.resultado.error == ValidarSessao(req, now).resultado.error
    ensures r.resultado.Ok? ==>
      && Some(r.resultado.value.sessionId) == req.value.userId
      && r.resultado.value.sessionId != ""
      && Some(r.resultado.value.chatData) == req.value.chatData
      && r.resultado.value.createdAt == req.value.createdAt
  {
    match ValidarSessao(req, now)
    case Efeito(depois, Err(e)) => Efeito(depois, Err(e))
    case Efeito(depois, Ok(s)) => Efeito(depois, Ok(DadosHttp(s.userId.value, s.chatData.value, s.createdAt)))
  }

  // ---------------------------------------------------------------------
  // atualizarHistorico, obterHistorico
  // ---------------------------------------------------------------------

  /** `atualizarHistorico`: replaces the chat history and nothing else;
      fails, changing nothing, without chat data. */
  function AtualizarHistorico(s: SessaoHttp, novo: seq<Turn>): (r: Efeito<ChatData>)
    ensures s.chatData.None? <==> r.resultado.Err?
    ensures r.resultado.Err? ==> r == Efeito(Some(s), Err(SessaoInvalida))
    ensures r.resultado.Ok? ==>
      var c := r.resultado.value;
      && c.historico == Some(novo)
      && c.userName == s.chatData.value.userName
      && c.createdAt == s.chatData.value.createdAt
      && c.estado == s.chatData.value.estado
      && r.sessao == Some(SessaoHttp(s.userId, s.createdAt, Some(c)))
  {
    if s.chatData.None? then Efeito(Some(s), Err(SessaoInvalida))
    else
      var c := s.chatData.value.(historico := Some(novo));
      Efeito(Some(s.(chatData := Some(c))), Ok(c))
  }

  /** `obterHistorico`: the chat history, stored as an empty list first when
      it is missing; fails, changing nothing, without chat data. */
  function ObterHistorico(s: SessaoHttp): (r: Efeito<seq<Turn>>)
    ensures s.chatData.None? <==> r.resultado.Err?
    ensures r.resultado.Err? ==> r == Efeito(Some(s), Err(SessaoInvalida))
    ensures r.resultado.Ok? && s.chatData.value.historico.Some? ==>
      r == Efeito(Some(s), Ok(s.chatData.value.historico.value))
    ensures r.resultado.Ok? && s.chatData.value.historico.None? ==>
      r.resultado.value == [] && r.sessao == Some(s.(chatData := Some(s.chatData.value.(historico := Some([])))))
  {
    if s.chatData.None? then Efeito(Some(s), Err(SessaoInvalida))
    else if s.chatData.value.historico.None? then
      var c := s.chatData.value.(historico := Some([]));
      Efeito(Some(s.(chatData := Some(c))), Ok([]))
    else Efeito(Some(s), Ok(s.chatData.value.historico.value))
  }

  /** The history read back is the history last written, and reading it
      changes nothing. */
  lemma AtualizarThenObter(s: SessaoHttp, novo: seq<Turn>)
    requires s.chatData.Some?
    ensures var w := AtualizarHistorico(s, novo);
            ObterHistorico(w.sessao.value) == Efeito(w.sessao, Ok(novo))
  {
  }

  /** Reading twice gives the same history as reading once, and the second
      read leaves the session as the first left it. */
  lemma ObterHistoricoStable(s: SessaoHttp)
    requires s.chatData.Some?
    ensures var a := ObterHistorico(s);
            ObterHistorico(a.sessao.value) == Efeito(a.sessao, a.resultado)
  {
  }
}

=== FILE: strings.dfy ===
/** The JavaScript string primitives the services rely on: white space and
    line terminators as the regular-expression engine sees them,
    `String.prototype.trim`, `toLowerCase`, `includes`, `indexOf` and `split`.
 */
module Strings {

  import opened Common

  /** The characters matched by JavaScript's `\s` class and removed by `trim`. */
  const Whitespace: set<char> := {
    '\t', '\n', '\U{000B}', '\U{000C}', '\r', ' ', '\U{00A0}', '\U{1680}',
    '\U{2000}', '\U{2001}', '\U{2002}', '\U{2003}', '\U{2004}', '\U{2005}',
    '\U{2006}', '\U{2007}', '\U{2008}', '\U{2009}', '\U{200A}',
    '\U{2028}', '\U{2029}', '\U{202F}', '\U{205F}', '\U{3000}', '\U{FEFF}'
  }

  predicate IsWhitespace(c: char) {
    c in Whitespace
  }

  /** The characters that end a line for `^` and `$` in multiline mode and
      that `.` refuses to match. */
  predicate IsLineTerminator(c: char) {
    c == '\n' || c == '\r' || c == '\U{2028}' || c == '\U{2029}'
  }

  lemma LineTerminatorIsWhitespace(c: char)
    ensures IsLineTerminator(c) ==> IsWhitespace(c)
  {
  }

  /** No white space at either end. */
  predicate IsTrimmed(s: string) {
    |s| == 0 || (!IsWhitespace(s[0]) && !IsWhitespace(s[|s| - 1]))
  }

  /** The first position at or after `i` that is not white space. */
  function SkipWhitespace(s: string, i: nat): (k: nat)
    requires i <= |s|
    ensures i <= k <= |s|
    ensures forall j :: i <= j < k ==> IsWhitespace(s[j])
    ensures k < |s| ==> !IsWhitespace(s[k])
    decreases |s| - i
  {
    if i < |s| && IsWhitespace(s[i]) then SkipWhitespace(s, i + 1) else i
  }

  /** The end of the text up to `j` once trailing white space is cut. */
  function SkipWhitespaceBack(s: string, j: nat): (k: nat)
    requires j <= |s|
    ensures k <= j
    ensures forall i :: k <= i < j ==> IsWhitespace(s[i])
    ensures k > 0 ==> !IsWhitespace(s[k - 1])
    decreases j
  {
    if j > 0 && IsWhitespace(s[j - 1]) then SkipWhitespaceBack(s, j - 1) else j
  }

  /** Where the trimmed text starts and ends in `s`. */
  function TrimBounds(s: string): (r: (nat, nat))
    ensures r.0 <= r.1 <= |s|
    ensures forall i :: 0 <= i < r.0 ==> IsWhitespace(s[i])
    ensures forall i :: r.1 <= i < |s| ==> IsWhitespace(s[i])
    ensures r.0 < r.1 ==> !IsWhitespace(s[r.0]) && !IsWhitespace(s[r.1 - 1])
  {
    var a := SkipWhitespace(s, 0);
    if a == |s| then (a, a)
    else
      var b := SkipWhitespaceBack(s, |s|);
      assert !(b <= a);
      (a, b)
  }

  /** `String.prototype.trim`: white space removed from both ends, nothing
      else changed, and a string without edge white space left as it is. */
  function Trim(s: string): (r: string)
    ensures IsTrimmed(r)
    ensures |r| <= |s|
    ensures IsTrimmed(s) ==> r == s
  {
    var (a, b) := TrimBounds(s);
    s[a..b]
  }

  /** `Trim(s)` is the piece of `s` left once white space is cut from both
      ends: `k` is where it starts, and everything cut is white space. */
  lemma TrimIsSlice(s: string) returns (k: nat)
    ensures k + |Trim(s)| <= |s|
    ensures Trim(s) == s[k..k + |Trim(s)|]
    ensures forall i :: 0 <= i < k ==> IsWhitespace(s[i])
    ensures forall i :: k + |Trim(s)| <= i < |s| ==> IsWhitespace(s[i])
  {
    k := TrimBounds(s).0;
  }

  /** Trimming twice is trimming once. */
  lemma TrimIdempotent(s: string)
    ensures Trim(Trim(s)) == Trim(s)
  {
  }

  /** `toLowerCase` on the Basic Latin and Latin-1 letters. */
  function LowerChar(c: char): char {
    if 'A' <= c <= 'Z' || ('\U{00C0}' <= c <= '\U{00DE}' && c != '\U{00D7}') then
      (c as int + 32) as char
    else
      c
  }

  function ToLower(s: string): (r: string)
    ensures |r| == |s|
    ensures forall i :: 0 <= i < |s| ==> r[i] == LowerChar(s[i])
  {
    seq(|s|, i requires 0 <= i < |s| => LowerChar(s[i]))
  }

  lemma ToLowerAppend(s: string, t: string)
    ensures ToLower(s + t) == ToLower(s) + ToLower(t)
  {
  }

  /** `sub` occurs in `s` starting at position `j`. */
  predicate OccursAt(s: string, sub: string, j: int) {
    0 <= j <= |s| && sub <= s[j..]
  }

  /** `s.includes(sub)`: `sub` occurs somewhere in `s`. */
  predicate Contains(s: string, sub: string) {
    exists j :: 0 <= j <= |s| && OccursAt(s, sub, j)
  }

  /** Text added around a string never removes an occurrence. */
  lemma ContainsExtend(s: string, sub: string, pre: string, post: string)
    requires Contains(s, sub)
    ensures Contains(pre + s + post, sub)
  {
    var j :| 0 <= j <= |s| && OccursAt(s, sub, j);
    var t := pre + s + post;
    assert t[|pre| + j..] == s[j..] + post;
    assert OccursAt(t, sub, |pre| + j);
  }

  /** An occurrence, read as a slice of the text. */
  lemma OccursSlice(s: string, sub: string, j: int)
    requires OccursAt(s, sub, j)
    ensures j + |sub| <= |s| && s[j..j + |sub|] == sub
  {
    assert s[j..][..|sub|] == s[j..j + |sub|];
  }

  /** The first position at or after `i` where `sub` occurs. */
  function FindFrom(s: string, sub: string, i: nat): (r: Option<nat>)
    requires i <= |s|
    ensures r.Some? ==> i <= r.value && OccursAt(s, sub, r.value)
    ensures r.Some? ==> forall k :: i <= k < r.value ==> !OccursAt(s, sub, k)
    ensures r.None? ==> forall k :: i <= k <= |s| ==> !OccursAt(s, sub, k)
    decreases |s| - i
  {
    if OccursAt(s, sub, i) then Some(i)
    else if i == |s| then None
    else FindFrom(s, sub, i + 1)
  }

  /** `s.indexOf(sub)`: the first position where `sub` occurs. */
  function Find(s: string, sub: string): (r: Option<nat>)
    ensures r.Some? ==> r.value + |sub| <= |s| && s[r.value..r.value + |sub|] == sub
    ensures r.Some? ==> OccursAt(s, sub, r.value)
    ensures r.Some? ==> forall j :: 0 <= j < r.value ==> !OccursAt(s, sub, j)
    ensures r.None? <==> !Contains(s, sub)
  {
    var r := FindFrom(s, sub, 0);
    if r.None? then None
    else
      OccursSlice(s, sub, r.value);
      r
  }

  /** An occurrence inside a prefix of `s` is an occurrence in `s`. */
  lemma PrefixOccurrence(s: string, sub: string, j: nat, k: nat)
    requires j <= k <= |s|
    ensures OccursAt(s[..k], sub, j) ==> OccursAt(s, sub, j)
  {
    assert s[..k][j..] == s[j..k];
    assert s[j..k] <= s[j..];
  }

  /** No occurrence of `sub` lies wholly inside `s[..k]` when none starts before `k`. */
  lemma NoneBefore(s: string, sub: string, k: nat)
    requires k <= |s|
    requires forall j :: 0 <= j < k ==> !OccursAt(s, sub, j)
    requires |sub| > 0
    ensures !Contains(s[..k], sub)
  {
    forall j | 0 <= j <= k
      ensures !OccursAt(s[..k], sub, j)
    {
      PrefixOccurrence(s, sub, j, k);
      if j < k {
        assert !OccursAt(s, sub, j);
      } else {
        assert s[..k][j..] == [];
      }
    }
  }

  /** `parts.join(sep)`. */
  function Join(parts: seq<string>, sep: string): string {
    if |parts| == 0 then ""
    else if |parts| == 1 then parts[0]
    else parts[0] + sep + Join(parts[1..], sep)
  }

  /** `s.split(sep)` for a non-empty separator: the pieces between the
      occurrences of `sep`, found left to right without overlap. Joining the
      pieces back with `sep` gives `s`, and no piece contains `sep`. */
  function Split(s: string, sep: string): (r: seq<string>)
    requires |sep| > 0
    ensures |r| >= 1
    ensures Join(r, sep) == s
    ensures forall i :: 0 <= i < |r| ==> !Contains(r[i], sep)
    decreases |s|
  {
    match Find(s, sep)
    case None => [s]
    case Some(k) =>
      NoneBefore(s, sep, k);
      var rest := Split(s[k + |sep|..], sep);
      assert s == s[..k] + sep + s[k + |sep|..];
      [s[..k]] + rest
  }

  /** `s.lastIndexOf(sub)` searched from position `j` down: the last position
      not after `j` where `sub` occurs. */
  function FindLastFrom(s: string, sub: string, j: nat): (r: Option<nat>)
    requires j <= |s|
    ensures r.Some? ==> r.value <= j && OccursAt(s, sub, r.value)
    ensures r.Some? ==> forall k :: r.value < k <= j ==> !OccursAt(s, sub, k)
    ensures r.None? ==> forall k :: 0 <= k <= j ==> !OccursAt(s, sub, k)
    decreases j
  {
    if OccursAt(s, sub, j) then Some(j)
    else if j == 0 then None
    else FindLastFrom(s, sub, j - 1)
  }

  /** The last position where `sub` occurs in `s`. */
  function FindLast(s: string, sub: string): (r: Option<nat>)
    ensures r.Some? ==> r.value + |sub| <= |s| && s[r.value..r.value + |sub|] == sub
    ensures r.Some? ==> OccursAt(s, sub, r.value)
    ensures r.Some? ==> forall k :: r.value < k <= |s| ==> !OccursAt(s, sub, k)
    ensures r.None? <==> !Contains(s, sub)
  {
    var r := FindLastFrom(s, sub, |s|);
    if r.None? then None
    else
      OccursSlice(s, sub, r.value);
      r
  }

  /** `s.replace(/pat/g, rep)` for a pattern without special characters,
      from position `i` on: occurrences are found left to right, without
      overlap, and each is replaced by `rep`. */
  function ReplaceAllFrom(s: string, pat: string, rep: string, i: nat): string
    requires |pat| > 0 && i <= |s|
    decreases |s| - i
  {
    if i == |s| then ""
    else if OccursAt(s, pat, i) then rep + ReplaceAllFrom(s, pat, rep, i + |pat|)
    else [s[i]] + ReplaceAllFrom(s, pat, rep, i + 1)
  }

  function ReplaceAll(s: string, pat: string, rep: string): string
    requires |pat| > 0
  {
    ReplaceAllFrom(s, pat, rep, 0)
  }

  /** Where no occurrence starts, characters are copied. */
  lemma {:induction false} ReplaceAllFromPlain(s: string, pat: string, rep: string, i: nat)
    requires |pat| > 0 && i <= |s|
    requires forall k :: i <= k <= |s| ==> !OccursAt(s, pat, k)
    ensures ReplaceAllFrom(s, pat, rep, i) == s[i..]
    decreases |s| - i
  {
    if i < |s| {
      ReplaceAllFromPlain(s, pat, rep, i + 1);
      assert s[i..] == [s[i]] + s[i + 1..];
    }
  }

  /** Without an occurrence of the pattern nothing is replaced. */
  lemma ReplaceAllPlain(s: string, pat: string, rep: string)
    requires |pat| > 0 && !Contains(s, pat)
    ensures ReplaceAll(s, pat, rep) == s
  {
    ReplaceAllFromPlain(s, pat, rep, 0);
  }

  /** Up to the first occurrence at `k`, characters are copied. */
  lemma {:induction false} ReplaceAllFromFirst(s: string, pat: string, rep: string, i: nat, k: nat)
    requires |pat| > 0 && i <= k && OccursAt(s, pat, k)
    requires forall j :: i <= j < k ==> !OccursAt(s, pat, j)
    ensures k + |pat| <= |s|
    ensures ReplaceAllFrom(s, pat, rep, i) == s[i..k] + rep + ReplaceAllFrom(s, pat, rep, k + |pat|)
    decreases k - i
  {
    OccursSlice(s, pat, k);
    if i == k {
      assert ReplaceAllFrom(s, pat, rep, i) == rep + ReplaceAllFrom(s, pat, rep, k + |pat|);
      assert s[i..k] == "";
    } else {
      assert !OccursAt(s, pat, i);
      var rest := ReplaceAllFrom(s, pat, rep, k + |pat|);
      ReplaceAllFromFirst(s, pat, rep, i + 1, k);
      assert s[i..k] == [s[i]] + s[i + 1..k];
      calc {
        ReplaceAllFrom(s, pat, rep, i);
        [s[i]] + ReplaceAllFrom(s, pat, rep, i + 1);
        [s[i]] + (s[i + 1..k] + rep + rest);
        ([s[i]] + s[i + 1..k]) + rep + rest;
      }
    }
  }

  /** Replacing in a suffix is replacing in the whole text from where the
      suffix starts. */
  lemma {:induction false} ReplaceAllFromSuffix(s: string, pat: string, rep: string, m: nat, i: nat)
    requires |pat| > 0 && m <= i <= |s|
    ensures ReplaceAllFrom(s, pat, rep, i) == ReplaceAllFrom(s[m..], pat, rep, i - m)
    decreases |s| - i
  {
    var t := s[m..];
    assert |t| == |s| - m;
    if i == |s| {
      assert ReplaceAllFrom(t, pat, rep, i - m) == "";
    } else {
      assert t[i - m..] == s[i..];
      assert OccursAt(s, pat, i) <==> OccursAt(t, pat, i - m);
      if OccursAt(s, pat, i) {
        OccursSlice(s, pat, i);
        ReplaceAllFromSuffix(s, pat, rep, m, i + |pat|);
        assert ReplaceAllFrom(s, pat, rep, i) == rep + ReplaceAllFrom(s, pat, rep, i + |pat|);
        assert ReplaceAllFrom(t, pat, rep, i - m) == rep + ReplaceAllFrom(t, pat, rep, i + |pat| - m);
      } else {
        assert t[i - m] == s[i];
        ReplaceAllFromSuffix(s, pat, rep, m, i + 1);
        assert ReplaceAllFrom(s, pat, rep, i) == [s[i]] + ReplaceAllFrom(s, pat, rep, i + 1);
        assert ReplaceAllFrom(t, pat, rep, i - m) == [s[i]] + ReplaceAllFrom(t, pat, rep, i + 1 - m);
      }
    }
  }

  /** Replacing every occurrence is splitting at the occurrences and joining
      the pieces back with the replacement. */
  lemma {:induction false} ReplaceAllIsSplitJoin(s: string, pat: string, rep: string)
    requires |pat| > 0
    ensures ReplaceAll(s, pat, rep) == Join(Split(s, pat), rep)
    decreases |s|
  {
    match Find(s, pat)
    case None =>
      ReplaceAllPlain(s, pat, rep);
    case Some(k) =>
      var m := k + |pat|;
      var rest := s[m..];
      ReplaceAllFromFirst(s, pat, rep, 0, k);
      ReplaceAllFromSuffix(s, pat, rep, m, m);
      ReplaceAllIsSplitJoin(rest, pat, rep);
      var parts := Split(rest, pat);
      assert Split(s, pat) == [s[..k]] + parts;
      assert ([s[..k]] + parts)[1..] == parts;
      assert s[0..k] == s[..k];
  }

  /** A character absent from the text and from the replacement is absent
      from the result. */
  lemma {:induction false} ReplaceAllKeepsAbsent(s: string, pat: string, rep: string, c: char, i: nat)
    requires |pat| > 0 && i <= |s| && c !in s && c !in rep
    ensures c !in ReplaceAllFrom(s, pat, rep, i)
    decreases |s| - i
  {
    if i < |s| {
      if OccursAt(s, pat, i) {
        OccursSlice(s, pat, i);
        ReplaceAllKeepsAbsent(s, pat, rep, c, i + |pat|);
      } else {
        ReplaceAllKeepsAbsent(s, pat, rep, c, i + 1);
      }
    }
  }

  /** Replacing a one-character pattern by text without that character
      leaves no occurrence of it. */
  lemma {:induction false} ReplaceAllRemoves(s: string, pat: string, rep: string, i: nat)
    requires |pat| == 1 && pat[0] !in rep && i <= |s|
    ensures pat[0] !in ReplaceAllFrom(s, pat, rep, i)
    decreases |s| - i
  {
    if i < |s| {
      assert s[i..][0] == s[i];
      if OccursAt(s, pat, i) {
        ReplaceAllRemoves(s, pat, rep, i + 1);
      } else {
        assert s[i..i + 1] == [s[i]];
        ReplaceAllRemoves(s, pat, rep, i + 1);
      }
    }
  }

  /** A character of a piece is a character of the joined text. */
  lemma {:induction false} JoinHasParts(parts: seq<string>, sep: string, i: nat, c: char)
    requires i < |parts| && c in parts[i]
    ensures c in Join(parts, sep)
    decreases |parts|
  {
    if i > 0 {
      JoinHasParts(parts[1..], sep, i - 1, c);
    }
  }

  /** A character in no piece and not in the separator is not in the join. */
  lemma {:induction false} JoinKeepsAbsent(parts: seq<string>, sep: string, c: char)
    requires forall i :: 0 <= i < |parts| ==> c !in parts[i]
    requires c !in sep
    ensures c !in Join(parts, sep)
    decreases |parts|
  {
    if |parts| > 1 {
      JoinKeepsAbsent(parts[1..], sep, c);
    }
  }

  /** Trimming keeps no character the text did not have. */
  lemma TrimKeepsAbsent(s: string, c: char)
    requires c !in s
    ensures c !in Trim(s)
  {
    var k := TrimIsSlice(s);
    assert forall i :: 0 <= i < |Trim(s)| ==> Trim(s)[i] == s[k + i];
  }

  /** An occurrence of a non-empty pattern puts its first character in the text. */
  lemma ContainsHasFirst(s: string, sub: string)
    requires |sub| > 0 && Contains(s, sub)
    ensures sub[0] in s
  {
    var j :| 0 <= j <= |s| && OccursAt(s, sub, j);
    assert s[j..][0] == sub[0];
  }

  /** The characters of a slice, or of a later suffix, of the text from `i`
      on all occur in the text from `i` on. */
  lemma SliceChars(s: string, i: nat, a: nat, b: nat)
    requires i <= a <= b <= |s|
    ensures forall c :: c in s[a..b] ==> c in s[i..]
    ensures forall c :: c in s[a..] ==> c in s[i..]
    ensures a < |s| ==> s[a] in s[i..]
  {
    forall c | c in s[a..b] ensures c in s[i..] {
      var k :| 0 <= k < b - a && s[a..b][k] == c;
      assert s[i..][a + k - i] == c;
    }
    forall c | c in s[a..] ensures c in s[i..] {
      var k :| 0 <= k < |s| - a && s[a..][k] == c;
      assert s[i..][a + k - i] == c;
    }
    if a < |s| {
      assert s[i..][a - i] == s[a];
    }
  }

  /** A character absent from a suffix is absent from every slice of it. */
  lemma SliceKeepsAbsent(s: string, i: nat, a: nat, b: nat, c: char)
    requires i <= a <= b <= |s| && c !in s[i..]
    ensures c !in s[a..b]
  {
    assert forall k :: a <= k < b ==> s[k] == s[i..][k - i];
  }

  /** A pattern whose first two characters never stand side by side in the
      text does not occur in it. */
  lemma NoOccurrenceByPair(s: string, sub: string)
    requires |sub| >= 2
    requires forall k :: 0 <= k && k + 1 < |s| && s[k] == sub[0] ==> s[k + 1] != sub[1]
    ensures !Contains(s, sub)
  {
    forall j | 0 <= j <= |s|
      ensures !OccursAt(s, sub, j)
    {
      if j + 1 < |s| {
        assert s[j..][0] == s[j] && s[j..][1] == s[j + 1];
      }
    }
  }

  /** An occurrence with none before it is the one `Find` reports. */
  lemma FindAt(s: string, sub: string, k: nat)
    requires k + |sub| <= |s| && s[k..k + |sub|] == sub
    requires forall j :: 0 <= j < k ==> !OccursAt(s, sub, j)
    ensures Find(s, sub) == Some(k)
  {
    assert s[k..][..|sub|] == s[k..k + |sub|];
    assert OccursAt(s, sub, k);
  }

  /** An occurrence with none after it is the one `FindLast` reports. */
  lemma FindLastAt(s: string, sub: string, k: nat)
    requires k + |sub| <= |s| && s[k..k + |sub|] == sub
    requires forall j :: k < j <= |s| ==> !OccursAt(s, sub, j)
    ensures FindLast(s, sub) == Some(k)
  {
    assert s[k..][..|sub|] == s[k..k + |sub|];
    assert OccursAt(s, sub, k);
  }
}

=== FILE: text_formatter.dfy ===
/** The plain-text side of `TextFormatter` (utils/textFormatter.js): the
    clean-up applied to every generated text (`paraTextoLimpo`), the
    plausibility test for a generated clinical case (`validarCasoClinico`),
    and the line-driven section splitter (`extrairSecoesCasoClinico`).
    Each regular-expression replacement is written out as a left-to-right
    scan with the match rules of JavaScript's engine.
 */
module TextFormatter {

  import opened Common
  import opened Strings

  // ---------------------------------------------------------------------
  // Helpers shared by the scans
  // ---------------------------------------------------------------------

  /** The characters of `s` from `a` up to `b` that are not in `dropped`,
      in order. */
  function WithoutRange(s: string, a: nat, b: nat, dropped: set<char>): string
    requires a <= b <= |s|
    decreases b - a
  {
    if a == b then "" else (if s[a] in dropped then "" else [s[a]]) + WithoutRange(s, a + 1, b, dropped)
  }

  /** The characters of `s` that are not in `dropped`, in order. */
  function Without(s: string, dropped: set<char>): string {
    WithoutRange(s, 0, |s|, dropped)
  }

  /** Filtering a range is filtering its two halves. */
  lemma {:induction false} WithoutSplit(s: string, a: nat, b: nat, c: nat, dropped: set<char>)
    requires a <= b <= c <= |s|
    ensures WithoutRange(s, a, c, dropped) == WithoutRange(s, a, b, dropped) + WithoutRange(s, b, c, dropped)
    decreases b - a
  {
    if a < b {
      WithoutSplit(s, a + 1, b, c, dropped);
    }
  }

  /** Ranges holding the same characters filter to the same text. */
  lemma {:induction false} WithoutSame(s: string, a: nat, t: string, b: nat, n: nat, dropped: set<char>)
    requires a + n <= |s| && b + n <= |t|
    requires forall k :: a <= k < a + n ==> s[k] == t[b + (k - a)]
    ensures WithoutRange(s, a, a + n, dropped) == WithoutRange(t, b, b + n, dropped)
    decreases n
  {
    if n > 0 {
      assert s[a] == t[b + (a - a)];
      WithoutSame(s, a + 1, t, b + 1, n - 1, dropped);
    }
  }

  /** Filtering a slice is filtering the range it covers. */
  lemma WithoutSlice(s: string, a: nat, b: nat, dropped: set<char>)
    requires a <= b <= |s|
    ensures Without(s[a..b], dropped) == WithoutRange(s, a, b, dropped)
  {
    WithoutSame(s[a..b], 0, s, a, b - a, dropped);
  }

  /** Filtering commutes with concatenation. */
  lemma WithoutAppend(x: string, y: string, dropped: set<char>)
    ensures Without(x + y, dropped) == Without(x, dropped) + Without(y, dropped)
  {
    WithoutSplit(x + y, 0, |x|, |x + y|, dropped);
    WithoutSame(x + y, 0, x, 0, |x|, dropped);
    WithoutSame(x + y, |x|, y, 0, |y|, dropped);
  }

  /** A range made only of dropped characters filters to nothing. */
  lemma {:induction false} WithoutAllDropped(s: string, a: nat, b: nat, dropped: set<char>)
    requires a <= b <= |s|
    requires forall k :: a <= k < b ==> s[k] in dropped
    ensures WithoutRange(s, a, b, dropped) == ""
    decreases b - a
  {
    if a < b {
      WithoutAllDropped(s, a + 1, b, dropped);
    }
  }

  /** Deleting characters that are all dropped changes nothing once the
      dropped characters are filtered out. */
  lemma WithoutSkipsDropped(s: string, i: nat, n: nat, dropped: set<char>)
    requires i + n <= |s|
    requires forall k :: i <= k < i + n ==> s[k] in dropped
    ensures WithoutRange(s, i, |s|, dropped) == WithoutRange(s, i + n, |s|, dropped)
  {
    WithoutSplit(s, i, i + n, |s|, dropped);
    WithoutAllDropped(s, i, i + n, dropped);
  }

  /** Keeping the character at `i`. */
  lemma WithoutKeepsFirst(s: string, i: nat, r: string, dropped: set<char>)
    requires i < |s|
    requires Without(r, dropped) == WithoutRange(s, i + 1, |s|, dropped)
    ensures Without([s[i]] + r, dropped) == WithoutRange(s, i, |s|, dropped)
  {
    var t := [s[i]] + r;
    WithoutSame(t, 1, r, 0, |r|, dropped);
  }

  /** Position `i` is where a line begins, as `^` sees it in multiline mode. */
  predicate AtLineStart(s: string, i: nat)
    requires i <= |s|
  {
    i == 0 || IsLineTerminator(s[i - 1])
  }

  /** The length of the run of characters from `chars` that starts at `i`. */
  function Run(s: string, i: nat, chars: set<char>): (n: nat)
    requires i <= |s|
    ensures i + n <= |s|
    ensures forall k :: i <= k < i + n ==> s[k] in chars
    ensures i + n == |s| || s[i + n] !in chars
    decreases |s| - i
  {
    if i < |s| && s[i] in chars then 1 + Run(s, i + 1, chars) else 0
  }

  // ---------------------------------------------------------------------
  // paraTextoLimpo, step 1: /^#{1,6}\s+/gm -> ''
  // ---------------------------------------------------------------------

  const HeadingChars: set<char> := {'#'} + Whitespace

  /** The length of a heading marker (one to six '#', then white space) at
      `i`, or 0 when there is none. More than six '#' never match: the
      engine backs off to fewer '#' and then finds a '#' where it needs
      white space. */
  function HeadingMarker(s: string, i: nat): (n: nat)
    requires i <= |s|
    ensures i + n <= |s|
    ensures forall k :: i <= k < i + n ==> s[k] in HeadingChars
    ensures n > 0 ==> s[i] == '#'
  {
    var h := Run(s, i, {'#'});
    if 1 <= h <= 6 && i + h < |s| && IsWhitespace(s[i + h]) then
      h + Run(s, i + h, Whitespace)
    else
      0
  }

  function StripHeadingsFrom(s: string, i: nat): string
    requires i <= |s|
    decreases |s| - i
  {
    if i == |s| then
      ""
    else if AtLineStart(s, i) && HeadingMarker(s, i) > 0 then
      StripHeadingsFrom(s, i + HeadingMarker(s, i))
    else
      [s[i]] + StripHeadingsFrom(s, i + 1)
  }

  /** Step 1: heading markers at line starts are deleted. */
  function StripHeadings(s: string): string {
    StripHeadingsFrom(s, 0)
  }

  /** Step 1 deletes only '#' and white space: every other character
      survives, in order. */
  lemma {:induction false} StripHeadingsDeletesOnlyMarkers(s: string, i: nat)
    requires i <= |s|
    ensures Without(StripHeadingsFrom(s, i), HeadingChars) == WithoutRange(s, i, |s|, HeadingChars)
    decreases |s| - i
  {
    if i == |s| {
    } else if AtLineStart(s, i) && HeadingMarker(s, i) > 0 {
      var n := HeadingMarker(s, i);
      StripHeadingsDeletesOnlyMarkers(s, i + n);
      WithoutSkipsDropped(s, i, n, HeadingChars);
    } else {
      StripHeadingsDeletesOnlyMarkers(s, i + 1);
      WithoutKeepsFirst(s, i, StripHeadingsFrom(s, i + 1), HeadingChars);
    }
  }

  /** Step 1 leaves text without '#' unchanged. */
  lemma {:induction false} StripHeadingsPlain(s: string, i: nat)
    requires i <= |s|
    requires forall k :: i <= k < |s| ==> s[k] != '#'
    ensures StripHeadingsFrom(s, i) == s[i..]
    decreases |s| - i
  {
    if i < |s| {
      StripHeadingsPlain(s, i + 1);
      assert s[i..] == [s[i]] + s[i + 1..];
    }
  }

  // ---------------------------------------------------------------------
  // paraTextoLimpo, steps 2 and 3: /\*\*(.*?)\*\*/g and /\*(.*?)\*/g -> '$1'
  // ---------------------------------------------------------------------

  /** Where the lazy `(.*?)` that starts at `j` finds delimiter `d`: the
      first occurrence of `d` reached without crossing a line terminator. */
  function Closing(s: string, j: nat, d: string): (r: Option<nat>)
    requires j <= |s|
    ensures r.Some? ==> j <= r.value && r.value + |d| <= |s| && s[r.value..r.value + |d|] == d
    decreases |s| - j
  {
    if j + |d| <= |s| && s[j..j + |d|] == d then Some(j)
    else if j < |s| && !IsLineTerminator(s[j]) then Closing(s, j + 1, d)
    else None
  }

  /** A delimited span starts at `i`: `d`, then a closing `d` on the same line. */
  predicate SpanAt(s: string, i: nat, d: string)
    requires i <= |s|
  {
    i + |d| <= |s| && s[i..i + |d|] == d && Closing(s, i + |d|, d).Some?
  }

  /** Where the span that starts at `i` closes. */
  function SpanEnd(s: string, i: nat, d: string): (j: nat)
    requires i <= |s| && SpanAt(s, i, d)
    ensures i + |d| <= j && j + |d| <= |s|
  {
    Closing(s, i + |d|, d).value
  }

  predicate IsEmphasis(d: string) {
    d == "**" || d == "*"
  }

  /** The global replacement of `d(.*?)d` by `open$1close` from position
      `i` on: at each position where `d` starts and the lazy group finds a
      closing `d` on the same line, the span is kept between the two tags
      and the scan resumes after the closing delimiter; elsewhere the
      character is copied. No character appears that is not in the text
      or in one of the two tags. */
  function DelimitedFrom(s: string, i: nat, d: string, open: string, close: string): (r: string)
    requires i <= |s|
    requires |d| > 0
    ensures forall c :: c in r ==> c in s[i..] || c in open || c in close
    decreases |s| - i
  {
    if i == |s| then
      ""
    else if SpanAt(s, i, d) then
      SliceChars(s, i, i + |d|, SpanEnd(s, i, d));
      SliceChars(s, i, SpanEnd(s, i, d) + |d|, |s|);
      open + s[i + |d|..SpanEnd(s, i, d)] + close + DelimitedFrom(s, SpanEnd(s, i, d) + |d|, d, open, close)
    else
      SliceChars(s, i, i + 1, |s|);
      SliceChars(s, i, i, |s|);
      [s[i]] + DelimitedFrom(s, i + 1, d, open, close)
  }

  function UnwrapFrom(s: string, i: nat, d: string): string
    requires i <= |s|
    requires |d| > 0
  {
    DelimitedFrom(s, i, d, "", "")
  }

  /** Steps 2 and 3: emphasis delimiters around a single-line span are
      deleted and the span kept. */
  function Unwrap(s: string, d: string): string
    requires IsEmphasis(d)
  {
    UnwrapFrom(s, 0, d)
  }

  /** A non-empty run of '*': both emphasis delimiters are. */
  predicate StarRun(d: string) {
    |d| > 0 && forall k :: 0 <= k < |d| ==> d[k] == '*'
  }

  lemma StarsDropped(s: string, i: nat, d: string)
    requires StarRun(d) && i + |d| <= |s| && s[i..i + |d|] == d
    ensures forall k :: i <= k < i + |d| ==> s[k] in {'*'}
  {
    assert forall k :: i <= k < i + |d| ==> s[k] == s[i..i + |d|][k - i];
  }

  /** A delimiter at `i` vanishes once '*' is filtered out. */
  lemma DelimiterDropped(s: string, i: nat, d: string)
    requires StarRun(d) && i + |d| <= |s| && s[i..i + |d|] == d
    ensures WithoutRange(s, i, |s|, {'*'}) == WithoutRange(s, i + |d|, |s|, {'*'})
  {
    StarsDropped(s, i, d);
    WithoutSkipsDropped(s, i, |d|, {'*'});
  }

  /** Dropping a delimited span's delimiters deletes only '*'. */
  lemma UnwrapSpan(s: string, i: nat, j: nat, d: string, rest: string)
    requires StarRun(d) && i + |d| <= j && j + |d| <= |s|
    requires s[i..i + |d|] == d && s[j..j + |d|] == d
    requires Without(rest, {'*'}) == WithoutRange(s, j + |d|, |s|, {'*'})
    ensures Without(s[i + |d|..j] + rest, {'*'}) == WithoutRange(s, i, |s|, {'*'})
  {
    DelimiterDropped(s, i, d);
    DelimiterDropped(s, j, d);
    WithoutSplit(s, i + |d|, j, |s|, {'*'});
    WithoutSlice(s, i + |d|, j, {'*'});
    WithoutAppend(s[i + |d|..j], rest, {'*'});
  }

  /** One step of the scan where a delimited span starts at `i`. */
  lemma UnwrapFromSpan(s: string, i: nat, d: string)
    requires i < |s| && StarRun(d)
    requires SpanAt(s, i, d)
    ensures UnwrapFrom(s, i, d) == s[i + |d|..SpanEnd(s, i, d)] + UnwrapFrom(s, SpanEnd(s, i, d) + |d|, d)
  {
    var j := SpanEnd(s, i, d);
    assert "" + s[i + |d|..j] + "" == s[i + |d|..j];
  }

  /** One step of the scan where no delimited span starts at `i`. */
  lemma UnwrapFromChar(s: string, i: nat, d: string)
    requires i < |s| && StarRun(d)
    requires !(SpanAt(s, i, d))
    ensures UnwrapFrom(s, i, d) == [s[i]] + UnwrapFrom(s, i + 1, d)
  {
  }

  /** Steps 2 and 3 delete only '*': every other character survives, in order. */
  lemma {:induction false} UnwrapDeletesOnlyStars(s: string, i: nat, d: string)
    requires i <= |s| && StarRun(d)
    ensures Without(UnwrapFrom(s, i, d), {'*'}) == WithoutRange(s, i, |s|, {'*'})
    decreases |s| - i, 1
  {
    if i == |s| {
    } else if SpanAt(s, i, d) {
      UnwrapSpanStep(s, i, d);
    } else {
      var rest := UnwrapFrom(s, i + 1, d);
      UnwrapFromChar(s, i, d);
      UnwrapDeletesOnlyStars(s, i + 1, d);
      WithoutKeepsFirst(s, i, rest, {'*'});
    }
  }

  /** The case of `UnwrapDeletesOnlyStars` where a delimited span starts at `i`. */
  lemma {:induction false} UnwrapSpanStep(s: string, i: nat, d: string)
    requires i < |s| && StarRun(d)
    requires SpanAt(s, i, d)
    ensures Without(UnwrapFrom(s, i, d), {'*'}) == WithoutRange(s, i, |s|, {'*'})
    decreases |s| - i, 0
  {
    var j := SpanEnd(s, i, d);
    var rest := UnwrapFrom(s, j + |d|, d);
    UnwrapFromSpan(s, i, d);
    UnwrapDeletesOnlyStars(s, j + |d|, d);
    UnwrapSpan(s, i, j, d, rest);
  }

  /** Without the delimiter's first character nothing is rewritten. */
  lemma {:induction false} DelimitedPlain(s: string, i: nat, d: string, open: string, close: string)
    requires i <= |s| && |d| > 0
    requires forall k :: i <= k < |s| ==> s[k] != d[0]
    ensures DelimitedFrom(s, i, d, open, close) == s[i..]
    decreases |s| - i
  {
    if i < |s| {
      if i + |d| <= |s| {
        assert s[i..i + |d|][0] == s[i];
      }
      DelimitedPlain(s, i + 1, d, open, close);
      assert s[i..] == [s[i]] + s[i + 1..];
    }
  }

  /** Steps 2 and 3 leave text without '*' unchanged. */
  lemma UnwrapPlain(s: string, i: nat, d: string)
    requires i <= |s| && IsEmphasis(d)
    requires forall k :: i <= k < |s| ==> s[k] != '*'
    ensures UnwrapFrom(s, i, d) == s[i..]
  {
    DelimitedPlain(s, i, d, "", "");
  }

  // ---------------------------------------------------------------------
  // paraTextoLimpo, step 4: /\\n/g -> '\n'
  // ---------------------------------------------------------------------

  /** No backslash is directly followed by the letter 'n'. */
  predicate NoEscapedNewline(s: string) {
    forall i, j :: 0 <= i < |s| && j == i + 1 < |s| ==> !(s[i] == '\\' && s[j] == 'n')
  }

  /** Step 4: every backslash-n pair becomes a real line break. */
  function UnescapeNewlines(s: string): (r: string)
    ensures |s| > 0 ==> |r| > 0 && r[0] == (if |s| >= 2 && s[0] == '\\' && s[1] == 'n' then '\n' else s[0])
    decreases |s|
  {
    if |s| >= 2 && s[0] == '\\' && s[1] == 'n' then
      "\n" + UnescapeNewlines(s[2..])
    else if |s| == 0 then
      ""
    else
      [s[0]] + UnescapeNewlines(s[1..])
  }

  /** After step 4 no backslash-n pair is left: a backslash before an
      escape keeps its place, but what follows it is now a line feed. */
  lemma {:induction false} UnescapeLeavesNoPair(s: string)
    ensures NoEscapedNewline(UnescapeNewlines(s))
    decreases |s|
  {
    if |s| >= 2 && s[0] == '\\' && s[1] == 'n' {
      UnescapeLeavesNoPair(s[2..]);
    } else if |s| > 0 {
      UnescapeLeavesNoPair(s[1..]);
    }
  }

  /** Every escaped line break becomes a real one, wherever it stands: no
      match of /\\n/ straddles the escape, so the text on either side is
      rewritten on its own. */
  lemma {:induction false} UnescapeAround(a: string, b: string)
    ensures UnescapeNewlines(a + "\\n" + b) == UnescapeNewlines(a) + "\n" + UnescapeNewlines(b)
    decreases |a|
  {
    var w := a + "\\n" + b;
    if a == [] {
      assert w == "\\n" + b;
      assert w[2..] == b;
    } else if |a| >= 2 && a[0] == '\\' && a[1] == 'n' {
      assert w[2..] == a[2..] + "\\n" + b;
      UnescapeAround(a[2..], b);
    } else {
      assert w[0] == a[0];
      assert |a| == 1 ==> w[1] == '\\';
      assert w[1..] == a[1..] + "\\n" + b;
      UnescapeAround(a[1..], b);
    }
  }

  /** Step 4 leaves text without a backslash unchanged. */
  lemma {:induction false} UnescapePlain(s: string)
    requires '\\' !in s
    ensures UnescapeNewlines(s) == s
    decreases |s|
  {
    if |s| > 0 {
      UnescapePlain(s[1..]);
    }
  }

  // ---------------------------------------------------------------------
  // paraTextoLimpo, step 5: /\n\n+/g -> '\n\n'
  // ---------------------------------------------------------------------

  /** No three line feeds in a row. */
  predicate NoTripleNewline(s: string) {
    forall i, j, k :: 0 <= i < |s| && j == i + 1 && k == i + 2 < |s| ==>
      !(s[i] == '\n' && s[j] == '\n' && s[k] == '\n')
  }

  /** Two line feeds in a row somewhere. */
  predicate HasDoubleNewline(s: string) {
    exists i, j :: 0 <= i < |s| && j == i + 1 < |s| && s[i] == '\n' && s[j] == '\n'
  }

  /** Step 5: every run of two or more line feeds becomes exactly two. */
  function CollapseNewlines(s: string): (r: string)
    ensures |s| > 0 ==> |r| > 0 && r[0] == s[0]
    decreases |s|
  {
    if |s| >= 2 && s[0] == '\n' && s[1] == '\n' then
      "\n\n" + CollapseNewlines(s[Run(s, 0, {'\n'})..])
    else if |s| == 0 then
      ""
    else
      [s[0]] + CollapseNewlines(s[1..])
  }

  /** After step 5 no three line feeds follow each other. */
  lemma {:induction false} CollapseLeavesNoTriple(s: string)
    ensures NoTripleNewline(CollapseNewlines(s))
    decreases |s|
  {
    if |s| >= 2 && s[0] == '\n' && s[1] == '\n' {
      CollapseLeavesNoTriple(s[Run(s, 0, {'\n'})..]);
    } else if |s| > 0 {
      CollapseLeavesNoTriple(s[1..]);
    }
  }

  /** Step 5 deletes only line feeds. */
  lemma {:induction false} CollapseDeletesOnlyNewlines(s: string)
    ensures Without(CollapseNewlines(s), {'\n'}) == Without(s, {'\n'})
    decreases |s|
  {
    if |s| >= 2 && s[0] == '\n' && s[1] == '\n' {
      var n := Run(s, 0, {'\n'});
      CollapseDeletesOnlyNewlines(s[n..]);
      WithoutSlice(s, n, |s|, {'\n'});
      assert s[n..|s|] == s[n..];
      WithoutSkipsDropped(s, 0, n, {'\n'});
      WithoutAppend("\n\n", CollapseNewlines(s[n..]), {'\n'});
      assert Without("\n\n", {'\n'}) == "";
    } else if |s| > 0 {
      CollapseDeletesOnlyNewlines(s[1..]);
      WithoutSlice(s, 1, |s|, {'\n'});
      assert s[1..|s|] == s[1..];
      WithoutKeepsFirst(s, 0, CollapseNewlines(s[1..]), {'\n'});
    }
  }

  /** Step 5 never joins a backslash to a following 'n': the characters
      around a run of line feeds stay separated by at least one. */
  lemma {:induction false} CollapseKeepsNoPair(s: string)
    requires NoEscapedNewline(s)
    ensures NoEscapedNewline(CollapseNewlines(s))
    decreases |s|
  {
    if |s| >= 2 && s[0] == '\n' && s[1] == '\n' {
      var n := Run(s, 0, {'\n'});
      assert NoEscapedNewline(s[n..]) by {
        assert forall i :: 0 <= i < |s[n..]| ==> s[n..][i] == s[n + i];
      }
      CollapseKeepsNoPair(s[n..]);
    } else if |s| > 0 {
      assert NoEscapedNewline(s[1..]) by {
        assert forall i :: 0 <= i < |s[1..]| ==> s[1..][i] == s[1 + i];
      }
      CollapseKeepsNoPair(s[1..]);
    }
  }

  /** Step 5 leaves text without a double line feed unchanged. */
  lemma {:induction false} CollapsePlain(s: string)
    requires !HasDoubleNewline(s)
    ensures CollapseNewlines(s) == s
    decreases |s|
  {
    if |s| > 0 {
      assert forall i :: 0 <= i < |s[1..]| ==> s[1..][i] == s[i + 1];
      CollapsePlain(s[1..]);
    }
  }

  // ---------------------------------------------------------------------
  // paraTextoLimpo
  // ---------------------------------------------------------------------

  /** A piece of a text cannot hold three line feeds in a row or a
      backslash-n pair that the text does not hold. */
  lemma SliceKeepsCleanliness(s: string, k: nat, r: string)
    requires k + |r| <= |s| && r == s[k..k + |r|]
    requires NoTripleNewline(s) && NoEscapedNewline(s)
    ensures NoTripleNewline(r) && NoEscapedNewline(r)
  {
    forall i, j, l | 0 <= i < |r| && j == i + 1 && l == i + 2 < |r|
      ensures !(r[i] == '\n' && r[j] == '\n' && r[l] == '\n')
    {
      assert r[i] == s[k + i] && r[j] == s[k + j] && r[l] == s[k + l];
    }
    forall i, j | 0 <= i < |r| && j == i + 1 < |r|
      ensures !(r[i] == '\\' && r[j] == 'n')
    {
      assert r[i] == s[k + i] && r[j] == s[k + j];
    }
  }

  /** Trimming cannot create three line feeds or a backslash-n pair: the
      trimmed text is a piece of the original. */
  lemma TrimKeepsCleanliness(s: string)
    requires NoTripleNewline(s) && NoEscapedNewline(s)
    ensures NoTripleNewline(Trim(s)) && NoEscapedNewline(Trim(s))
  {
    var k := TrimIsSlice(s);
    SliceKeepsCleanliness(s, k, Trim(s));
  }

  /** The five replacements of `paraTextoLimpo`, before the final trim. */
  function CleanSteps(t: string): string {
    CollapseNewlines(UnescapeNewlines(Unwrap(Unwrap(StripHeadings(t), "**"), "*")))
  }

  /** The clean-up applied to generated text: headings, bold and italic
      markers removed, escaped line breaks made real, blank-line runs
      shortened to one blank line, then trimmed. A missing or empty text
      gives ''. The result has no edge white space, no three line feeds in a
      row and no backslash-n pair left. */
  function ParaTextoLimpo(texto: Option<string>): (r: string)
    ensures !Truthy(texto) ==> r == ""
    ensures IsTrimmed(r)
    ensures NoTripleNewline(r)
    ensures NoEscapedNewline(r)
  {
    if !Truthy(texto) then
      ""
    else
      var unescaped := UnescapeNewlines(Unwrap(Unwrap(StripHeadings(texto.value), "**"), "*"));
      UnescapeLeavesNoPair(Unwrap(Unwrap(StripHeadings(texto.value), "**"), "*"));
      CollapseLeavesNoTriple(unescaped);
      CollapseKeepsNoPair(unescaped);
      TrimKeepsCleanliness(CollapseNewlines(unescaped));
      Trim(CleanSteps(texto.value))
  }

  /** Text with no markup ('#', '*', backslash), no blank line and no edge
      white space comes back unchanged. */
  lemma PlainTextUnchanged(t: string)
    requires t != "" && IsTrimmed(t)
    requires '#' !in t && '*' !in t && '\\' !in t
    requires !HasDoubleNewline(t)
    ensures ParaTextoLimpo(Some(t)) == t
  {
    StripHeadingsPlain(t, 0);
    UnwrapPlain(t, 0, "**");
    UnwrapPlain(t, 0, "*");
    UnescapePlain(t);
    CollapsePlain(t);
  }

  /** Characters that no step of the clean-up touches. */
  predicate Inert(c: char) {
    c != '#' && c != '*' && c != '\\' && c != '\n' && !IsWhitespace(c)
  }

  lemma EscapedNewlineSteps(a: char, b: char)
    requires Inert(a) && Inert(b)
    ensures CleanSteps([a, '\\', 'n', b]) == [a, '\n', b]
  {
    var t := [a, '\\', 'n', b];
    var u := [a, '\n', b];
    StripHeadingsPlain(t, 0);
    UnwrapPlain(t, 0, "**");
    UnwrapPlain(t, 0, "*");
    assert t[0..] == t;
    assert UnescapeNewlines(t) == u by {
      assert t[1..][2..] == [b];
      assert UnescapeNewlines([b]) == [b] by {
        assert [b][1..] == [];
      }
    }
    assert !HasDoubleNewline(u);
    CollapsePlain(u);
  }

  /** An escaped line break between two ordinary characters becomes a real
      line break; nothing else changes. */
  lemma EscapedNewlineExample(a: char, b: char)
    requires Inert(a) && Inert(b)
    ensures ParaTextoLimpo(Some([a, '\\', 'n', b])) == [a, '\n', b]
  {
    EscapedNewlineSteps(a, b);
  }

  // ---------------------------------------------------------------------
  // validarCasoClinico
  // ---------------------------------------------------------------------

  /** The words whose presence makes a text look like a clinical case. */
  const Indicadores: seq<string> :=
    ["paciente", "idade", "anos", "sintomas", "queixa", "história", "exame", "diagnóstico", "tratamento"]

  /** The indicators of `words` found in `lower`, in list order. */
  function Encontrados(words: seq<string>, lower: string): (r: seq<string>)
    ensures |r| <= |words|
    ensures forall w :: w in r <==> w in words && Contains(lower, w)
    ensures (forall i, j :: 0 <= i < j < |words| ==> words[i] != words[j]) ==>
              (forall i, j :: 0 <= i < j < |r| ==> r[i] != r[j])
  {
    if |words| == 0 then []
    else (if Contains(lower, words[0]) then [words[0]] else []) + Encontrados(words[1..], lower)
  }

  /** The set of indicators that occur in `texto`, ignoring case. */
  ghost function IndicadoresPresentes(texto: string): set<string> {
    set w | w in Indicadores && Contains(ToLower(texto), w)
  }

  lemma {:induction false} DistinctCardinality(s: seq<string>)
    requires forall i, j :: 0 <= i < j < |s| ==> s[i] != s[j]
    ensures |set w | w in s| == |s|
    decreases |s|
  {
    if |s| > 0 {
      DistinctCardinality(s[1..]);
      assert (set w | w in s) == {s[0]} + (set w | w in s[1..]);
      assert s[0] !in (set w | w in s[1..]);
    }
  }

  /** `validarCasoClinico`: false for a missing, empty or shorter than 50
      characters text; otherwise true exactly when at least three distinct
      indicator words occur in the lower-cased text. */
  function ValidarCasoClinico(texto: Option<string>): (r: bool)
    ensures !Truthy(texto) ==> !r
    ensures Truthy(texto) && |texto.value| < 50 ==> !r
    ensures Truthy(texto) && |texto.value| >= 50 ==> (r <==> |IndicadoresPresentes(texto.value)| >= 3)
  {
    if !Truthy(texto) || |texto.value| < 50 then
      false
    else
      var found := Encontrados(Indicadores, ToLower(texto.value));
      DistinctCardinality(found);
      assert (set w | w in found) == IndicadoresPresentes(texto.value);
      |found| >= 3
  }

  /** An indicator found in a text is still found once text is appended. */
  lemma PresentesGrow(t: string, u: string)
    ensures IndicadoresPresentes(t) <= IndicadoresPresentes(t + u)
  {
    ToLowerAppend(t, u);
    assert "" + ToLower(t) + ToLower(u) == ToLower(t + u);
    forall w | w in Indicadores && Contains(ToLower(t), w)
      ensures Contains(ToLower(t + u), w)
    {
      ContainsExtend(ToLower(t), w, "", ToLower(u));
    }
  }

  lemma {:induction false} SubsetCardinality(a: set<string>, b: set<string>)
    requires a <= b
    ensures |a| <= |b|
    decreases |a|
  {
    if a != {} {
      var x :| x in a;
      SubsetCardinality(a - {x}, b - {x});
    }
  }

  /** Appending text to a plausible case keeps it plausible. */
  lemma ValidarCasoClinicoExtends(t: string, u: string)
    requires ValidarCasoClinico(Some(t))
    ensures ValidarCasoClinico(Some(t + u))
  {
    PresentesGrow(t, u);
    SubsetCardinality(IndicadoresPresentes(t), IndicadoresPresentes(t + u));
  }

  // ---------------------------------------------------------------------
  // extrairSecoesCasoClinico
  // ---------------------------------------------------------------------

  /** The sections a clinical case is split into, in the fixed priority
      order the keyword tests run in. */
  datatype Secao = DadosPaciente | HistoriaClinica | Sintomas | ExamesFisicos | Questao {
    function Rank(): nat {
      match this
      case DadosPaciente => 0
      case HistoriaClinica => 1
      case Sintomas => 2
      case ExamesFisicos => 3
      case Questao => 4
    }
  }

  /** The two keywords whose presence in a lower-cased line selects `k`. */
  predicate Mentions(lower: string, k: Secao) {
    match k
    case DadosPaciente => Contains(lower, "dados do paciente") || Contains(lower, "identificação")
    case HistoriaClinica => Contains(lower, "história clínica") || Contains(lower, "histórico")
    case Sintomas => Contains(lower, "sintomas") || Contains(lower, "queixa")
    case ExamesFisicos => Contains(lower, "exame físico") || Contains(lower, "exames")
    case Questao => Contains(lower, "questão") || Contains(lower, "pergunta")
  }

  /** The section a heading line switches to, or `None` for an ordinary line. */
  function Classify(linha: string): Option<Secao> {
    var lower := ToLower(Trim(linha));
    if Mentions(lower, DadosPaciente) then Some(DadosPaciente)
    else if Mentions(lower, HistoriaClinica) then Some(HistoriaClinica)
    else if Mentions(lower, Sintomas) then Some(Sintomas)
    else if Mentions(lower, ExamesFisicos) then Some(ExamesFisicos)
    else if Mentions(lower, Questao) then Some(Questao)
    else None
  }

  /** A heading goes to the section with the highest priority among those
      whose keywords it mentions; a line mentioning none is not a heading. */
  lemma ClassifyByPriority(linha: string, k: Secao)
    ensures Classify(linha) == Some(k) <==>
              Mentions(ToLower(Trim(linha)), k) &&
              forall k': Secao :: k'.Rank() < k.Rank() ==> !Mentions(ToLower(Trim(linha)), k')
    ensures Classify(linha).None? <==> forall k': Secao :: !Mentions(ToLower(Trim(linha)), k')
  {
    var lower := ToLower(Trim(linha));
    assert DadosPaciente.Rank() == 0 && HistoriaClinica.Rank() == 1 && Sintomas.Rank() == 2;
    assert ExamesFisicos.Rank() == 3 && Questao.Rank() == 4;
    forall k': Secao | Classify(linha).None?
      ensures !Mentions(lower, k')
    {
      match k'
      case DadosPaciente =>
      case HistoriaClinica =>
      case Sintomas =>
      case ExamesFisicos =>
      case Questao =>
    }
    forall k': Secao | Classify(linha) == Some(k) && k'.Rank() < k.Rank()
      ensures !Mentions(lower, k')
    {
      match k'
      case DadosPaciente =>
      case HistoriaClinica =>
      case Sintomas =>
      case ExamesFisicos =>
      case Questao =>
    }
  }

  /** How the splitter tells a heading from an ordinary line; the splitter
      itself uses `Classify`. Its properties hold for any classifier. */
  type Classifier = string -> Option<Secao>

  /** A line that is copied: not a heading and not blank. */
  predicate IsBody(heading: Classifier, linha: string) {
    heading(linha).None? && Trim(linha) != ""
  }

  datatype Buffers = Buffers(dados: string, historia: string, sintomas: string, exames: string, questao: string) {

    function Get(k: Secao): string {
      match k
      case DadosPaciente => dados
      case HistoriaClinica => historia
      case Sintomas => sintomas
      case ExamesFisicos => exames
      case Questao => questao
    }

    /** Appends `text` to section `k` and to no other. */
    function Append(k: Secao, text: string): (b: Buffers)
      ensures b.Get(k) == Get(k) + text
      ensures forall k' :: k' != k ==> b.Get(k') == Get(k')
    {
      match k
      case DadosPaciente => this.(dados := dados + text)
      case HistoriaClinica => this.(historia := historia + text)
      case Sintomas => this.(sintomas := sintomas + text)
      case ExamesFisicos => this.(exames := exames + text)
      case Questao => this.(questao := questao + text)
    }
  }

  /** The state of the line loop: the current section and the text gathered so far. */
  datatype Scan = Scan(atual: Secao, buffers: Buffers)

  /** One turn of the `forEach`: a heading switches the current section, a
      body line is appended (untrimmed, with its line feed) to the current
      section, a blank line is dropped. */
  function Feed(heading: Classifier, st: Scan, linha: string): (r: Scan)
    ensures r.atual == (if heading(linha).Some? then heading(linha).value else st.atual)
  {
    match heading(linha)
    case Some(k) => Scan(k, st.buffers)
    case None =>
      if Trim(linha) != "" then Scan(st.atual, st.buffers.Append(st.atual, linha + "\n"))
      else st
  }

  /** The `forEach` over the lines, as a left fold of `Feed` starting in the
      patient-data section with every section empty. */
  function ScanLines(heading: Classifier, lines: seq<string>): Scan
    decreases |lines|
  {
    if |lines| == 0 then
      Scan(DadosPaciente, Buffers("", "", "", "", ""))
    else
      Feed(heading, ScanLines(heading, lines[..|lines| - 1]), lines[|lines| - 1])
  }

  /** No heading among `lines[a..b]`. */
  ghost predicate NoHeading(heading: Classifier, lines: seq<string>, a: nat, b: nat)
    requires a <= b <= |lines|
  {
    forall m :: a <= m < b ==> heading(lines[m]).None?
  }

  /** Section `k` is in effect just before line `i`: it was named by the
      last heading before `i`, or there is no heading before `i` and `k` is
      the starting section. */
  ghost predicate InEffect(heading: Classifier, lines: seq<string>, i: nat, k: Secao)
    requires i <= |lines|
  {
    || (exists j :: 0 <= j < i && heading(lines[j]) == Some(k) && NoHeading(heading, lines, j + 1, i))
    || (k == DadosPaciente && NoHeading(heading, lines, 0, i))
  }

  /** The position of the last heading before line `i`, if any. */
  function LastHeading(heading: Classifier, lines: seq<string>, i: nat): (r: Option<nat>)
    requires i <= |lines|
    ensures r.Some? ==> r.value < i && heading(lines[r.value]).Some? && NoHeading(heading, lines, r.value + 1, i)
    ensures r.None? ==> NoHeading(heading, lines, 0, i)
    decreases i
  {
    if i == 0 then None
    else if heading(lines[i - 1]).Some? then Some(i - 1)
    else LastHeading(heading, lines, i - 1)
  }

  /** The section in effect just before line `i`, computed backwards. */
  function SectionAt(heading: Classifier, lines: seq<string>, i: nat): Secao
    requires i <= |lines|
  {
    match LastHeading(heading, lines, i)
    case None => DadosPaciente
    case Some(j) => heading(lines[j]).value
  }

  /** A heading with no heading after it is the last heading. */
  lemma {:induction false} LastHeadingIs(heading: Classifier, lines: seq<string>, i: nat, j: nat)
    requires j < i <= |lines|
    requires heading(lines[j]).Some? && NoHeading(heading, lines, j + 1, i)
    ensures LastHeading(heading, lines, i) == Some(j)
    decreases i
  {
    if j < i - 1 {
      LastHeadingIs(heading, lines, i - 1, j);
    }
  }

  /** The last heading before `i` does not depend on the lines from `i` on. */
  lemma {:induction false} LastHeadingPrefix(heading: Classifier, lines: seq<string>, m: nat, i: nat)
    requires i <= m <= |lines|
    ensures LastHeading(heading, lines[..m], i) == LastHeading(heading, lines, i)
    decreases i
  {
    if i > 0 {
      assert lines[..m][i - 1] == lines[i - 1];
      LastHeadingPrefix(heading, lines, m, i - 1);
    }
  }

  /** The backward computation agrees with the declarative reading: exactly
      one section is in effect at every line, and it is `SectionAt`. */
  lemma InEffectIsSectionAt(heading: Classifier, lines: seq<string>, i: nat, k: Secao)
    requires i <= |lines|
    ensures InEffect(heading, lines, i, k) <==> SectionAt(heading, lines, i) == k
  {
    if exists j :: 0 <= j < i && heading(lines[j]) == Some(k) && NoHeading(heading, lines, j + 1, i) {
      var j :| 0 <= j < i && heading(lines[j]) == Some(k) && NoHeading(heading, lines, j + 1, i);
      LastHeadingIs(heading, lines, i, j);
    }
    match LastHeading(heading, lines, i)
    case None =>
    case Some(j) =>
      assert heading(lines[j]) == Some(SectionAt(heading, lines, i));
  }

  /** Moving past line `i` changes the section only at a heading. */
  lemma SectionAtStep(heading: Classifier, lines: seq<string>, i: nat)
    requires i < |lines|
    ensures SectionAt(heading, lines, i + 1) ==
              if heading(lines[i]).Some? then heading(lines[i]).value else SectionAt(heading, lines, i)
  {
  }

  /** One turn of the loop, as far as the current section goes. */
  lemma ScanAtualStep(heading: Classifier, lines: seq<string>)
    requires |lines| > 0
    ensures var last := lines[|lines| - 1];
      ScanLines(heading, lines).atual ==
        if heading(last).Some? then heading(last).value else ScanLines(heading, lines[..|lines| - 1]).atual
  {
  }

  /** The section in effect before line `i` is read off the lines before `i`. */
  lemma SectionAtPrefix(heading: Classifier, lines: seq<string>, i: nat)
    requires i <= |lines|
    ensures SectionAt(heading, lines[..i], i) == SectionAt(heading, lines, i)
  {
    LastHeadingPrefix(heading, lines, i, i);
  }

  /** The section the loop is in after `lines` is the one named by the last
      heading among them (the starting section when there is none). */
  lemma {:induction false} ScanFollowsLastHeading(heading: Classifier, lines: seq<string>)
    ensures ScanLines(heading, lines).atual == SectionAt(heading, lines, |lines|)
    decreases |lines|
  {
    var n := |lines|;
    if n > 0 {
      ScanFollowsLastHeading(heading, lines[..n - 1]);
      ScanAtualStep(heading, lines);
      SectionAtPrefix(heading, lines, n - 1);
      SectionAtStep(heading, lines, n - 1);
    }
  }

  /** The reference reading of the splitter: section `k` holds, in input
      order, every body line over which `k` is in effect, each followed by a
      line feed. Heading lines and blank lines are in no section. */
  ghost function Gathered(heading: Classifier, lines: seq<string>, k: Secao): string
    decreases |lines|
  {
    if |lines| == 0 then ""
    else
      var n := |lines| - 1;
      Gathered(heading, lines[..n], k) + (if IsBody(heading, lines[n]) && InEffect(heading, lines, n, k) then lines[n] + "\n" else "")
  }

  /** One turn of the loop adds a body line to the current section only. */
  lemma FeedAppends(heading: Classifier, st: Scan, linha: string, k: Secao)
    ensures Feed(heading, st, linha).buffers.Get(k) ==
              st.buffers.Get(k) + (if IsBody(heading, linha) && st.atual == k then linha + "\n" else "")
  {
  }

  /** The last line adds to section `k` exactly when it is a body line and
      `k` is the section in effect over it. */
  lemma GatheredStep(heading: Classifier, lines: seq<string>, k: Secao)
    requires |lines| > 0
    ensures var n := |lines| - 1;
      Gathered(heading, lines, k) == Gathered(heading, lines[..n], k) +
        (if IsBody(heading, lines[n]) && SectionAt(heading, lines, n) == k then lines[n] + "\n" else "")
  {
    InEffectIsSectionAt(heading, lines, |lines| - 1, k);
  }

  /** The last line's turn of the loop, stated on the whole fold. */
  lemma ScanStepAppends(heading: Classifier, lines: seq<string>, k: Secao)
    requires |lines| > 0
    ensures var n := |lines| - 1;
      var st := ScanLines(heading, lines[..n]);
      ScanLines(heading, lines).buffers.Get(k) ==
        st.buffers.Get(k) + (if IsBody(heading, lines[n]) && st.atual == k then lines[n] + "\n" else "")
  {
    var n := |lines| - 1;
    FeedAppends(heading, ScanLines(heading, lines[..n]), lines[n], k);
  }

  /** The reference reading's step, with the section in effect taken from
      the loop. */
  lemma GatheredStepFromScan(heading: Classifier, lines: seq<string>, k: Secao)
    requires |lines| > 0
    ensures var n := |lines| - 1;
      var st := ScanLines(heading, lines[..n]);
      Gathered(heading, lines, k) ==
        Gathered(heading, lines[..n], k) + (if IsBody(heading, lines[n]) && st.atual == k then lines[n] + "\n" else "")
  {
    var n := |lines| - 1;
    ScanFollowsLastHeading(heading, lines[..n]);
    LastHeadingPrefix(heading, lines, n, n);
    GatheredStep(heading, lines, k);
  }

  /** The loop gathers exactly the reference contents of every section. */
  lemma {:induction false} ScanGathersBodyLines(heading: Classifier, lines: seq<string>, k: Secao)
    ensures ScanLines(heading, lines).buffers.Get(k) == Gathered(heading, lines, k)
    decreases |lines|
  {
    if |lines| > 0 {
      ScanGathersBodyLines(heading, lines[..|lines| - 1], k);
      ScanStepAppends(heading, lines, k);
      GatheredStepFromScan(heading, lines, k);
    }
  }

  /** The result of `extrairSecoesCasoClinico`. */
  datatype Secoes = Secoes(
    dadosPaciente: string,
    historiaClinica: string,
    sintomas: string,
    examesFisicos: string,
    questao: string,
    textoCompleto: string)

  /** `extrairSecoesCasoClinico`: the text is split at line feeds and read
      line by line starting in the patient-data section; every section is
      the trimmed text of the body lines under its most recent heading, and
      `textoCompleto` is the input itself. */
  function ExtrairSecoesCasoClinico(texto: string): (r: Secoes)
    ensures r.textoCompleto == texto
    ensures IsTrimmed(r.dadosPaciente) && IsTrimmed(r.historiaClinica) && IsTrimmed(r.sintomas)
    ensures IsTrimmed(r.examesFisicos) && IsTrimmed(r.questao)
    ensures r.dadosPaciente == Trim(Gathered(Classify, Split(texto, "\n"), DadosPaciente))
    ensures r.historiaClinica == Trim(Gathered(Classify, Split(texto, "\n"), HistoriaClinica))
    ensures r.sintomas == Trim(Gathered(Classify, Split(texto, "\n"), Sintomas))
    ensures r.examesFisicos == Trim(Gathered(Classify, Split(texto, "\n"), ExamesFisicos))
    ensures r.questao == Trim(Gathered(Classify, Split(texto, "\n"), Questao))
  {
    var lines := Split(texto, "\n");
    var b := ScanLines(Classify, lines).buffers;
    ScanGathersBodyLines(Classify, lines, DadosPaciente);
    ScanGathersBodyLines(Classify, lines, HistoriaClinica);
    ScanGathersBodyLines(Classify, lines, Sintomas);
    ScanGathersBodyLines(Classify, lines, ExamesFisicos);
    ScanGathersBodyLines(Classify, lines, Questao);
    Secoes(Trim(b.Get(DadosPaciente)), Trim(b.Get(HistoriaClinica)), Trim(b.Get(Sintomas)),
           Trim(b.Get(ExamesFisicos)), Trim(b.Get(Questao)), texto)
  }

  /** A heading line switches the current section and adds nothing to any
      section. */
  lemma HeadingNotCopied(lines: seq<string>, h: string, k: Secao)
    requires Classify(h) == Some(k)
    ensures ScanLines(Classify, lines + [h]) == Scan(k, ScanLines(Classify, lines).buffers)
  {
    assert (lines + [h])[..|lines|] == lines;
  }
}
